=== FILE: README.md ===
# kaioken core in Dafny

This project models the deterministic core of kaioken, a small React-like UI library. It states and proves properties of that model.

It covers five areas:

- **The early engine** (`package/src/index.ts`): the positional reconciler (`reconcileChildren`), the `performUnitOfWork` walk, the `useState` and `useEffect` hooks, `updateDom`, and the commit phase (`commitRoot`, `commitWork`, `commitDeletion`).
- **The hook dispatcher** (`packages/lib/src/hooks/utils.ts`): `useHook` with its three rules, the run-once `cleanupHook`, and `depsRequireChange`.
- **The signal engine** (`packages/lib/src/signal.ts` and the id-keyed `packages/lib/src/signals/computed.ts`):
  - the `Signal` accessors, `subscribe`, `notify` and `entangle`;
  - re-derivation of a computed signal, which reconciles its subscriptions against the signals its getter read;
  - the coalescing effect queue;
  - `WatchEffect.start`/`stop`, `tick` and `unwrap`.
- **The library's commit phase** (`packages/lib/src/dom.ts`): attribute removal and setting, the style merge, the per-key `updateDom`, `commitWork` with its follow-up tasks, `findMountedDomRecursive` and `commitDeletion`.
- **Element normalisation and the string renderer** (`packages/lib/src/index.ts`): `createChildElement`, `createTextElement`, `renderToString`, `transformPropNameToHtmlAttr`, `styleObjectToCss` and `transformPropValueToHtmlAttrValue`.

## How the model represents the program

- **Documents.** The document is an abstract log of operations (`DomOps.DomOp`). An operation's effect on one node is given by a small state record: `EarlyCommit.NodeState` and `LibAttrs.ElemState`.
- **Trees.** Node trees are rose trees. The source's `child`/`sibling` links become a `children` sequence, so a node's sibling is the next element of its parent's children. The `parent` link becomes an explicit list of ancestors, nearest first.
- **Null children of the early engine.** `createElement` keeps a `null` child, because `typeof null` is "object". A component that returns `null` therefore has a `null` child. The reconciler takes each new child as an `Option`, where `None` is `null`.
- **The early engine's walk.** `performUnitOfWork` is modelled on paths (sequences of child indices) in the work tree.
- **The signal store.** Signals, watchers, the effect queue, the microtask list and an event log are one immutable `SignalStore.Store`.
  - A getter is a small expression language. `Read` is `.value`, which is tracked; `Peek` is `.peek()`, which is not.
  - The effect queue is an ordered set of reaction ids. The closure stored under an id re-runs that id's reaction, so the id stands for it.
  - A watcher's closure also calls the cleanup object that the firing subscription captured. The model keeps one cleanup cell per watcher. That cell is the captured object whenever at most one first run executes per `start`; "## Left out" gives the case where two do.
  - Microtasks are an explicit pending list, run by `SignalWatch.Step`.
  - A watcher's cleanup cell follows a `SignalWatch.CellRule`. `AsWritten` is the code's behaviour. `Intended` is the corrected behaviour listed under "## Findings". Every watcher operation takes the rule as a parameter, so each property is stated for the rule it holds under.
- **The library's commit.** `commitWork` returns its follow-up tasks as data (`LibCommit.Task`). The loop that runs them belongs to the global context, which is not part of this model.
- **JavaScript values** are `Values.Value`. `String(v)` is `Values.ToStr`, and falsiness is `Values.IsFalsy`.
- **Props** are ordered `(key, value)` sequences. Their keys are meant to be distinct, as a JavaScript object's are. `Values.Get` reads the first entry for a key. `Values.DistinctKeys` states that invariant. It is required only by the lemmas about a style object written over another (`LibAttrs.StyleObjectOverObject` and its helpers).
- **Helpers from the utilities module.** These are `booleanAttributes`, `propFilters`, `propToHtmlAttr` and `selfClosingTags`. They are not part of this model, so they are parameters: `LibAttrs.Filters` and `LibSsr.SsrConfig`.
- **Parameters for the outside world.** Callbacks, components and lifecycle methods are identified by numbers. Their effects are events in a log.

Where the code and its documentation differ, the model follows the code.

## Model

| member | source | states |
|---|---|---|
| EarlyReconcile.ReconcileChild | package/src/index.ts:275-298 | A child whose type matches the old fiber at its position becomes an UPDATE fiber that inherits the old `dom` and hooks and has the old fiber as `alternate`. Any other child becomes a PLACEMENT fiber with no `dom`, no `alternate` and no hooks. |
| EarlyReconcile.Linked | package/src/index.ts:308-315 | The `child`/`sibling` chain covers the leading run of non-null children and stops at the first `null` one. |
| EarlyReconcile.ReconcileChildren | package/src/index.ts:266-317 | A non-null child right after a `null` one throws, at the first such position. Otherwise the new fibers are exactly the leading non-null children, with their types and props. Each is tagged UPDATE or PLACEMENT by the type at its position, and every later child is `null`. The deleted list is exactly the old fibers not matched at their position by a non-null child of the same type, in order. |
| EarlyReconcile.DeletedAreTagged | package/src/index.ts:299-302 | Every fiber pushed to `deletions` is tagged DELETION. |
| EarlyReconcile.DeletedOncePerUnmatched | package/src/index.ts:271-306 | Each old child is counted exactly once: it is either reused in place or deleted. |
| EarlyReconcile.DivSpanDivScenario | package/src/index.ts:266-317 | Reconciling `[div,p,div]` against old `[div,span,div]` gives UPDATE, PLACEMENT, UPDATE and deletes only the span. |
| EarlyReconcile.NullChildScenario | package/src/index.ts:266-317 | A component whose only child is `null`, reconciled against an old `div`: no fiber is created and the `div` is deleted. |
| EarlyReconcile.NullThenElementScenario | package/src/index.ts:311 | `[null, p]` throws at position 1, where the `p` is linked to a missing fiber. |
| EarlyReconcile.ElementThenNullScenario | package/src/index.ts:266-317 | `[p, null]` keeps only the `p`. |
| EarlyWalk.NextUnit | package/src/index.ts:179-189 | The next unit of work, when there is one, is a node of the tree. |
| EarlyWalk.NextUnitIsPreorderSuccessor | package/src/index.ts:172-190 | The next unit is the pre-order successor of the current node: it comes after the current node, and no node of the tree lies between them. When there is none, no node comes after the current one. |
| EarlyWalk.ClimbSkipsOnlyDescendants | package/src/index.ts:182-188 | Climbing to the nearest sibling of the node or an ancestor skips only the node's own descendants. |
| EarlyWalk.PreorderTransitive | package/src/index.ts:179-189 | The pre-order the walk follows is transitive. |
| EarlyWalk.BetweenSiblingsIsDescendant | package/src/index.ts:183-187 | Anything between a node and its next sibling in pre-order lies inside the node's subtree. |
| EarlyHooks.UseState | package/src/index.ts:204-236 | Fails exactly when the slot holds an effect hook. Otherwise the state is the old state, or `initial`, with the old queue's updaters folded over it in submission order. It pushes a hook with an empty queue and advances the index by one. |
| EarlyHooks.Enqueue | package/src/index.ts:220-222 | Queuing an action makes the pending result that action applied after all earlier updates. A plain value becomes a constant updater. |
| EarlyHooks.SetState | package/src/index.ts:220-231 | Fails exactly when there is no committed root. Otherwise it queues the action and starts a fresh root render whose alternate is the committed root, with no deletions. |
| EarlyHooks.FoldAppend | package/src/index.ts:215-218 | Folding two batches of updaters one after the other equals folding their concatenation. |
| EarlyHooks.ReplaceOverridesEarlierUpdates | package/src/index.ts:222 | The setter tests its argument with `typeof action === "function"`. A plain value queued last wins over every earlier update. A function is instead applied to the state those updates produce. |
| EarlyHooks.RerenderSeesUpdatesInOrder | package/src/index.ts:215-222 | The state after re-render equals the actions applied in the order they were submitted. |
| EarlyHooks.HasChangedDeps | package/src/index.ts:244-246 | True exactly when the deps are empty, or an old effect hook exists and some position differs. It fails when a state hook sits in the slot. |
| EarlyHooks.UseEffect | package/src/index.ts:238-257 | Records the effect hook and advances the index. It queues the callback exactly when `hasChangedDeps` holds and otherwise leaves the pending effects alone. |
| EarlyHooks.UnchangedDepsNotRequeued | package/src/index.ts:244-250 | Re-rendering with the same non-empty deps does not queue the effect again. |
| EarlyHooks.MountWithDepsSkipsEffect | package/src/index.ts:244-250 | As written, a first render with non-empty deps never queues the effect. The corrected version queues it. |
| EarlyHooks.EffectDue | package/src/index.ts:244-246 | Corrected decision: an effect is skipped exactly when an old effect hook has the same non-empty deps. |
| EarlyHooks.UseEffectIntended | package/src/index.ts:238-257 | The corrected hook queues the callback on the first render, whatever the deps. |
| EarlyHooks.EffectDueAgreesAfterMount | package/src/index.ts:244-246 | Once a hook exists, the corrected decision and the written one agree. |
| EarlyCommit.Emit | package/src/index.ts:59-92 | One `updateDom` pass issues an operation for exactly the keys its filter selects, and only operations of its own kind on `dom`. |
| EarlyCommit.UpdateDom | package/src/index.ts:53-93 | Every operation targets `dom`. No listener removal follows a listener addition. |
| EarlyCommit.SetPropertyIn | package/src/index.ts:67-83 | A property is set exactly when it is a non-event, non-`children` key that is gone (to "") or new or changed (to the next value). |
| EarlyCommit.ListenerOpsIn | package/src/index.ts:58-92 | A listener is removed exactly for a prev event key that is gone or changed, and added exactly for a next event key that is new or changed. The event type is the lower-cased key minus `on`. |
| EarlyCommit.UpdateDomProps | package/src/index.ts:67-83 | After `updateDom`, every next property holds its next value. Every gone property reads "". Everything else is untouched. |
| EarlyCommit.ListenerAfterUpdate | package/src/index.ts:58-92 | A listener is present after `updateDom` exactly when it was kept or was added. |
| EarlyCommit.UpdateDomAttachesNext | package/src/index.ts:85-92 | Every function-valued event prop of the next props is attached afterwards, when distinct event keys name distinct event types. |
| EarlyCommit.UpdateDomDetachesPrev | package/src/index.ts:58-65 | A gone or changed listener that the next props do not want again is detached. Listeners neither side mentions are untouched. |
| EarlyCommit.CommitDeletion | package/src/index.ts:127-133 | Deleting issues at most one removal, always from the given parent. |
| EarlyCommit.DeletionRemovesTopmostNode | package/src/index.ts:127-133 | The node removed is the first node with a `dom` on the first-child chain. When no such node exists, nothing is removed. |
| EarlyCommit.DeletionIsTopmost | package/src/index.ts:127-133 | A deletion removes exactly the topmost document node on the fiber's first-child chain from the given parent, or nothing when the chain has none. |
| EarlyCommit.DeletionOpsAreRemovals | package/src/index.ts:96 | `deletions.forEach(commitWork)` performs exactly the reference removals, in queue order. |
| EarlyCommit.CommitAppendsPlacedNodes | package/src/index.ts:103-125 | Committing a tree without deletions appends exactly the document nodes of its PLACEMENT fibers. |
| EarlyCommit.CleanTreeRemovesNothing | package/src/index.ts:103-125 | Committing a tree without deletions removes nothing. |
| EarlyCommit.CommitForestIsPreorder | package/src/index.ts:103-125 | Committing a tree without deletions performs, fiber by fiber in pre-order (a fiber, its subtree, then its later siblings), exactly each fiber's own operations, and nothing else. |
| EarlyCommit.FiberOpsInPlace | package/src/index.ts:103-125 | Each fiber's own operations form one contiguous block of the commit, preceded by exactly those of the fibers before it in pre-order and followed by exactly those after it. |
| EarlyCommit.FiberOpsByTag | package/src/index.ts:114-118 | That block, by tag: a PLACEMENT fiber with a node appends it to its nearest ancestor's node; an UPDATE fiber with a node gets exactly `updateDom(dom, alternate props or {}, props)`, as one contiguous run; any other fiber contributes nothing. |
| EarlyCommit.DeletionOpsOnlyRemove | package/src/index.ts:96 | Committing the deletion list only removes nodes, at most one per deleted fiber. |
| EarlyCommit.RunEffects | package/src/index.ts:99 | Pending effects run last-in first-out, each exactly once. |
| EarlyCommit.CommitRoot | package/src/index.ts:95-101 | The work root becomes the current root. The work root and pending effects are cleared. Effects run in reverse order at the end of the operations. `EarlyCommit.CommitRootOps` states the whole operation list. |
| EarlyCommit.CommitRootOps | package/src/index.ts:95-101 | With DELETION-tagged deletions and a new tree without such tags, a commit's operations are exactly the reference removals, then every fiber's own operations in pre-order, then the effects, last queued first. |
| EarlyCommit.CommitRootContent | package/src/index.ts:95-101 | With DELETION-tagged deletions and a new tree without such tags, the operations begin with exactly the reference removals. Each deleted fiber's topmost document node is taken from its paired parent, in queue order. No other node is removed, and the appended nodes are exactly those of the new tree's PLACEMENT fibers. |
| EarlyCommit.CommitRootAppends | package/src/index.ts:95-97 | The nodes a commit appends are exactly those of the PLACEMENT fibers of the new tree. |
| EarlyCommit.CommitRootRemovesBeforeInserting | package/src/index.ts:95-97 | Every removal of a deleted node comes before every append of the new tree. |
| HookDispatch.UseHookAsWritten | packages/lib/src/hooks/utils.ts:34-64 | As written, a nested call fails and changes nothing. A call that fails after the flag is raised, in a check or because the callback throws, leaves the flag raised. |
| HookDispatch.FailedCallPoisonsLaterCalls | packages/lib/src/hooks/utils.ts:39-44 | As written, one call made with no current node makes every later call fail as nested. |
| HookDispatch.ThrowingBodyPoisonsLaterCalls | packages/lib/src/hooks/utils.ts:39-67 | As written, a callback that throws (its own error, or the nested-call error of a hook it calls) passes its error on, stores nothing and leaves the flag raised, so every later call fails as nested. The corrected dispatcher gives the same error and leaves the state as it was. |
| HookDispatch.UseHook | packages/lib/src/hooks/utils.ts:29-69 | Fails as nested when a hook call is running, then for a missing node, a missing context, or a recorded hook of another name, in that order, each with its own error. When the checks pass, a throwing callback's error is the result. Succeeds exactly when the checks pass and the callback does not throw. Every failure leaves the state as it was. On success, the old record (or the given one, named) goes to the callback, the result is stored at the index, the index advances by one, the flag is cleared, and other slots are untouched. |
| HookDispatch.FailedCallLeavesNoTrace | packages/lib/src/hooks/utils.ts:34-57 | A failed call does not affect any later call. |
| HookDispatch.AsWrittenAgreesOnSuccess | packages/lib/src/hooks/utils.ts:29-69 | The corrected dispatcher returns what the written one returns, and leaves the same state whenever the call succeeds. |
| HookDispatch.SameOrderRerenderSucceeds | packages/lib/src/hooks/utils.ts:50-66 | Re-rendering with hooks called in their recorded order, whose callbacks do not throw on those records, succeeds. Slots before the first call are untouched, and the index advances by the number of calls. |
| HookDispatch.SameOrderCallsGetRecords | packages/lib/src/hooks/utils.ts:50-66 | In such a re-render, every call gets the record kept at its position. It returns what its body makes of that record, and the body's record is stored there. |
| HookDispatch.CleanupHook | packages/lib/src/hooks/utils.ts:71-76 | Runs the cleanup if there is one, then clears it. The rest of the hook is unchanged. |
| HookDispatch.CleanupRunsOnce | packages/lib/src/hooks/utils.ts:71-76 | A second cleanup does nothing, so a cleanup runs at most once. |
| HookDispatch.DepsRequireChangeIff | packages/lib/src/hooks/utils.ts:78-85 | No change is required exactly when both lists are present and equal position by position. |
| HookDispatch.DepsReflexive | packages/lib/src/hooks/utils.ts:78-85 | A defined list never requires a change against itself. |
| HookDispatch.DepsSymmetric | packages/lib/src/hooks/utils.ts:78-85 | The comparison is symmetric. |
| OrderedSets.Insert | packages/lib/src/signal.ts:307 | `Set.add`: the members are the old ones plus the new one. No duplicates arise, an existing member changes nothing, and a new one goes at the end. |
| OrderedSets.Without | packages/lib/src/signal.ts:308 | `Set.delete`: exactly that member is removed, and the order of the rest is kept. |
| OrderedSets.InsertThenWithout | packages/lib/src/signal.ts:306-309 | Removing a callback just added restores the set exactly. |
| SignalStore.Eval | packages/lib/src/signal.ts:369-375 | A getter records only signals it reads through `.value`. |
| SignalStore.TrackedReadsDetermine | packages/lib/src/signal.ts:369-375 | A getter's result and reads depend only on the values of the signals it recorded and the ones it peeked. |
| SignalStore.Sneak | packages/lib/src/signal.ts:297-299 | `sneak` stores the value without notifying or touching anything else. |
| SignalStore.ReadValue | packages/lib/src/signal.ts:369-383 | `.value` returns the stored value. With a rendering node and side effects on, it subscribes the node and records the signal in the node's `subs`. Otherwise it changes nothing. |
| SignalStore.ReadTwiceSubscribesOnce | packages/lib/src/signal.ts:376-382 | Reading twice subscribes the node once. |
| SignalStore.Subscribe | packages/lib/src/signal.ts:306-307 | `subscribe` adds exactly that callback and changes nothing else. |
| SignalStore.Unsubscribe | packages/lib/src/signal.ts:325-327 | `unsubscribe` removes exactly that subscriber and changes nothing else. |
| SignalStore.SubscribeThenUnsubscribe | packages/lib/src/signal.ts:306-309 | The function `subscribe` returns undoes it exactly. |
| SignalStore.Schedule | packages/lib/src/signal.ts:414-428 | A dependency callback marks its reaction pending. It queues a flush microtask only when the reaction was not already pending, and keeps one entry per id. |
| SignalStore.ScheduleCoalesces | packages/lib/src/signal.ts:414-428 | Scheduling twice is scheduling once, with at most one microtask. |
| SignalStore.NotifyEventsExact | packages/lib/src/signal.ts:311-319 | `notify` calls every admitted function subscriber with the value and requests an update for every admitted node. It notifies nobody else. |
| SignalStore.NotifyEachQueue | packages/lib/src/signal.ts:311-319 | The reactions scheduled by a notification are exactly the admitted reaction subscribers. The queue stays duplicate-free. |
| SignalStore.NotifyEachAppendsMicro | packages/lib/src/signal.ts:311-319 | A notification only appends flush microtasks: every microtask already queued keeps its place. |
| SignalStore.Notify | packages/lib/src/signal.ts:311-319 | A notification extends the log only with calls to admitted subscribers. It calls every admitted listener with the value and requests an update for every admitted node. Signal values and watchers are unchanged. |
| SignalStore.Write | packages/lib/src/signal.ts:288-291 | Assigning a plain signal stores the value, then notifies every subscriber: each listener is called with the value and each node is asked to update. No other signal changes. Assigning a computed signal does nothing. |
| SignalStore.WriteThenPeek | packages/lib/src/signal.ts:288-295 | `peek` after an assignment returns the assigned value and leaves other signals as they were. |
| SignalStore.Unwrap | packages/lib/src/signal.ts:202-206 | `unwrap` peeks a signal and returns any other value unchanged. |
| SignalDerive.DropUntracked | packages/lib/src/signal.ts:409-413 | Dependencies not read this run are unsubscribed and dropped. Those read are kept in order. |
| SignalDerive.SubscribeNew | packages/lib/src/signal.ts:430-435 | Signals read for the first time are subscribed once and added. Existing entries are not subscribed again. |
| SignalDerive.Reconcile | packages/lib/src/signals/computed.ts:117-148 | After reconciling, the dependency keys are exactly the signals read. Each signal's subscriber set changes only in the reaction's own entry. |
| SignalDerive.ReconcileSteps | packages/lib/src/signal.ts:409-435 | The drop pass followed by the subscribe pass gives the per-signal adjustment. When the reads match the old dependencies, nothing changes. |
| SignalDerive.ReconcileKeepsSubscribedExactly | packages/lib/src/signals/computed.ts:117-148 | If the reaction was subscribed to exactly its dependencies, it still is afterwards. |
| SignalDerive.DeriveComputed | packages/lib/src/signal.ts:390-445 | The computed value becomes the getter's result. The dependencies become exactly the signals read, unless a node renders with side effects off, in which case subscriptions are untouched. The pending entry is removed. Nothing is notified. |
| SignalDerive.DeriveSubscribesExactlyReads | packages/lib/src/signals/computed.ts:101-151 | A derivation keeps the computed subscribed to exactly the signals it depends on. |
| SignalDerive.DeriveAtFixedPoint | packages/lib/src/signal.ts:398-435 | When the getter yields the stored value and reads exactly the recorded entries, a derivation only drops the pending entry and logs the run. |
| SignalDerive.DeriveAgainChangesNothing | packages/lib/src/signal.ts:398-435 | Deriving twice in a row leaves the same store. Only the getter runs again. |
| SignalDerive.CreateComputed | packages/lib/src/signals/computed.ts:62-70 | A new computed starts with the getter's value. Its dependencies are exactly the signals that run read, and no other signal's value changes. |
| SignalDerive.ComputedStop | packages/lib/src/signals/computed.ts:47-51 | `stop` drops the pending entry and unsubscribes from every dependency. It empties the map, keeps the value and changes no other subscription. |
| SignalDerive.ComputedStopUnsubscribesAll | packages/lib/src/signals/computed.ts:47-51 | After `stop` the computed hears from no signal, given it was subscribed exactly to its entries. |
| SignalDerive.ComputedStopIdempotent | packages/lib/src/signals/computed.ts:47-51 | A second `stop` changes nothing. |
| SignalDerive.UseComputed | packages/lib/src/signals/computed.ts:71-98 | Corrected (`isInit` read as "no old hook"): inside a component the computed is created and started on the first render only. Every call returns the computed. |
| SignalDerive.UseComputedAsWritten | packages/lib/src/signals/computed.ts:62-98 | As written: outside a component a computed is created and returned. Inside one, `useHook` supplies no `isInit`, so nothing is created and `undefined` is returned. |
| SignalDerive.ComputedInComponentIsUndefined | packages/lib/src/signals/computed.ts:77-95 | On a component's first render the written hook yields no signal and creates nothing, while the corrected one creates and returns the computed. Outside components they agree. |
| SignalDerive.ComputedHookCleanup | packages/lib/src/signals/computed.ts:79-82 | The hook cleanup stops the computed and clears its subscribers. |
| SignalWatch.KeptCleanupAsWritten | packages/lib/src/signal.ts:462-463 | As written, a returned function replaces the kept cleanup. A run that returns nothing keeps the old one. |
| SignalWatch.StaleCleanupCalledAgain | packages/lib/src/signal.ts:457-491 | As written, a cleanup returned once is called again on a later re-run that returned nothing. The corrected rule calls it once. |
| SignalWatch.ReturnedCleanup | packages/lib/src/signal.ts:462-463 | Corrected: the kept cleanup is exactly what this run returned, if it returned a function. |
| SignalWatch.EachCleanupCalledOnce | packages/lib/src/signal.ts:478-491 | With the corrected rule, re-runs call exactly the cleanups returned by the runs before them, each once. |
| SignalWatch.RunEffect | packages/lib/src/signal.ts:451-502 | A returned function becomes the kept cleanup. A run that returns nothing keeps the old cleanup as written, and empties the cell under the corrected rule. The dependencies become exactly the signals read, unless side effects are off. The pending entry is removed, and no signal value changes. |
| SignalWatch.CallCleanup | packages/lib/src/signal.ts:489 | The kept cleanup is called if present. As written the cell keeps it. The corrected rule empties the cell. |
| SignalWatch.WatchStart | packages/lib/src/signal.ts:131-149 | `start` is a no-op on a running watcher. Otherwise it marks the watcher running and queues its first run as a microtask. |
| SignalWatch.WatchStop | packages/lib/src/signal.ts:151-161 | `stop` is a no-op on a stopped watcher. Otherwise it drops the pending entry, unsubscribes from every dependency and empties them, calls the cleanup and clears `isRunning`. As written the cell still holds the called cleanup. |
| SignalWatch.StartStopIdempotent | packages/lib/src/signal.ts:131-161 | Starting twice is starting once. Stopping twice is stopping once. |
| SignalWatch.StoppedWatcherHearsNothing | packages/lib/src/signal.ts:151-161 | After `stop`, no signal has the watcher as a subscriber. |
| SignalWatch.RestartedStopCallsCleanupAgain | packages/lib/src/signal.ts:131-160 | As written, stop, start and stop again before the deferred first run calls the same cleanup twice. |
| SignalWatch.RestartedStopCallsCleanupOnce | packages/lib/src/signal.ts:131-160 | Under the corrected rule, the same sequence calls the cleanup once. |
| SignalWatch.RerunKeepsCalledCleanup | packages/lib/src/signal.ts:457-491 | As written, a re-run whose getter returns nothing calls the kept cleanup and keeps it, so the next call runs it again. Under the corrected rule the cell is empty afterwards. |
| SignalWatch.FlushNotifiesDerivedValue | packages/lib/src/signal.ts:424-427 | The queued closure re-derives before notifying, so listeners receive the new value. |
| SignalWatch.StartThenStopNeverRuns | packages/lib/src/signal.ts:144-148 | Starting and stopping before the microtask runs means the getter never runs. |
| SignalWatch.RestartRunsFirstRunTwice | packages/lib/src/signal.ts:130-161 | Start, stop and start before the microtasks run queue two first runs, and both run the getter. |
| SignalWatch.DeriveClosureRan | packages/lib/src/signal.ts:424-427 | Running a computed's pending closure runs exactly that reaction. |
| SignalWatch.WatchClosureRan | packages/lib/src/signal.ts:488-491 | Running a watcher's pending closure runs exactly that reaction. |
| SignalWatch.RunReactionRan | packages/lib/src/signal.ts:424-491 | A reaction's closure runs exactly that reaction's getter when the reaction still exists, and no getter otherwise. |
| SignalWatch.RunReactionFrame | packages/lib/src/signal.ts:424-491 | A closure never removes another pending reaction, and never creates or destroys a reaction. |
| SignalWatch.TickStep | packages/lib/src/signal.ts:506-511 | A pending reaction has its closure run, which runs its getter when it still exists, and is then deleted. A reaction no longer pending is skipped and nothing changes. |
| SignalWatch.LiveIn | packages/lib/src/signal.ts:504-513 | The reference for a tick: the existing reactions among the ids, in order. |
| SignalWatch.TickOverRan | packages/lib/src/signal.ts:504-513 | Ticking over distinct pending ids runs exactly the getters of those that exist, in the ids' order. |
| SignalWatch.Tick | packages/lib/src/signal.ts:504-513 | `tick` runs the getter of every reaction pending when it starts that still exists, each once, in insertion order, and nothing else. |
| SignalExample.CreatedUntracked | sandbox/csr/src/components/SignalsExample.tsx:5-12 | `double` created while `isTracking` is false has value 0 and depends on `isTracking` only. |
| SignalExample.CreatedReady | sandbox/csr/src/components/SignalsExample.tsx:5-12 | After creation, `double` is subscribed exactly to its dependencies. |
| SignalExample.FlushDouble | sandbox/csr/src/components/SignalsExample.tsx:5-12 | Flushing `double` re-derives it from the current values and keeps its subscriptions exact. |
| SignalExample.WriteKeepsDouble | sandbox/csr/src/components/SignalsExample.tsx:5-12 | Writing `count` or `isTracking` schedules `double` exactly when it depends on the signal written. |
| SignalExample.TrackingOn | sandbox/csr/src/components/SignalsExample.tsx:5-12 | Switching tracking on schedules `double`. The flush makes it `count * 2`, depending on `isTracking` and `count`. |
| SignalExample.TrackingOnSubscribesCount | sandbox/csr/src/components/SignalsExample.tsx:5-12 | Once tracking is on and flushed, `double` listens to `count`, so a later write to `count` schedules it. |
| SignalExample.TrackingOffFlush | sandbox/csr/src/components/SignalsExample.tsx:5-12 | Switching tracking off schedules `double`. The flush makes it 0, depending on `isTracking` alone. |
| SignalExample.TrackingOff | sandbox/csr/src/components/SignalsExample.tsx:5-12 | Switching tracking off unsubscribes `double` from `count`, so later writes to `count` do not schedule it. |
| LibAttrs.HandleAttributeRemoval | packages/lib/src/dom.ts:30-56 | Removes the attribute and reports true exactly for null, undefined, a function, a symbol, and `false` on a boolean attribute. Otherwise it issues nothing. |
| LibAttrs.SetDomAttribute | packages/lib/src/dom.ts:58-64 | An attribute that is not removed is set to "" when boolean and to `String(value)` otherwise. |
| LibAttrs.SetDomAttributeEffect | packages/lib/src/dom.ts:58-64 | Afterwards the attribute is absent exactly when the value is dropped. Otherwise it holds the text above. Other attributes, styles and listeners are unchanged. |
| LibAttrs.SetDomAttributeIdempotent | packages/lib/src/dom.ts:58-64 | Setting an attribute twice is setting it once. |
| LibAttrs.SetStyleProp | packages/lib/src/dom.ts:81-108 | A dropped value removes the style attribute. A string sets it verbatim. A boolean or number does nothing. All operations target the node. |
| LibAttrs.StyleObjectOverObject | packages/lib/src/dom.ts:92-107 | For an object over an object, each key of the new object holds its value and each key only in the old object is cleared to "". Other style keys, attributes and listeners are unchanged. |
| LibAttrs.SetProp | packages/lib/src/dom.ts:66-79 | `style` goes to `setStyleProp` with the next and previous values. Any other key goes to `setDomAttribute` under its HTML attribute name. |
| LibAttrs.KeyUnion | packages/lib/src/dom.ts:114 | The keys visited are the union of prev and next keys, each once. |
| LibAttrs.UpdateDom | packages/lib/src/dom.ts:110-136 | Every operation targets the node and arises from one of the visited keys. |
| LibAttrs.UpdateDomListeners | packages/lib/src/dom.ts:119-124 | A listener is added exactly for a non-internal event key whose value changed and which is in next. It is removed exactly when such a key is in prev. |
| LibAttrs.UpdateDomSetsProps | packages/lib/src/dom.ts:126-129 | On an element, every non-internal, non-swapped key gets `setProp` with its next and previous values. |
| LibAttrs.UpdateDomText | packages/lib/src/dom.ts:130-132 | On a text node, no attribute or style is touched. `nodeValue` is set only when previous props exist and `nodeValue` differs. When `nodeValue` is neither internal nor an event key, such a change is always set. |
| LibCommit.FindMountedIsPreorderFirst | packages/lib/src/dom.ts:219-231 | `findMountedDomRecursive` returns the first connected `dom` in pre-order over the node's subtree, or nothing. |
| LibCommit.FindMountedInIsPreorderFirst | packages/lib/src/dom.ts:224-229 | With siblings included, the search covers the subtrees of the node and its later siblings, in pre-order. |
| LibCommit.PopHooksCallsEachCleanupOnce | packages/lib/src/dom.ts:241 | Popping hooks until none are left calls each hook's cleanup once, last hook first. |
| LibCommit.CommitDeletion | packages/lib/src/dom.ts:233-256 | A class component with an instance calls exactly its `componentWillUnmount`, if defined, and keeps its hooks. Any other component pops its hooks and runs their cleanups. The `dom` is removed only when connected and not the instance root, and is then forgotten. Follow-ups delete the first child, and the next sibling only when asked. |
| LibCommit.DeletionReachesSubtree | packages/lib/src/dom.ts:248-255 | Running the deletion follow-ups reaches exactly the node's subtree in pre-order, plus the later siblings' subtrees when siblings are deleted. |
| LibCommit.SearchDomParentIsNearest | packages/lib/src/dom.ts:154-160 | The parent search returns the document node of the nearest ancestor that has one. |
| LibCommit.Mount | packages/lib/src/dom.ts:166-177 | An empty parent gets an append. Otherwise the node goes after the given anchor, or after the first mounted node of the previous sibling, or is appended when there is none. |
| LibCommit.Committed | packages/lib/src/dom.ts:214-215 | The tag is cleared. `prev` becomes a copy of the node whose own `prev` is empty. Nothing else changes. |
| LibCommit.Lifecycle | packages/lib/src/dom.ts:200-209 | `componentDidMount` is queued only without `prev`. `componentDidUpdate` is queued only on UPDATE. At most one is queued. |
| LibCommit.CommitWork | packages/lib/src/dom.ts:138-199 | An orphan to be mounted logs and returns nothing. A node to mount is placed under the nearest document parent. An UPDATE node with its own `dom` gets exactly `updateDom`'s operations, then at most the ref assignment. A DELETION goes to `commitDeletion`. Any other node touches the document only through its ref. Corrected: only a node without a `dom` hands its previous sibling to its first child. |
| LibCommit.FinishShape | packages/lib/src/dom.ts:188-216 | The common tail clears the tag, snapshots the node and queues its lifecycle callback. Its follow-ups are the first child's, placed in this node's `dom` with the given previous sibling, and the next sibling's only when asked. |
| LibCommit.CommitWorkFinishes | packages/lib/src/dom.ts:138-217 | Every node that is neither an orphan nor a deletion ends with that tail. The first child is placed inside this node's `dom`, with no previous sibling when the node has a `dom` and with the node's own previous sibling when it has none. |
| LibCommit.CommitWorkAsWritten | packages/lib/src/dom.ts:188-193 | As written, the first child's follow-up is handed the node's own previous sibling as its anchor. |
| LibCommit.CommitAgainIsQuiet | packages/lib/src/dom.ts:138-217 | Committing a committed, connected node again issues nothing but the ref assignment, queues no callback and leaves the node as it is. |
| LibCommit.FirstChildAnchoredOutsideParent | packages/lib/src/dom.ts:190-193 | As written, a new first child of an updated `div` is inserted after the `div`'s previous sibling, outside the `div`. |
| LibCommit.FirstChildPlacedInParent | packages/lib/src/dom.ts:190-193 | Corrected, the same child is appended inside the `div`, after the `span`. |
| LibCommit.FirstChildMountsIntoParent | packages/lib/src/dom.ts:190-193 | Corrected, the first child of any committed node with a `dom` is, when it needs mounting, appended to that `dom`. |
| LibCommit.DomlessChildFollowsPrevSibling | packages/lib/src/dom.ts:190-193 | A new child of an updated function component without a `dom` is inserted right after the component's previous sibling. The written and corrected versions agree here. |
| LibSsr.CreateTextElement | packages/lib/src/index.ts:80-82 | A text element has tag `TEXT_ELEMENT`, `nodeValue` equal to the text, and no children. |
| LibSsr.CreateChildElement | packages/lib/src/index.ts:71-78 | A node is kept. A thunk is called and its result normalised. Anything else becomes a text element holding `String(child)`. The result is always a node. |
| LibSsr.PropNameToHtmlAttr | packages/lib/src/index.ts:140-149 | `className` becomes `class` and `htmlFor` becomes `for`, in any letter case. Every other name is kept. |
| LibSsr.PropNameToHtmlAttrIdempotent | packages/lib/src/index.ts:140-149 | Attribute names are fixed points of the mapping. |
| LibSsr.KebabIsCharwise | packages/lib/src/index.ts:154 | The kebab form replaces each upper-case letter with "-" and its lower case, and keeps every other character. |
| LibSsr.KebabRoundTrip | packages/lib/src/index.ts:154 | A key without dashes is recovered from its kebab form, so distinct such keys give distinct CSS names. |
| LibSsr.StyleObjectToCssConcat | packages/lib/src/index.ts:151-158 | The CSS text of a style object is its entries' texts in order. |
| LibSsr.StyleEntry | packages/lib/src/index.ts:155 | One entry renders as `kebab(key):value;`. |
| LibSsr.PropValueToHtmlAttrValue | packages/lib/src/index.ts:160-167 | A `style` object becomes CSS text. Every other value becomes `String(value)`. |
| LibSsr.Attrs | packages/lib/src/index.ts:112-118 | The attribute text is empty exactly when no key is a property. |
| LibSsr.RenderedProps | packages/lib/src/index.ts:108-110 | A `form`'s function `action` is dropped. Other props are kept. |
| LibSsr.RenderToString | packages/lib/src/index.ts:91-138 | A falsy value gives "", so 0 does too. A string gives itself, a non-zero number its decimal text, and a text element its `nodeValue` or "". Any other non-node value fails. |
| LibSsr.RenderAllConcat | packages/lib/src/index.ts:99-100 | An array renders as the concatenation of its items. The first failure wins. |
| LibSsr.RenderItem | packages/lib/src/index.ts:100 | An array item or child that is `null` or `undefined` fails, because its `props` is read first. Any other item renders as itself. |
| LibSsr.NullishItemFails | packages/lib/src/index.ts:100 | An array holding `null` or `undefined` anywhere fails to render. When every earlier item renders, that item's error is the result. |
| LibSsr.ValueChildRendersAsText | packages/lib/src/index.ts:77 | A normalised plain child renders as its `String` text. |
| LibSsr.NumbersRenderDistinctly | packages/lib/src/index.ts:101 | Distinct non-zero numbers render as distinct texts. |
| LibSsr.SelfClosingIgnoresChildren | packages/lib/src/index.ts:111-122 | A self-closing tag renders only its open tag, which starts `<tag` and ends ` />`. Children never matter. |
| LibSsr.ElementWrapsChildren | packages/lib/src/index.ts:119-125 | Any other tag renders its open tag, its children's texts in order, and `</tag>`. |
| LibSsr.FormDropsFunctionAction | packages/lib/src/index.ts:108-110 | A `form` renders the same with or without a function `action`. |

## Left out

- `render`, `workLoop`, `requestIdleCallback` and `createDom` of the early engine, and `createDom`/`mount` of the library, are left out. They create real document nodes and schedule work with the browser. The model takes the resulting node ids as inputs.
- The loop that runs `commitWork` follow-ups, and `queueEffect`, belong to the global context, which is not part of this model. Follow-ups are returned as `LibCommit.Task` values.
- The `signal()` and `watch()` hook wrappers (signal.ts:23-50, 168-200) are left out: they add only hook bookkeeping around the modelled operations. The modelled hook wrapper is `UseComputed`.
- `makeReadonly`/`makeWritable`, the HMR handlers and everything under `__DEV__` are left out. They are development tooling. A computed signal's read-only `value` is modelled by `Write` doing nothing.
- The older `computed` in signal.ts:52-102 is left out: it keeps its dependency map outside the signal. It matches the id-keyed `computed.ts` version, which is the one modelled.
- `toString` (signal.ts:301-304) is left out. It is a `.value` read followed by formatting.
- NaN and fractional numbers are left out: numbers are integers, so `String(n)` is decimal text.
- Case mapping covers ASCII letters only.
- `renderToString` performs no escaping, and neither does the model.
- `LibSsr.RenderToString` assumes `isProperty` rejects `children`. In the model, children are held apart from props.
- `LibSsr.RenderToString` represents function elements and components by their result (`Thunk`, `Comp`). A class component's `componentDidMount` call, and the setting of `node.current`, are left out.
- `LibSsr.RenderToString` treats a bare function value inside `Prim` as not renderable, because its result is unknown.
- The `ref` assignment is logged as an operation. A ref's identity beyond its value is left out.
- `LibAttrs.StyleObjectOverObject` requires the new style object's keys to be distinct, as the keys of a JavaScript object are.
- `LibAttrs.UpdateDom` takes `propFilters.isEvent`, `propFilters.internalProps`, `booleanAttributes` and `propToHtmlAttr` as parameters, so it states nothing about their contents.
- `EarlyCommit.CommitRoot` requires a work root with a document node, which `render` and `setState` always provide.
- The early `commitWork` searches the ancestors for a document parent (package/src/index.ts:108-112). The model threads the nearest ancestor's document node down the tree instead, which is what that search finds when it ends. A tree whose root has no document node, where the search would not end, is outside the model.
- `EarlyReconcile.ReconcileChildren` returns only the error when it throws. The old fibers tagged DELETION and pushed to `deletions` before the throw stay so in the source, and the model does not keep them.
- `SignalWatch.RunEffect` treats a getter result that is truthy but not a function (a non-zero number, a non-empty string, `true`, an object) as no cleanup, and keeps the old cell. The source stores it at packages/lib/src/signal.ts:463. The next re-run (line 489) or stop (line 159) then throws a `TypeError`; on the stop path this comes after the unsubscribing and before `isRunning` is reset. Modelling that throw would give every scheduler step an error result, so it is left out. A getter that returns a cleanup returns a function.
- `SignalWatch.KeptCleanupAsWritten` has the same gap: a truthy non-function result is read as no cleanup.
- `SignalWatch.RunMicro` gives a watcher one cleanup cell. In the source, each first run makes its own cleanup object (packages/lib/src/signal.ts:457). The subscription callbacks made during that run, and every re-run they start, capture that object (lines 478-498). `this.cleanup` is the object of the latest first run (line 146), and `stop` calls it (line 159). When `start`, `stop` and `start` happen before the microtasks run, both first runs execute (`SignalWatch.RestartRunsFirstRunTwice`). The second run does not re-subscribe signals the first already did, so a write to such a signal re-runs with the first run's object, while `stop` calls the second's. The model uses the second run's cleanup in both places.
- `HookDispatch.UseHookAsWritten` represents a hook callback by the record and value it returns, or the error it throws. Changes it makes to the old record in place before throwing, and the update or effect requests it makes, are left out.
- `HookDispatch.CleanupHook` models a cleanup as present or absent. A truthy non-function cleanup, which would throw, is left out.
- `SignalStore.Eval` covers getters built from literals, reads, peeks, conditionals, addition and scaling. A getter that returns a cleanup returns a function value.

## Findings

| source | as written | input that shows it | evidently intended | confidence | as-written member | corrected member |
|---|---|---|---|---|---|---|
| packages/lib/src/hooks/utils.ts:39-44 | `isInUseHookCall` is set before the node and context checks and is never reset when they throw, nor when the callback (line 58) throws | a hook called outside any component, then any hook called during a later render; or a hook whose callback throws | a failed call leaves the flag as it was | not executed | HookDispatch.UseHookAsWritten, HookDispatch.FailedCallPoisonsLaterCalls, HookDispatch.ThrowingBodyPoisonsLaterCalls | HookDispatch.UseHook, HookDispatch.FailedCallLeavesNoTrace |
| packages/lib/src/signal.ts:462-463 | `if (func) cleanup.call = func` keeps the previous, already called cleanup when a re-run returns nothing. Neither `cleanup.call?.()` (line 489) nor `stop` (line 159) clears the cell, and `start` keeps the old cell until the deferred first run | a watcher getter returning a cleanup on its first run and nothing on the next two runs; or stop, start and stop again before microtasks run | each returned cleanup is called once | not executed | SignalWatch.KeptCleanupAsWritten, SignalWatch.StaleCleanupCalledAgain, SignalWatch.RerunKeepsCalledCleanup, SignalWatch.RestartedStopCallsCleanupAgain | SignalWatch.ReturnedCleanup, SignalWatch.EachCleanupCalledOnce, SignalWatch.RestartedStopCallsCleanupOnce |
| package/src/index.ts:244-246 | `!!oldHook && ...` makes `hasChangedDeps` false on the first render whenever deps are non-empty | `useEffect(cb, [1])` on a component's first render | the effect runs on mount | not executed | EarlyHooks.UseEffect, EarlyHooks.MountWithDepsSkipsEffect | EarlyHooks.UseEffectIntended, EarlyHooks.EffectDueAgreesAfterMount |
| packages/lib/src/dom.ts:190-193 | the first child's follow-up is handed the node's own `prevSibling`, which lives under the node's parent. That is right for a node without a `dom`, whose children sit among its siblings, and is kept there | an updated `div` with previous sibling `p`, showing a `span`, that gets a new first child `b` | a node with its own `dom` places the child inside it. The corrected model appends it there, after existing children, so it does not restore first-child order either | not executed | LibCommit.CommitWorkAsWritten, LibCommit.FirstChildAnchoredOutsideParent | LibCommit.CommitWork, LibCommit.FirstChildPlacedInParent, LibCommit.DomlessChildFollowsPrevSibling |
| packages/lib/src/signals/computed.ts:77-78 | the hook callback reads `isInit`, which `useHook` never supplies (packages/lib/src/hooks/utils.ts:58-64), so the branch that creates the computed never runs | `computed(() => 1)` called while rendering a component | the computed is created and started on the first render and returned on every render | not executed | SignalDerive.UseComputedAsWritten, SignalDerive.ComputedInComponentIsUndefined | SignalDerive.UseComputed |

=== FILE: dom_ops.dfy ===
/** The document tree as an append-only log of abstract operations. Every
    commit-phase function of the model returns the operations it would issue,
    in issue order, instead of mutating a real document. */
module DomOps {
  import opened Values

  /** Identity of a native document node (element or text). */
  type DomId = nat

  datatype DomOp =
    | AppendChild(parent: DomId, child: DomId)          // parent.appendChild(child)
    | InsertAfter(anchor: DomId, node: DomId)           // anchor.after(node)
    | RemoveChild(parent: DomId, child: DomId)          // parent.removeChild(child)
    | RemoveNode(node: DomId)                           // node.remove()
    | SetProperty(target: DomId, name: string, value: Value)   // dom[name] = value
    | SetAttribute(target: DomId, name: string, text: string)
    | RemoveAttribute(target: DomId, name: string)
    | SetStyle(target: DomId, name: string, value: Value)      // dom.style[name] = value
    | SetNodeValue(target: DomId, value: Value)
    | AddListener(target: DomId, event: string, handler: Value)
    | RemoveListener(target: DomId, event: string, handler: Value)
    | AssignRef(ref: Value, node: DomId)                 // ref.current = node
    | RunEffect(callback: nat)                           // a queued effect callback runs
}

=== FILE: early_commit.dfy ===
/** The commit phase of the early engine: `updateDom`, `commitWork`,
    `commitDeletion` and `commitRoot`, each returning the document
    operations it issues. */
module EarlyCommit {
  import opened Wrappers
  import opened Values
  import opened DomOps
  import opened EarlyFiber
  import opened EarlyHooks

  predicate IsEvent(key: string) {
    StartsWith(key, "on")
  }

  predicate IsProperty(key: string) {
    key != "children" && !IsEvent(key)
  }

  /** `prev[key] !== next[key]`, an absent key reading as `undefined`. */
  predicate IsNew(prev: Props, next: Props, key: string) {
    Get(prev, key) != Get(next, key)
  }

  // ---------------------------------------------------------------------
  // updateDom

  /** The four passes of `updateDom`, in the order they run. */
  datatype Phase = DropListeners | ClearProps | SetProps | AddListeners

  /** The key filter of each pass. */
  predicate Selected(ph: Phase, prev: Props, next: Props, key: string) {
    match ph
    case DropListeners => IsEvent(key) && (!Has(next, key) || IsNew(prev, next, key))
    case ClearProps => IsProperty(key) && !Has(next, key)
    case SetProps => IsProperty(key) && IsNew(prev, next, key)
    case AddListeners => IsEvent(key) && IsNew(prev, next, key)
  }

  /** The operation each pass issues for a selected key. */
  function OpFor(ph: Phase, dom: DomId, prev: Props, next: Props, key: string): DomOp
    requires Selected(ph, prev, next, key)
  {
    match ph
    case DropListeners => RemoveListener(dom, EventType(key), Get(prev, key))
    case ClearProps => SetProperty(dom, key, Str(""))
    case SetProps => SetProperty(dom, key, Get(next, key))
    case AddListeners => AddListener(dom, EventType(key), Get(next, key))
  }

  /** The kind of operation a pass may issue, always on `dom`. */
  predicate OfPhase(ph: Phase, dom: DomId, op: DomOp) {
    match ph
    case DropListeners => op.RemoveListener? && op.target == dom
    case ClearProps => op.SetProperty? && op.target == dom
    case SetProps => op.SetProperty? && op.target == dom
    case AddListeners => op.AddListener? && op.target == dom
  }

  /** One pass: `Object.keys(..).filter(..).forEach(..)` over `keys`. */
  function Emit(ph: Phase, dom: DomId, prev: Props, next: Props, keys: seq<string>): (r: seq<DomOp>)
    ensures forall k :: k in keys && Selected(ph, prev, next, k) ==> OpFor(ph, dom, prev, next, k) in r
    ensures forall op :: op in r ==>
              exists k :: k in keys && Selected(ph, prev, next, k) && op == OpFor(ph, dom, prev, next, k)
    ensures forall i :: 0 <= i < |r| ==> OfPhase(ph, dom, r[i])
    ensures forall op :: op in r ==> OfPhase(ph, dom, op)
    decreases |keys|
  {
    if keys == [] then []
    else
      var rest := Emit(ph, dom, prev, next, keys[1..]);
      assert forall k :: k in keys ==> k == keys[0] || k in keys[1..];
      if Selected(ph, prev, next, keys[0]) then [OpFor(ph, dom, prev, next, keys[0])] + rest else rest
  }

  /** `updateDom(dom, prev, next)`: drop old or changed listeners, clear
      gone properties, set new or changed properties, attach new or
      changed listeners. Every operation targets `dom`, and no listener is
      removed after one is attached. */
  function UpdateDom(dom: DomId, prev: Props, next: Props): (r: seq<DomOp>)
    ensures forall i :: 0 <= i < |r| ==>
              (r[i].RemoveListener? || r[i].SetProperty? || r[i].AddListener?) && r[i].target == dom
    ensures forall i, j :: 0 <= i < j < |r| && r[i].AddListener? ==> !r[j].RemoveListener?
  {
    var a := Emit(DropListeners, dom, prev, next, Keys(prev));
    var b := Emit(ClearProps, dom, prev, next, Keys(prev));
    var c := Emit(SetProps, dom, prev, next, Keys(next));
    var d := Emit(AddListeners, dom, prev, next, Keys(next));
    PhasesInOrder(dom, a, b, c, d);
    a + b + c + d
  }

  lemma PhasesInOrder(dom: DomId, a: seq<DomOp>, b: seq<DomOp>, c: seq<DomOp>, d: seq<DomOp>)
    requires forall i :: 0 <= i < |a| ==> OfPhase(DropListeners, dom, a[i])
    requires forall i :: 0 <= i < |b| ==> OfPhase(ClearProps, dom, b[i])
    requires forall i :: 0 <= i < |c| ==> OfPhase(SetProps, dom, c[i])
    requires forall i :: 0 <= i < |d| ==> OfPhase(AddListeners, dom, d[i])
    ensures var r := a + b + c + d;
            forall i :: 0 <= i < |r| ==>
              (r[i].RemoveListener? || r[i].SetProperty? || r[i].AddListener?) && r[i].target == dom
    ensures var r := a + b + c + d;
            forall i, j :: 0 <= i < j < |r| && r[i].AddListener? ==> !r[j].RemoveListener?
  {
    var r := a + b + c + d;
    assert forall i :: 0 <= i < |r| ==>
             if i < |a| then r[i] == a[i]
             else if i < |a| + |b| then r[i] == b[i - |a|]
             else if i < |a| + |b| + |c| then r[i] == c[i - |a| - |b|]
             else r[i] == d[i - |a| - |b| - |c|];
  }

  // ---------------------------------------------------------------------
  // The effect of operations on one document node

  /** What a document node exposes to these operations: its properties and
      its set of (event type, handler) listeners. */
  datatype NodeState = NodeState(props: map<string, Value>, listeners: set<(string, Value)>)

  function Read(st: NodeState, key: string): Value {
    if key in st.props then st.props[key] else Undefined
  }

  function ApplyOp(st: NodeState, dom: DomId, op: DomOp): NodeState {
    match op
    case SetProperty(t, name, v) => if t == dom then st.(props := st.props[name := v]) else st
    case AddListener(t, e, h) => if t == dom then st.(listeners := st.listeners + {(e, h)}) else st
    case RemoveListener(t, e, h) => if t == dom then st.(listeners := st.listeners - {(e, h)}) else st
    case _ => st
  }

  function ApplyAll(st: NodeState, dom: DomId, ops: seq<DomOp>): NodeState
    decreases |ops|
  {
    if ops == [] then st else ApplyAll(ApplyOp(st, dom, ops[0]), dom, ops[1..])
  }

  /** When every write of `key` writes `v`, the key ends up `v` if written at all. */
  lemma {:induction false} PropAfter(st: NodeState, dom: DomId, ops: seq<DomOp>, key: string, v: Value)
    requires forall op :: op in ops && op.SetProperty? && op.target == dom && op.name == key ==> op.value == v
    ensures Read(ApplyAll(st, dom, ops), key) == if SetProperty(dom, key, v) in ops then v else Read(st, key)
    decreases |ops|
  {
    if ops != [] {
      assert forall op :: op in ops[1..] ==> op in ops;
      PropAfter(ApplyOp(st, dom, ops[0]), dom, ops[1..], key, v);
      assert SetProperty(dom, key, v) in ops <==> ops[0] == SetProperty(dom, key, v) || SetProperty(dom, key, v) in ops[1..];
    }
  }

  /** When a listener is never removed after being added, it ends up
      attached exactly when it was added, or was there and never removed. */
  lemma {:induction false} ListenerAfter(st: NodeState, dom: DomId, ops: seq<DomOp>, e: string, h: Value)
    requires forall i, j :: 0 <= i < j < |ops| && ops[i] == AddListener(dom, e, h) ==> ops[j] != RemoveListener(dom, e, h)
    ensures (e, h) in ApplyAll(st, dom, ops).listeners <==>
              ((e, h) in st.listeners && RemoveListener(dom, e, h) !in ops) || AddListener(dom, e, h) in ops
    decreases |ops|
  {
    if ops != [] {
      var tail := ops[1..];
      assert forall i, j :: 0 <= i < j < |tail| && tail[i] == AddListener(dom, e, h) ==> tail[j] != RemoveListener(dom, e, h) by {
        forall i, j | 0 <= i < j < |tail| && tail[i] == AddListener(dom, e, h)
          ensures tail[j] != RemoveListener(dom, e, h)
        {
          assert ops[i + 1] == tail[i] && ops[j + 1] == tail[j];
        }
      }
      ListenerAfter(ApplyOp(st, dom, ops[0]), dom, tail, e, h);
      assert forall op :: op in ops <==> op == ops[0] || op in tail;
      if ops[0] == AddListener(dom, e, h) {
        forall j | 0 <= j < |tail| ensures tail[j] != RemoveListener(dom, e, h) {
          assert ops[j + 1] == tail[j];
        }
      }
    }
  }

  /** Which property writes `updateDom` issues. */
  lemma SetPropertyIn(dom: DomId, prev: Props, next: Props, k: string, v: Value)
    ensures SetProperty(dom, k, v) in UpdateDom(dom, prev, next) <==>
              (Has(prev, k) && IsProperty(k) && !Has(next, k) && v == Str(""))
              || (Has(next, k) && IsProperty(k) && IsNew(prev, next, k) && v == Get(next, k))
  {
    var a := Emit(DropListeners, dom, prev, next, Keys(prev));
    var b := Emit(ClearProps, dom, prev, next, Keys(prev));
    var c := Emit(SetProps, dom, prev, next, Keys(next));
    var d := Emit(AddListeners, dom, prev, next, Keys(next));
    var op := SetProperty(dom, k, v);
    assert UpdateDom(dom, prev, next) == a + b + c + d;
    assert op !in a && op !in d;
  }

  /** Which listener removals and attachments `updateDom` issues. */
  lemma ListenerOpsIn(dom: DomId, prev: Props, next: Props, e: string, h: Value)
    ensures RemoveListener(dom, e, h) in UpdateDom(dom, prev, next) <==>
              exists k :: k in Keys(prev) && Selected(DropListeners, prev, next, k)
                          && e == EventType(k) && h == Get(prev, k)
    ensures AddListener(dom, e, h) in UpdateDom(dom, prev, next) <==>
              exists k :: k in Keys(next) && Selected(AddListeners, prev, next, k)
                          && e == EventType(k) && h == Get(next, k)
  {
    var a := Emit(DropListeners, dom, prev, next, Keys(prev));
    var b := Emit(ClearProps, dom, prev, next, Keys(prev));
    var c := Emit(SetProps, dom, prev, next, Keys(next));
    var d := Emit(AddListeners, dom, prev, next, Keys(next));
    assert UpdateDom(dom, prev, next) == a + b + c + d;
    assert RemoveListener(dom, e, h) !in b + c + d;
    assert AddListener(dom, e, h) !in a + b + c;
  }

  lemma UpdateDomPropKey(st: NodeState, dom: DomId, prev: Props, next: Props, k: string)
    requires IsProperty(k) && (Has(prev, k) || Has(next, k)) ==> Read(st, k) == Get(prev, k)
    ensures IsProperty(k) && Has(next, k) ==>
              Read(ApplyAll(st, dom, UpdateDom(dom, prev, next)), k) == Get(next, k)
    ensures IsProperty(k) && Has(prev, k) && !Has(next, k) ==>
              Read(ApplyAll(st, dom, UpdateDom(dom, prev, next)), k) == Str("")
    ensures !(IsProperty(k) && (Has(prev, k) || Has(next, k))) ==>
              Read(ApplyAll(st, dom, UpdateDom(dom, prev, next)), k) == Read(st, k)
  {
    var r := UpdateDom(dom, prev, next);
    var v := if Has(next, k) then Get(next, k) else Str("");
    forall op | op in r && op.SetProperty? && op.target == dom && op.name == k
      ensures op.value == v
    {
      SetPropertyIn(dom, prev, next, k, op.value);
    }
    PropAfter(st, dom, r, k, v);
    SetPropertyIn(dom, prev, next, k, v);
  }

  /** Property effect of `updateDom`: starting from a node that shows
      `prev`, every property of `next` is set, every property dropped from
      `prev` reads as the empty string, and no other property changes. */
  lemma UpdateDomProps(st: NodeState, dom: DomId, prev: Props, next: Props)
    requires forall k :: IsProperty(k) && (Has(prev, k) || Has(next, k)) ==> Read(st, k) == Get(prev, k)
    ensures forall k :: IsProperty(k) && Has(next, k) ==>
              Read(ApplyAll(st, dom, UpdateDom(dom, prev, next)), k) == Get(next, k)
    ensures forall k :: IsProperty(k) && Has(prev, k) && !Has(next, k) ==>
              Read(ApplyAll(st, dom, UpdateDom(dom, prev, next)), k) == Str("")
    ensures forall k :: !(IsProperty(k) && (Has(prev, k) || Has(next, k))) ==>
              Read(ApplyAll(st, dom, UpdateDom(dom, prev, next)), k) == Read(st, k)
  {
    forall k {
      UpdateDomPropKey(st, dom, prev, next, k);
    }
  }

  /** Some event key of `p` asks for handler `h` on event type `e`. */
  predicate Wanted(p: Props, e: string, h: Value) {
    exists k :: k in Keys(p) && IsEvent(k) && EventType(k) == e && Get(p, k) == h
  }

  /** No two event keys of `p` name the same event type. */
  predicate EventTypesDistinct(p: Props) {
    forall k1, k2 :: (k1 in Keys(p) && k2 in Keys(p) && IsEvent(k1) && IsEvent(k2)
                      && EventType(k1) == EventType(k2)) ==> k1 == k2
  }

  /** A listener's presence after `updateDom`, in terms of the operations issued. */
  lemma ListenerAfterUpdate(st: NodeState, dom: DomId, prev: Props, next: Props, e: string, h: Value)
    ensures (e, h) in ApplyAll(st, dom, UpdateDom(dom, prev, next)).listeners <==>
              ((e, h) in st.listeners && !(exists k :: k in Keys(prev) && Selected(DropListeners, prev, next, k)
                                                      && e == EventType(k) && h == Get(prev, k)))
              || (exists k :: k in Keys(next) && Selected(AddListeners, prev, next, k)
                               && e == EventType(k) && h == Get(next, k))
  {
    ListenerAfter(st, dom, UpdateDom(dom, prev, next), e, h);
    ListenerOpsIn(dom, prev, next, e, h);
  }

  /** Listener effect of `updateDom`, part one: starting from a node whose
      listeners include the function handlers of `prev`, with no two event
      keys of `prev` on the same event type, every function handler of
      `next` is attached afterwards. */
  lemma UpdateDomAttachesNext(st: NodeState, dom: DomId, prev: Props, next: Props)
    requires forall k :: k in Keys(prev) && IsEvent(k) && Get(prev, k).Fn? ==>
               (EventType(k), Get(prev, k)) in st.listeners
    requires EventTypesDistinct(prev)
    ensures forall k :: k in Keys(next) && IsEvent(k) && Get(next, k).Fn? ==>
              (EventType(k), Get(next, k)) in ApplyAll(st, dom, UpdateDom(dom, prev, next)).listeners
  {
    forall k | k in Keys(next) && IsEvent(k) && Get(next, k).Fn?
      ensures (EventType(k), Get(next, k)) in ApplyAll(st, dom, UpdateDom(dom, prev, next)).listeners
    {
      ListenerAfterUpdate(st, dom, prev, next, EventType(k), Get(next, k));
      if !IsNew(prev, next, k) {
        assert k in Keys(prev);
        assert !Selected(DropListeners, prev, next, k);
      } else {
        assert Selected(AddListeners, prev, next, k);
      }
    }
  }

  /** Listener effect of `updateDom`, part two: a dropped or replaced
      handler of `prev` is detached unless `next` asks for the same one, and
      listeners neither side mentions are untouched. */
  lemma UpdateDomDetachesPrev(st: NodeState, dom: DomId, prev: Props, next: Props)
    ensures forall k :: k in Keys(prev) && IsEvent(k) && (!Has(next, k) || IsNew(prev, next, k))
                        && !Wanted(next, EventType(k), Get(prev, k)) ==>
              (EventType(k), Get(prev, k)) !in ApplyAll(st, dom, UpdateDom(dom, prev, next)).listeners
    ensures forall e, h :: !Wanted(prev, e, h) && !Wanted(next, e, h) ==>
              ((e, h) in ApplyAll(st, dom, UpdateDom(dom, prev, next)).listeners <==> (e, h) in st.listeners)
  {
    forall k | k in Keys(prev) && IsEvent(k) && (!Has(next, k) || IsNew(prev, next, k))
               && !Wanted(next, EventType(k), Get(prev, k))
      ensures (EventType(k), Get(prev, k)) !in ApplyAll(st, dom, UpdateDom(dom, prev, next)).listeners
    {
      ListenerAfterUpdate(st, dom, prev, next, EventType(k), Get(prev, k));
      assert Selected(DropListeners, prev, next, k);
    }
    forall e, h | !Wanted(prev, e, h) && !Wanted(next, e, h)
      ensures (e, h) in ApplyAll(st, dom, UpdateDom(dom, prev, next)).listeners <==> (e, h) in st.listeners
    {
      ListenerAfterUpdate(st, dom, prev, next, e, h);
    }
  }

  // ---------------------------------------------------------------------
  // commitWork and commitDeletion

  /** `commitDeletion`: remove the fiber's own node, or else descend into
      its first child only. */
  function CommitDeletion(f: Fiber, parentDom: DomId): (r: seq<DomOp>)
    ensures |r| <= 1
    ensures forall i :: 0 <= i < |r| ==> r[i].RemoveChild? && r[i].parent == parentDom
    decreases f
  {
    if f.dom.Some? then [RemoveChild(parentDom, f.dom.value)]
    else if |f.children| > 0 then CommitDeletion(f.children[0], parentDom)
    else []
  }

  /** The first-child chain below a fiber, the fiber itself first. */
  function FirstChildChain(f: Fiber): (c: seq<Fiber>)
    ensures |c| > 0 && c[0] == f
    decreases f
  {
    if |f.children| > 0 then [f] + FirstChildChain(f.children[0]) else [f]
  }

  /** A deletion removes the topmost document node on the first-child chain,
      and nothing when no fiber on that chain has one. */
  lemma {:induction false} DeletionRemovesTopmostNode(f: Fiber, parentDom: DomId)
    ensures CommitDeletion(f, parentDom) == [] ==>
              forall i :: 0 <= i < |FirstChildChain(f)| ==> FirstChildChain(f)[i].dom.None?
    ensures CommitDeletion(f, parentDom) != [] ==>
              exists i :: 0 <= i < |FirstChildChain(f)|
                          && FirstChildChain(f)[i].dom.Some?
                          && CommitDeletion(f, parentDom) == [RemoveChild(parentDom, FirstChildChain(f)[i].dom.value)]
                          && forall j :: 0 <= j < i ==> FirstChildChain(f)[j].dom.None?
    decreases f
  {
    var c := FirstChildChain(f);
    if f.dom.Some? {
      assert c[0].dom.Some?;
    } else if |f.children| > 0 {
      var g := f.children[0];
      DeletionRemovesTopmostNode(g, parentDom);
      var cg := FirstChildChain(g);
      assert CommitDeletion(f, parentDom) == CommitDeletion(g, parentDom);
      assert c == [f] + cg;
      assert c[1] == cg[0];
      assert forall i :: 1 <= i < |c| ==> c[i] == cg[i - 1];
      if CommitDeletion(g, parentDom) != [] {
        var i :| 0 <= i < |cg| && cg[i].dom.Some?
                 && CommitDeletion(g, parentDom) == [RemoveChild(parentDom, cg[i].dom.value)]
                 && forall j :: 0 <= j < i ==> cg[j].dom.None?;
        assert c[i + 1] == cg[i];
        assert c[i + 1].dom.Some?;
        assert forall j :: 0 <= j < i + 1 ==> c[j].dom.None? by {
          forall j | 0 <= j < i + 1 ensures c[j].dom.None? {
            if j > 0 { assert c[j] == cg[j - 1]; }
          }
        }
      } else {
        forall i | 0 <= i < |c| ensures c[i].dom.None? {
          if i > 0 { assert c[i] == cg[i - 1]; }
        }
      }
    } else {
      assert c == [f];
    }
  }

  /** What `commitWork` does to one fiber that is not tagged DELETION: a
      PLACEMENT fiber with a node appends it to `parentDom`, an UPDATE fiber
      with a node brings it from the old props (or none) to the new ones,
      and any other fiber does nothing. */
  function OwnOps(f: Fiber, parentDom: DomId): seq<DomOp>
  {
    if f.effectTag == Placement && f.dom.Some? then [AppendChild(parentDom, f.dom.value)]
    else if f.effectTag == Update && f.dom.Some? then
      UpdateDom(f.dom.value, if f.alternate.Some? then f.alternate.value.props else [], f.props)
    else []
  }

  /** `commitWork` over a sibling chain whose parent's nearest document node
      is `parentDom`. A fiber tagged DELETION ends the walk: neither its
      children nor its later siblings are committed. */
  function CommitForest(fs: seq<Fiber>, parentDom: DomId): seq<DomOp>
  {
    if fs == [] then []
    else
      var f := fs[0];
      if f.effectTag == Deletion then CommitDeletion(f, parentDom)
      else OwnOps(f, parentDom) + CommitForest(f.children, f.dom.GetOr(parentDom)) + CommitForest(fs[1..], parentDom)
  }

  /** No fiber of the forest carries the DELETION tag (true of every tree the
      reconciler builds; deleted fibers only live on the deletions list). */
  predicate NoDeletion(fs: seq<Fiber>) {
    fs == [] || (fs[0].effectTag != Deletion && NoDeletion(fs[0].children) && NoDeletion(fs[1..]))
  }

  /** Reference: the document nodes of the PLACEMENT fibers of a forest. */
  function PlacedNodes(fs: seq<Fiber>): set<DomId> {
    if fs == [] then {}
    else (if fs[0].effectTag == Placement && fs[0].dom.Some? then {fs[0].dom.value} else {})
         + PlacedNodes(fs[0].children) + PlacedNodes(fs[1..])
  }

  function AppendedNodes(ops: seq<DomOp>): set<DomId> {
    set i | 0 <= i < |ops| && ops[i].AppendChild? :: ops[i].child
  }

  lemma AppendedConcat(a: seq<DomOp>, b: seq<DomOp>)
    ensures AppendedNodes(a + b) == AppendedNodes(a) + AppendedNodes(b)
  {
    var ab := a + b;
    forall x | x in AppendedNodes(ab) ensures x in AppendedNodes(a) + AppendedNodes(b) {
      var i :| 0 <= i < |ab| && ab[i].AppendChild? && ab[i].child == x;
      if i >= |a| { assert b[i - |a|] == ab[i]; }
    }
    forall x | x in AppendedNodes(a) + AppendedNodes(b) ensures x in AppendedNodes(ab) {
      if x in AppendedNodes(a) {
        var i :| 0 <= i < |a| && a[i].AppendChild? && a[i].child == x;
        assert ab[i] == a[i];
      } else {
        var i :| 0 <= i < |b| && b[i].AppendChild? && b[i].child == x;
        assert ab[i + |a|] == b[i];
      }
    }
  }

  /** Committing a tree attaches exactly the nodes of its PLACEMENT fibers. */
  lemma {:induction false} CommitAppendsPlacedNodes(fs: seq<Fiber>, parentDom: DomId)
    requires NoDeletion(fs)
    ensures AppendedNodes(CommitForest(fs, parentDom)) == PlacedNodes(fs)
  {
    if fs != [] {
      var f := fs[0];
      var own := OwnOps(f, parentDom);
      var kids := CommitForest(f.children, f.dom.GetOr(parentDom));
      var rest := CommitForest(fs[1..], parentDom);
      assert CommitForest(fs, parentDom) == own + kids + rest;
      CommitAppendsPlacedNodes(f.children, f.dom.GetOr(parentDom));
      CommitAppendsPlacedNodes(fs[1..], parentDom);
      AppendedConcat(own, kids);
      AppendedConcat(own + kids, rest);
      if f.effectTag == Placement && f.dom.Some? {
        assert AppendedNodes(own) == {f.dom.value} by {
          assert own[0].AppendChild?;
        }
      } else {
        assert AppendedNodes(own) == {};
      }
    }
  }

  /** Committing a tree without DELETION tags removes nothing. */
  lemma {:induction false} CleanTreeRemovesNothing(fs: seq<Fiber>, parentDom: DomId)
    requires NoDeletion(fs)
    ensures forall op :: op in CommitForest(fs, parentDom) ==> !op.RemoveChild?
  {
    if fs != [] {
      var f := fs[0];
      CleanTreeRemovesNothing(f.children, f.dom.GetOr(parentDom));
      CleanTreeRemovesNothing(fs[1..], parentDom);
    }
  }

  /** Reference: the fibers of a forest in pre-order (a fiber, then its
      subtree, then its later siblings), each paired with the document node
      of its nearest ancestor that has one, `parentDom` at the top. */
  function Preorder(fs: seq<Fiber>, parentDom: DomId): seq<(Fiber, DomId)>
  {
    if fs == [] then []
    else [(fs[0], parentDom)] + Preorder(fs[0].children, fs[0].dom.GetOr(parentDom)) + Preorder(fs[1..], parentDom)
  }

  /** A fiber's own operations, given with the node it is committed under. */
  function Own(p: (Fiber, DomId)): seq<DomOp> {
    OwnOps(p.0, p.1)
  }

  /** Each entry's operations under `ops`, one entry after another. */
  function ConcatMap<T>(xs: seq<T>, ops: T -> seq<DomOp>): seq<DomOp>
    decreases |xs|
  {
    if xs == [] then [] else ops(xs[0]) + ConcatMap(xs[1..], ops)
  }

  lemma {:induction false} ConcatMapAppend<T>(a: seq<T>, b: seq<T>, ops: T -> seq<DomOp>)
    ensures ConcatMap(a + b, ops) == ConcatMap(a, ops) + ConcatMap(b, ops)
    decreases |a|
  {
    if a != [] {
      var own := ops(a[0]);
      assert (a + b)[0] == a[0];
      assert (a + b)[1..] == a[1..] + b;
      ConcatMapAppend(a[1..], b, ops);
      assert ConcatMap(a + b, ops) == own + ConcatMap(a[1..] + b, ops);
      assert ConcatMap(a, ops) == own + ConcatMap(a[1..], ops);
      assert own + (ConcatMap(a[1..], ops) + ConcatMap(b, ops)) == (own + ConcatMap(a[1..], ops)) + ConcatMap(b, ops);
    } else {
      assert a + b == b;
    }
  }

  /** `ConcatMap(xs, ops)` split around entry `i`. */
  lemma {:induction false} ConcatMapAt<T>(xs: seq<T>, ops: T -> seq<DomOp>, i: nat)
    requires i < |xs|
    ensures ConcatMap(xs, ops) == ConcatMap(xs[..i], ops) + ops(xs[i]) + ConcatMap(xs[i + 1..], ops)
    decreases i
  {
    var rest := xs[1..];
    assert ConcatMap(xs, ops) == ops(xs[0]) + ConcatMap(rest, ops);
    if i == 0 {
      assert xs[..0] == [];
      assert xs[1..] == rest;
    } else {
      ConcatMapAt(rest, ops, i - 1);
      assert rest[..i - 1] == xs[..i][1..];
      assert rest[i - 1] == xs[i];
      assert rest[i..] == xs[i + 1..];
      assert ConcatMap(xs[..i], ops) == ops(xs[0]) + ConcatMap(xs[..i][1..], ops);
    }
  }

  /** Committing a tree without DELETION tags performs each fiber's own
      operations, fiber by fiber in pre-order, and nothing else. */
  lemma {:induction false} CommitForestIsPreorder(fs: seq<Fiber>, parentDom: DomId)
    requires NoDeletion(fs)
    ensures CommitForest(fs, parentDom) == ConcatMap(Preorder(fs, parentDom), Own)
  {
    if fs != [] {
      var f := fs[0];
      var head := [(f, parentDom)];
      var kids := Preorder(f.children, f.dom.GetOr(parentDom));
      var rest := Preorder(fs[1..], parentDom);
      CommitForestIsPreorder(f.children, f.dom.GetOr(parentDom));
      CommitForestIsPreorder(fs[1..], parentDom);
      ConcatMapAppend(head + kids, rest, Own);
      ConcatMapAppend(head, kids, Own);
      assert ConcatMap(head, Own) == OwnOps(f, parentDom) by {
        assert head[1..] == [];
      }
    }
  }

  /** Every fiber's operations appear in the commit as one contiguous block,
      between those of the fibers before it and those of the fibers after it
      in pre-order. */
  lemma FiberOpsInPlace(fs: seq<Fiber>, parentDom: DomId, i: nat)
    requires NoDeletion(fs) && i < |Preorder(fs, parentDom)|
    ensures var ps := Preorder(fs, parentDom);
            CommitForest(fs, parentDom) == ConcatMap(ps[..i], Own) + OwnOps(ps[i].0, ps[i].1) + ConcatMap(ps[i + 1..], Own)
  {
    var ps := Preorder(fs, parentDom);
    CommitForestIsPreorder(fs, parentDom);
    ConcatMapAt(ps, Own, i);
    assert Own(ps[i]) == OwnOps(ps[i].0, ps[i].1);
  }

  /** What that block holds: a PLACEMENT fiber with a node appends it to its
      nearest ancestor's node, an UPDATE fiber with a node gets exactly
      `updateDom(node, old props or {}, props)`, and any other fiber
      contributes nothing. */
  lemma FiberOpsByTag(fs: seq<Fiber>, parentDom: DomId, i: nat)
    requires NoDeletion(fs) && i < |Preorder(fs, parentDom)|
    ensures var ps := Preorder(fs, parentDom);
            var f := ps[i].0;
            var k := |ConcatMap(ps[..i], Own)|;
            var ops := CommitForest(fs, parentDom);
            && (f.effectTag == Placement && f.dom.Some? ==>
                  k < |ops| && ops[k] == AppendChild(ps[i].1, f.dom.value))
            && (f.effectTag == Update && f.dom.Some? ==>
                  var u := UpdateDom(f.dom.value, if f.alternate.Some? then f.alternate.value.props else [], f.props);
                  k + |u| <= |ops| && ops[k..k + |u|] == u)
            && (f.dom.None? || (f.effectTag != Placement && f.effectTag != Update) ==> OwnOps(f, ps[i].1) == [])
  {
    var ps := Preorder(fs, parentDom);
    var f := ps[i].0;
    var k := |ConcatMap(ps[..i], Own)|;
    var own := OwnOps(f, ps[i].1);
    var ops := CommitForest(fs, parentDom);
    FiberOpsInPlace(fs, parentDom, i);
    if f.effectTag == Placement && f.dom.Some? {
      BlockIs(ops, ConcatMap(ps[..i], Own), own, ConcatMap(ps[i + 1..], Own), [AppendChild(ps[i].1, f.dom.value)]);
    } else if f.effectTag == Update && f.dom.Some? {
      BlockIs(ops, ConcatMap(ps[..i], Own), own, ConcatMap(ps[i + 1..], Own),
              UpdateDom(f.dom.value, if f.alternate.Some? then f.alternate.value.props else [], f.props));
    }
  }

  lemma BlockIs<T>(whole: seq<T>, before: seq<T>, own: seq<T>, after: seq<T>, u: seq<T>)
    requires whole == before + own + after && own == u
    ensures |before| + |u| <= |whole| && whole[|before|..|before| + |u|] == u
    ensures |u| > 0 ==> whole[|before|] == u[0]
  {
    assert whole[|before|..|before| + |u|] == u;
  }

  // ---------------------------------------------------------------------
  // commitRoot

  /** `deletions.forEach(commitWork)`. */
  function DeletionOps(ds: seq<(Fiber, DomId)>): seq<DomOp>
    decreases |ds|
  {
    if ds == [] then [] else CommitForest([ds[0].0], ds[0].1) + DeletionOps(ds[1..])
  }

  /** Every queued deletion only removes nodes, at most one each. */
  lemma {:induction false} DeletionOpsOnlyRemove(ds: seq<(Fiber, DomId)>)
    requires forall i :: 0 <= i < |ds| ==> ds[i].0.effectTag == Deletion
    ensures |DeletionOps(ds)| <= |ds|
    ensures forall op :: op in DeletionOps(ds) ==> op.RemoveChild?
    decreases |ds|
  {
    if ds != [] {
      assert CommitForest([ds[0].0], ds[0].1) == CommitDeletion(ds[0].0, ds[0].1);
      DeletionOpsOnlyRemove(ds[1..]);
    }
  }

  /** `while (pendingEffects.length) pendingEffects.pop()?.()`. */
  function RunEffects(pending: seq<nat>): (r: seq<DomOp>)
    ensures |r| == |pending|
    ensures forall i :: 0 <= i < |pending| ==> r[|r| - 1 - i] == RunEffect(pending[i])
    ensures forall op :: op in r ==> op.RunEffect?
    decreases |pending|
  {
    if pending == [] then [] else [RunEffect(pending[|pending| - 1])] + RunEffects(pending[..|pending| - 1])
  }

  /** `commitRoot`: deletions first, then the work-in-progress tree below
      the root, then the queued effects, last queued first; the committed
      tree becomes the current one and the queue is emptied. */
  function CommitRoot(e: Engine): (r: (Engine, seq<DomOp>))
    requires e.wipRoot.Some? && e.wipRoot.value.dom.Some?
    ensures r.0.currentRoot == e.wipRoot && r.0.wipRoot.None? && r.0.pendingEffects == []
    ensures r.0.nextUnit == e.nextUnit && r.0.deletions == e.deletions
    ensures |r.1| >= |e.pendingEffects|
    ensures forall i :: 0 <= i < |e.pendingEffects| ==> r.1[|r.1| - 1 - i] == RunEffect(e.pendingEffects[i])
  {
    var root := e.wipRoot.value;
    var pre := DeletionOps(e.deletions) + CommitForest(root.children, root.dom.value);
    var fx := RunEffects(e.pendingEffects);
    ConcatTail(pre, fx);
    (e.(currentRoot := e.wipRoot, wipRoot := None, pendingEffects := []), pre + fx)
  }

  lemma ConcatTail<T>(x: seq<T>, y: seq<T>)
    ensures forall j :: 0 <= j < |y| ==> (x + y)[|x| + j] == y[j]
  {
  }

  /** When the deletions list holds only DELETION-tagged fibers and the new
      tree none, every removal precedes every insertion. */
  lemma CommitRootRemovesBeforeInserting(e: Engine)
    requires e.wipRoot.Some? && e.wipRoot.value.dom.Some?
    requires forall i :: 0 <= i < |e.deletions| ==> e.deletions[i].0.effectTag == Deletion
    requires NoDeletion(e.wipRoot.value.children)
    ensures forall i, j :: (0 <= i < |CommitRoot(e).1| && 0 <= j < |CommitRoot(e).1|
                            && CommitRoot(e).1[i].RemoveChild? && CommitRoot(e).1[j].AppendChild?) ==> i < j
  {
    var root := e.wipRoot.value;
    var a := DeletionOps(e.deletions);
    var b := CommitForest(root.children, root.dom.value);
    var c := RunEffects(e.pendingEffects);
    DeletionOpsOnlyRemove(e.deletions);
    CleanTreeRemovesNothing(root.children, root.dom.value);
    RemovalsFirst(CommitRoot(e).1, a, b, c);
  }

  /** In `a + b + c`, where `a` appends nothing and `b` and `c` remove
      nothing, every removal comes before every append. */
  lemma RemovalsFirst(ops: seq<DomOp>, a: seq<DomOp>, b: seq<DomOp>, c: seq<DomOp>)
    requires ops == a + b + c
    requires forall op :: op in a ==> !op.AppendChild?
    requires forall op :: op in b ==> !op.RemoveChild?
    requires forall op :: op in c ==> !op.RemoveChild?
    ensures forall i, j :: (0 <= i < |ops| && 0 <= j < |ops| && ops[i].RemoveChild? && ops[j].AppendChild?) ==> i < j
  {
    forall i, j | 0 <= i < |ops| && 0 <= j < |ops| && ops[i].RemoveChild? && ops[j].AppendChild?
      ensures i < j
    {
    }
  }

  /** Reference: the first document node in a sequence of fibers. */
  function FirstDom(c: seq<Fiber>): Option<DomId> {
    if c == [] then None else if c[0].dom.Some? then c[0].dom else FirstDom(c[1..])
  }

  /** The node a deleted fiber stands for in the document: the topmost
      document node on its first-child chain. */
  function Topmost(f: Fiber): Option<DomId> {
    FirstDom(FirstChildChain(f))
  }

  /** Reference: what the queued deletions should do, in queue order: take
      each deleted fiber's topmost node out of its paired parent. */
  function Removals(ds: seq<(Fiber, DomId)>): seq<DomOp> {
    if ds == [] then []
    else (if Topmost(ds[0].0).Some? then [RemoveChild(ds[0].1, Topmost(ds[0].0).value)] else [])
         + Removals(ds[1..])
  }

  /** A deletion removes exactly the fiber's topmost document node. */
  lemma {:induction false} DeletionIsTopmost(f: Fiber, parentDom: DomId)
    ensures CommitDeletion(f, parentDom)
            == if Topmost(f).Some? then [RemoveChild(parentDom, Topmost(f).value)] else []
    decreases f
  {
    var c := FirstChildChain(f);
    if f.dom.Some? {
      assert c[0] == f;
    } else if |f.children| > 0 {
      var g := f.children[0];
      DeletionIsTopmost(g, parentDom);
      assert c == [f] + FirstChildChain(g);
      assert c[1..] == FirstChildChain(g);
      assert Topmost(f) == FirstDom(c[1..]) == Topmost(g);
      assert CommitDeletion(f, parentDom) == CommitDeletion(g, parentDom);
    } else {
      assert c == [f];
      assert FirstDom(c[1..]) == None;
      assert Topmost(f) == FirstDom(c[1..]);
    }
  }

  /** The queued deletions perform exactly the reference removals. */
  lemma {:induction false} DeletionOpsAreRemovals(ds: seq<(Fiber, DomId)>)
    requires forall i :: 0 <= i < |ds| ==> ds[i].0.effectTag == Deletion
    ensures DeletionOps(ds) == Removals(ds)
    decreases |ds|
  {
    if ds != [] {
      assert CommitForest([ds[0].0], ds[0].1) == CommitDeletion(ds[0].0, ds[0].1);
      DeletionIsTopmost(ds[0].0, ds[0].1);
      DeletionOpsAreRemovals(ds[1..]);
    }
  }

  lemma NoAppendedNodes(ops: seq<DomOp>)
    requires forall op :: op in ops ==> !op.AppendChild?
    ensures AppendedNodes(ops) == {}
  {
    assert forall i :: 0 <= i < |ops| ==> !ops[i].AppendChild? by {
      forall i | 0 <= i < |ops| ensures !ops[i].AppendChild? {
        assert ops[i] in ops;
      }
    }
  }

  /** The nodes a commit appends are exactly those of the PLACEMENT fibers
      of the new tree. */
  lemma CommitRootAppends(e: Engine)
    requires e.wipRoot.Some? && e.wipRoot.value.dom.Some?
    requires forall i :: 0 <= i < |e.deletions| ==> e.deletions[i].0.effectTag == Deletion
    requires NoDeletion(e.wipRoot.value.children)
    ensures AppendedNodes(CommitRoot(e).1) == PlacedNodes(e.wipRoot.value.children)
  {
    var root := e.wipRoot.value;
    var a := DeletionOps(e.deletions);
    var b := CommitForest(root.children, root.dom.value);
    var c := RunEffects(e.pendingEffects);
    assert CommitRoot(e).1 == a + b + c;
    DeletionOpsOnlyRemove(e.deletions);
    NoAppendedNodes(a);
    NoAppendedNodes(c);
    CommitAppendsPlacedNodes(root.children, root.dom.value);
    AppendedConcat(a, b);
    AppendedConcat(a + b, c);
  }

  /** The content of a commit, when the deletions list holds DELETION-tagged
      fibers and the new tree none: the operations open with exactly the
      reference removals, the nodes appended are exactly those of the
      PLACEMENT fibers, and no other node is removed. */
  lemma CommitRootContent(e: Engine)
    requires e.wipRoot.Some? && e.wipRoot.value.dom.Some?
    requires forall i :: 0 <= i < |e.deletions| ==> e.deletions[i].0.effectTag == Deletion
    requires NoDeletion(e.wipRoot.value.children)
    ensures var ops := CommitRoot(e).1;
            && |Removals(e.deletions)| <= |ops|
            && ops[..|Removals(e.deletions)|] == Removals(e.deletions)
            && AppendedNodes(ops) == PlacedNodes(e.wipRoot.value.children)
            && forall op :: op in ops && op.RemoveChild? ==> op in Removals(e.deletions)
  {
    var root := e.wipRoot.value;
    var a := DeletionOps(e.deletions);
    var b := CommitForest(root.children, root.dom.value);
    var c := RunEffects(e.pendingEffects);
    var ops := CommitRoot(e).1;
    assert ops == a + b + c;
    DeletionOpsAreRemovals(e.deletions);
    assert ops[..|a|] == a;
    CleanTreeRemovesNothing(root.children, root.dom.value);
    CommitRootAppends(e);
    forall op | op in ops && op.RemoveChild? ensures op in Removals(e.deletions) {
      assert op in a || op in b || op in c;
    }
  }

  /** A whole commit against the references: the reference removals, then
      every fiber's own operations in pre-order, then the queued effects,
      last queued first. */
  lemma CommitRootOps(e: Engine)
    requires e.wipRoot.Some? && e.wipRoot.value.dom.Some?
    requires forall i :: 0 <= i < |e.deletions| ==> e.deletions[i].0.effectTag == Deletion
    requires NoDeletion(e.wipRoot.value.children)
    ensures CommitRoot(e).1 == Removals(e.deletions)
                               + ConcatMap(Preorder(e.wipRoot.value.children, e.wipRoot.value.dom.value), Own)
                               + RunEffects(e.pendingEffects)
  {
    DeletionOpsAreRemovals(e.deletions);
    CommitForestIsPreorder(e.wipRoot.value.children, e.wipRoot.value.dom.value);
  }
}

=== FILE: early_fiber.dfy ===
/** The node record of the early engine (package/src/index.ts): a fiber with
    its effect tag, carried-over document node, hooks and alternate. The
    first-child / next-sibling chain is represented by the `children`
    sequence; a node's sibling is the next element of its parent's children. */
module EarlyFiber {
  import opened Wrappers
  import opened Values
  import opened DomOps

  /** `type`: an intrinsic tag (including "TEXT_ELEMENT"), a function
      component, or the untyped root created by `render` and `setState`. */
  datatype ElemType = Tag(name: string) | Component(fid: nat) | HostRoot

  datatype EffectTag = NoTag | Placement | Update | Deletion

  /** A state updater queued by a setter. */
  type Updater = Value -> Value

  /** Hook records: `useState` keeps the state and its pending updaters,
      `useEffect` keeps its dependency list and callback. */
  datatype Hook =
    | StateHook(state: Value, queue: seq<Updater>)
    | EffectHook(deps: seq<Value>, callback: nat)

  datatype Fiber = Fiber(
    elemType: ElemType,
    props: Props,
    dom: Option<DomId>,
    alternate: Option<Fiber>,
    effectTag: EffectTag,
    hooks: seq<Hook>,
    children: seq<Fiber>)

  /** A freshly created element, as handed to the reconciler. */
  datatype Element = Element(elemType: ElemType, props: Props)

  /** Number of fibers in a forest; the measure for tree recursion. */
  function ForestSize(fs: seq<Fiber>): nat {
    if fs == [] then 0 else 1 + ForestSize(fs[0].children) + ForestSize(fs[1..])
  }
}

=== FILE: early_hooks.dfy ===
/** `useState`, its setter, and `useEffect` of the early engine. Hooks are
    looked up by call position in the alternate fiber's hook list. */
module EarlyHooks {
  import opened Wrappers
  import opened Values
  import opened DomOps
  import opened EarlyFiber

  /** A value that is not a function. */
  type Plain = v: Value | !v.Fn? witness Undefined

  /** What a setter receives: a plain (non-function) value, or an updater. */
  datatype Action = Replace(v: Plain) | Apply(f: Updater)

  /** The `typeof action === "function"` test on the setter's argument.
      `fns` gives the updater each function value denotes. */
  function ActionOf(arg: Value, fns: nat -> Updater): Action {
    if arg.Fn? then Apply(fns(arg.fid)) else Replace(arg)
  }

  /** `typeof action === "function" ? action : () => action`. */
  function Wrap(a: Action): Updater {
    match a
    case Replace(v) => (_ => v)
    case Apply(f) => f
  }

  /** Left fold of queued updaters over a state. */
  function Fold(s: Value, q: seq<Updater>): Value
    decreases |q|
  {
    if q == [] then s else Fold(q[0](s), q[1..])
  }

  lemma {:induction false} FoldSnoc(s: Value, q: seq<Updater>, f: Updater)
    ensures Fold(s, q + [f]) == f(Fold(s, q))
    decreases |q|
  {
    if q != [] {
      assert (q + [f])[0] == q[0] && (q + [f])[1..] == q[1..] + [f];
      FoldSnoc(q[0](s), q[1..], f);
    }
  }

  /** Folding two batches one after the other is folding their concatenation. */
  lemma {:induction false} FoldAppend(s: Value, a: seq<Updater>, b: seq<Updater>)
    ensures Fold(Fold(s, a), b) == Fold(s, a + b)
    decreases |a|
  {
    if a != [] {
      assert (a + b)[0] == a[0] && (a + b)[1..] == a[1..] + b;
      FoldAppend(a[0](s), a[1..], b);
    } else {
      assert a + b == b;
    }
  }

  /** A plain value handed to the setter overrides everything queued before
      it; a function is instead applied to the state those updates produce. */
  lemma ReplaceOverridesEarlierUpdates(s: Value, q: seq<Updater>, arg: Value, fns: nat -> Updater)
    ensures !arg.Fn? ==> Fold(s, q + [Wrap(ActionOf(arg, fns))]) == arg
    ensures arg.Fn? ==> Fold(s, q + [Wrap(ActionOf(arg, fns))]) == fns(arg.fid)(Fold(s, q))
  {
    FoldSnoc(s, q, Wrap(ActionOf(arg, fns)));
  }

  /** The per-render hook state: the alternate fiber's hooks (absent on a
      first render), the hooks pushed so far, the running `hookIndex`, and
      the global `pendingEffects` stack. */
  datatype Frame = Frame(
    alternateHooks: Option<seq<Hook>>,
    hooks: seq<Hook>,
    hookIndex: nat,
    pendingEffects: seq<nat>)

  /** `wipNode.alternate.hooks[hookIndex]`, `undefined` when out of range. */
  function OldHook(fr: Frame): Option<Hook> {
    if fr.alternateHooks.Some? && fr.hookIndex < |fr.alternateHooks.value|
    then Some(fr.alternateHooks.value[fr.hookIndex])
    else None
  }

  /** A hook read where a hook of the other kind was recorded: reading its
      missing queue or dependency list throws a TypeError. */
  datatype HookError = TypeError

  /** `useState`: starts from the old hook's state (or `initial`), folds the
      old hook's queued updaters over it in submission order, pushes a hook
      with an empty queue and advances the hook index. */
  method UseState(fr: Frame, initial: Value) returns (r: Result<(Frame, Value), HookError>)
    ensures OldHook(fr).Some? && OldHook(fr).value.EffectHook? <==> r.Err?
    ensures OldHook(fr).None? ==>
              r == Ok((fr.(hooks := fr.hooks + [StateHook(initial, [])], hookIndex := fr.hookIndex + 1), initial))
    ensures OldHook(fr).Some? && OldHook(fr).value.StateHook? ==>
              var h := OldHook(fr).value;
              var state := Fold(h.state, h.queue);
              r == Ok((fr.(hooks := fr.hooks + [StateHook(state, [])], hookIndex := fr.hookIndex + 1), state))
  {
    var old_ := OldHook(fr);
    if old_.Some? && old_.value.EffectHook? {
      return Err(TypeError);
    }
    var state := if old_.Some? then old_.value.state else initial;
    var actions := if old_.Some? then old_.value.queue else [];
    var i := 0;
    while i < |actions|
      invariant 0 <= i <= |actions|
      invariant Fold(if old_.Some? then old_.value.state else initial, actions[..i]) == state
    {
      FoldSnoc(if old_.Some? then old_.value.state else initial, actions[..i], actions[i]);
      assert actions[..i + 1] == actions[..i] + [actions[i]];
      state := actions[i](state);
      i := i + 1;
    }
    assert actions[..i] == actions;
    var hook := StateHook(state, []);
    return Ok((fr.(hooks := fr.hooks + [hook], hookIndex := fr.hookIndex + 1), state));
  }

  /** The setter's effect on its hook: the action is appended to the queue. */
  function Enqueue(h: Hook, a: Action): (r: Hook)
    requires h.StateHook?
    ensures r.StateHook? && r.state == h.state
    ensures Fold(r.state, r.queue) == Wrap(a)(Fold(h.state, h.queue))
  {
    FoldSnoc(h.state, h.queue, Wrap(a));
    h.(queue := h.queue + [Wrap(a)])
  }

  /** The engine's global variables. Each fiber queued for deletion is kept
      with the document node of its nearest ancestor that has one (the node
      `commitWork` finds by walking up from it). */
  datatype Engine = Engine(
    currentRoot: Option<Fiber>,
    wipRoot: Option<Fiber>,
    nextUnit: Option<seq<nat>>,
    deletions: seq<(Fiber, DomId)>,
    pendingEffects: seq<nat>)

  datatype SetStateError = NoCurrentRoot

  /** The setter: throws without a committed tree; otherwise queues the
      action on its hook and restarts work from a fresh root whose alternate
      is the committed root, discarding any unfinished pass. */
  function SetState(e: Engine, h: Hook, a: Action): (r: Result<(Engine, Hook), SetStateError>)
    requires h.StateHook?
    ensures e.currentRoot.None? <==> r.Err?
    ensures r.Ok? ==>
              var (e', h') := r.value;
              var cur := e.currentRoot.value;
              && e'.wipRoot == Some(Fiber(HostRoot, cur.props, cur.dom, Some(cur), NoTag, [], []))
              && e'.nextUnit == Some([]) && e'.deletions == []
              && e'.currentRoot == e.currentRoot && e'.pendingEffects == e.pendingEffects
              && h'.StateHook? && Fold(h'.state, h'.queue) == Wrap(a)(Fold(h.state, h.queue))
  {
    if e.currentRoot.None? then Err(NoCurrentRoot)
    else
      var cur := e.currentRoot.value;
      var wip := Fiber(HostRoot, cur.props, cur.dom, Some(cur), NoTag, [], []);
      Ok((e.(wipRoot := Some(wip), nextUnit := Some([]), deletions := []), Enqueue(h, a)))
  }

  /** The state a re-render reads after a batch of setter calls: the old
      state with the actions applied in submission order. */
  lemma {:induction false} RerenderSeesUpdatesInOrder(s: Value, actions: seq<Action>)
    ensures Fold(s, seq(|actions|, i requires 0 <= i < |actions| => Wrap(actions[i])))
            == FoldActions(s, actions)
    decreases |actions|
  {
    if actions != [] {
      var q := seq(|actions|, i requires 0 <= i < |actions| => Wrap(actions[i]));
      var q' := seq(|actions| - 1, i requires 0 <= i < |actions| - 1 => Wrap(actions[1..][i]));
      assert q[1..] == q';
      RerenderSeesUpdatesInOrder(Wrap(actions[0])(s), actions[1..]);
    }
  }

  /** Independent reference: apply each action in turn, a plain value
      replacing the state and an updater transforming it. */
  function FoldActions(s: Value, actions: seq<Action>): Value
    decreases |actions|
  {
    if actions == [] then s
    else
      var next := match actions[0] case Replace(v) => v case Apply(f) => f(s);
      FoldActions(next, actions[1..])
  }

  // ---------------------------------------------------------------------
  // useEffect

  /** `deps[i] === oldHook.deps[i]`, where reading past the end yields `undefined`. */
  function DepAt(deps: seq<Value>, i: nat): Value {
    if i < |deps| then deps[i] else Undefined
  }

  /** `hasChangedDeps`: an empty list always counts as changed; otherwise the
      effect re-runs only when an old effect hook exists and some position
      differs. A state hook in that slot makes the comparison throw. */
  function HasChangedDeps(deps: seq<Value>, oldHook: Option<Hook>): (r: Result<bool, HookError>)
    ensures r.Err? <==> |deps| > 0 && oldHook.Some? && oldHook.value.StateHook?
    ensures r == Ok(true) <==>
              |deps| == 0
              || (oldHook.Some? && oldHook.value.EffectHook?
                  && exists i :: 0 <= i < |deps| && deps[i] != DepAt(oldHook.value.deps, i))
  {
    if |deps| == 0 then Ok(true)
    else if oldHook.None? then Ok(false)
    else if oldHook.value.StateHook? then Err(TypeError)
    else Ok(!(forall i :: 0 <= i < |deps| ==> deps[i] == DepAt(oldHook.value.deps, i)))
  }

  /** `useEffect`: pushes the callback onto `pendingEffects` when the
      dependencies changed, records the hook and advances the index. */
  function UseEffect(fr: Frame, callback: nat, deps: seq<Value>): (r: Result<Frame, HookError>)
    ensures r.Err? <==> |deps| > 0 && OldHook(fr).Some? && OldHook(fr).value.StateHook?
    ensures r.Ok? ==> r.value.hooks == fr.hooks + [EffectHook(deps, callback)]
                      && r.value.hookIndex == fr.hookIndex + 1
                      && r.value.alternateHooks == fr.alternateHooks
    ensures r.Ok? ==>
              (r.value.pendingEffects == fr.pendingEffects + [callback] <==>
                 |deps| == 0
                 || (OldHook(fr).Some? && OldHook(fr).value.EffectHook?
                     && exists i :: 0 <= i < |deps| && deps[i] != DepAt(OldHook(fr).value.deps, i)))
    ensures r.Ok? ==> r.value.pendingEffects == fr.pendingEffects
                      || r.value.pendingEffects == fr.pendingEffects + [callback]
  {
    var changed :- HasChangedDeps(deps, OldHook(fr));
    var effects := if changed then fr.pendingEffects + [callback] else fr.pendingEffects;
    assert effects != fr.pendingEffects <==> changed;
    Ok(fr.(hooks := fr.hooks + [EffectHook(deps, callback)], hookIndex := fr.hookIndex + 1,
           pendingEffects := effects))
  }

  /** Re-rendering with the same non-empty dependency list never queues the
      effect again, whatever the callback. */
  lemma UnchangedDepsNotRequeued(fr: Frame, deps: seq<Value>, cb: nat, cb': nat)
    requires |deps| > 0 && OldHook(fr) == Some(EffectHook(deps, cb))
    ensures UseEffect(fr, cb', deps).Ok?
    ensures UseEffect(fr, cb', deps).value.pendingEffects == fr.pendingEffects
  {
    assert forall i :: 0 <= i < |deps| ==> deps[i] == DepAt(deps, i);
  }

  /** The dependency test as evidently intended: with no recorded hook (the
      first render) the effect is due, as it is when a dependency changed. */
  function EffectDue(deps: seq<Value>, oldHook: Option<Hook>): (r: Result<bool, HookError>)
    ensures r.Err? <==> |deps| > 0 && oldHook.Some? && oldHook.value.StateHook?
    ensures r == Ok(false) <==>
              |deps| > 0 && oldHook.Some? && oldHook.value.EffectHook?
              && forall i :: 0 <= i < |deps| ==> deps[i] == DepAt(oldHook.value.deps, i)
  {
    if oldHook.None? then Ok(true) else HasChangedDeps(deps, oldHook)
  }

  /** `useEffect` with the intended dependency test. */
  function UseEffectIntended(fr: Frame, callback: nat, deps: seq<Value>): (r: Result<Frame, HookError>)
    ensures r.Ok? ==> r.value.hooks == fr.hooks + [EffectHook(deps, callback)]
                      && r.value.hookIndex == fr.hookIndex + 1
    ensures OldHook(fr).None? ==>
              r.Ok? && r.value.pendingEffects == fr.pendingEffects + [callback]
  {
    var due :- EffectDue(deps, OldHook(fr));
    Ok(fr.(hooks := fr.hooks + [EffectHook(deps, callback)], hookIndex := fr.hookIndex + 1,
           pendingEffects := if due then fr.pendingEffects + [callback] else fr.pendingEffects))
  }

  /** As written, an effect with a non-empty dependency list is never queued
      on the render that mounts its component; the intended test queues it. */
  lemma MountWithDepsSkipsEffect(fr: Frame, callback: nat, deps: seq<Value>)
    requires |deps| > 0 && OldHook(fr).None?
    ensures UseEffect(fr, callback, deps).Ok?
    ensures UseEffect(fr, callback, deps).value.pendingEffects == fr.pendingEffects
    ensures UseEffectIntended(fr, callback, deps).value.pendingEffects
            == fr.pendingEffects + [callback]
  {
  }

  /** The two tests agree whenever a hook was recorded in that slot. */
  lemma EffectDueAgreesAfterMount(deps: seq<Value>, h: Hook)
    ensures EffectDue(deps, Some(h)) == HasChangedDeps(deps, Some(h))
  {
  }
}

=== FILE: early_reconcile.dfy ===
/** Positional children diff of the early engine (`reconcileChildren`):
    prior and new children are matched by index, and a pair is kept only when
    the types are equal. A new child may be `null` (`None`): `createElement`
    keeps it, because `typeof null` is "object". */
module EarlyReconcile {
  import opened Wrappers
  import opened Values
  import opened EarlyFiber

  /** The prior child at position `i` is reused by the new child at `i`. */
  predicate SameTypeAt(prior: seq<Fiber>, children: seq<Option<Element>>, i: nat) {
    i < |prior| && i < |children| && children[i].Some? && children[i].value.elemType == prior[i].elemType
  }

  /** The `TypeError` of `prevSibling!.sibling = newNode` when the previous
      child was `null`, at the position of the child being linked. */
  datatype ReconcileError = SiblingOfNull(index: nat)

  /** A non-null child right after a null one: linking it reads `.sibling`
      of `undefined`. */
  predicate BreakAt(children: seq<Option<Element>>, i: nat) {
    0 < i < |children| && children[i - 1].None? && children[i].Some?
  }

  /** The length of the leading run of non-null children: the chain that
      `wipNode.child` and the `sibling` links build. */
  function Linked(children: seq<Option<Element>>): (n: nat)
    ensures n <= |children|
    ensures forall i :: 0 <= i < n ==> children[i].Some?
    ensures n < |children| ==> children[n].None?
  {
    if children == [] || children[0].None? then 0 else 1 + Linked(children[1..])
  }

  /** The prior child at position `i`, if there is one. */
  function PriorAt(prior: seq<Fiber>, i: nat): (r: Option<Fiber>)
    ensures r.Some? <==> i < |prior|
    ensures r.Some? ==> r.value == prior[i]
  {
    if i < |prior| then Some(prior[i]) else None
  }

  /** The fiber built for one new child, given the prior child at its position. */
  function ReconcileChild(prior: Option<Fiber>, child: Element): (f: Fiber)
    ensures f.elemType == child.elemType && f.props == child.props && f.children == []
    ensures prior.Some? && prior.value.elemType == child.elemType ==>
              f == Fiber(child.elemType, child.props, prior.value.dom, prior, Update, prior.value.hooks, [])
    ensures !(prior.Some? && prior.value.elemType == child.elemType) ==>
              f == Fiber(child.elemType, child.props, None, None, Placement, [], [])
  {
    if prior.Some? && prior.value.elemType == child.elemType then
      Fiber(prior.value.elemType, child.props, prior.value.dom, prior, Update, prior.value.hooks, [])
    else
      Fiber(child.elemType, child.props, None, None, Placement, [], [])
  }

  /** Reference definition of the deletions list: among the first `n` prior
      children, each one not reused at its position, tagged DELETION, in
      order of position. */
  ghost function DeletedUpTo(prior: seq<Fiber>, children: seq<Option<Element>>, n: nat): seq<Fiber>
    requires n <= |prior|
  {
    if n == 0 then []
    else DeletedUpTo(prior, children, n - 1)
         + (if SameTypeAt(prior, children, n - 1) then [] else [prior[n - 1].(effectTag := Deletion)])
  }

  /** Positions among the first `n` prior children that are reused. */
  ghost function ReusedUpTo(prior: seq<Fiber>, children: seq<Option<Element>>, n: nat): set<nat>
    requires n <= |prior|
  {
    set i | 0 <= i < n && SameTypeAt(prior, children, i)
  }

  /** `kids` are the fibers built for the first `|kids|` children, each
      against the prior child at its position. */
  ghost predicate Built(prior: seq<Fiber>, children: seq<Option<Element>>, kids: seq<Fiber>) {
    forall i {:trigger kids[i]} :: 0 <= i < |kids| ==>
      i < |children| && children[i].Some?
      && kids[i] == ReconcileChild(PriorAt(prior, i), children[i].value)
  }

  lemma BuiltSnoc(prior: seq<Fiber>, children: seq<Option<Element>>, kids: seq<Fiber>)
    requires Built(prior, children, kids)
    requires |kids| < |children| && children[|kids|].Some?
    ensures Built(prior, children, kids + [ReconcileChild(PriorAt(prior, |kids|), children[|kids|].value)])
  {
    var k := ReconcileChild(PriorAt(prior, |kids|), children[|kids|].value);
    forall i | 0 <= i < |kids| + 1
      ensures i < |children| && children[i].Some?
              && (kids + [k])[i] == ReconcileChild(PriorAt(prior, i), children[i].value)
    {
      if i < |kids| {
        assert (kids + [k])[i] == kids[i];
      }
    }
  }

  /** What `Built` says about each fiber: the child's type and props, and
      UPDATE or PLACEMENT by the type at its position. */
  lemma BuiltFields(prior: seq<Fiber>, children: seq<Option<Element>>, kids: seq<Fiber>)
    requires Built(prior, children, kids)
    ensures |kids| <= |children|
    ensures forall i :: 0 <= i < |kids| ==>
              children[i].Some?
              && kids[i].elemType == children[i].value.elemType
              && kids[i].props == children[i].value.props
              && kids[i].children == []
    ensures forall i :: 0 <= i < |kids| && SameTypeAt(prior, children, i) ==>
              kids[i].effectTag == Update && kids[i].dom == prior[i].dom
              && kids[i].hooks == prior[i].hooks && kids[i].alternate == Some(prior[i])
    ensures forall i :: 0 <= i < |kids| && !SameTypeAt(prior, children, i) ==>
              kids[i].effectTag == Placement && kids[i].dom == None
              && kids[i].alternate == None && kids[i].hooks == []
  {
    if kids != [] {
      var last := kids[|kids| - 1];
    }
    forall i | 0 <= i < |kids|
      ensures children[i].Some?
              && kids[i].elemType == children[i].value.elemType
              && kids[i].props == children[i].value.props
              && kids[i].children == []
      ensures SameTypeAt(prior, children, i) ==>
                kids[i].effectTag == Update && kids[i].dom == prior[i].dom
                && kids[i].hooks == prior[i].hooks && kids[i].alternate == Some(prior[i])
      ensures !SameTypeAt(prior, children, i) ==>
                kids[i].effectTag == Placement && kids[i].dom == None
                && kids[i].alternate == None && kids[i].hooks == []
    {
      var ki := kids[i];
      var p := PriorAt(prior, i);
      assert ki == ReconcileChild(p, children[i].value);
      if SameTypeAt(prior, children, i) {
        assert p == Some(prior[i]);
      } else {
        assert !(p.Some? && p.value.elemType == children[i].value.elemType);
      }
    }
  }

  /** Every child in `[from, to)` is `null`. */
  predicate NullBetween(children: seq<Option<Element>>, from: nat, to: nat) {
    forall i :: from <= i < to && i < |children| ==> children[i].None?
  }

  /** The deletion half of the loop of `reconcileChildren`: at each prior
      position, the old child is tagged DELETION and pushed when the new
      child there is missing, `null` or of another type. This decision does
      not depend on the linking, so it is taken in a loop of its own. */
  method CollectDeleted(prior: seq<Fiber>, children: seq<Option<Element>>) returns (deleted: seq<Fiber>)
    ensures deleted == DeletedUpTo(prior, children, |prior|)
  {
    var index := 0;
    deleted := [];
    while index < |prior|
      invariant index <= |prior|
      invariant deleted == DeletedUpTo(prior, children, index)
    {
      var child := if index < |children| then children[index] else None;
      var sameType := child.Some? && child.value.elemType == prior[index].elemType;
      assert sameType == SameTypeAt(prior, children, index);
      if !sameType {
        deleted := deleted + [prior[index].(effectTag := Deletion)];
      }
      index := index + 1;
    }
  }

  /** The linking half of the loop of `reconcileChildren`: one step per new
      child. A `null` child gets no fiber and is not linked, so the chain
      stops at the first one. `broken` is the position of a non-null child
      after a `null` one, where the loop throws. */
  method Walk(prior: seq<Fiber>, children: seq<Option<Element>>)
    returns (broken: Option<nat>, kids: seq<Fiber>)
    ensures broken.Some? ==> BreakAt(children, broken.value)
                             && forall i :: 0 <= i < broken.value ==> !BreakAt(children, i)
    ensures broken.None? ==> forall i :: Linked(children) <= i < |children| ==> children[i].None?
    ensures broken.None? ==> |kids| == Linked(children) && Built(prior, children, kids)
  {
    var index := 0;
    kids := [];
    broken := None;
    var prevLinked := false;
    ghost var n := Linked(children);
    while index < |children|
      invariant index <= |children|
      invariant index <= n ==> |kids| == index && prevLinked == (index > 0)
      invariant index > n ==> |kids| == n && !prevLinked
      invariant NullBetween(children, n, index)
      invariant Built(prior, children, kids)
    {
      var child := children[index];
      var oldNode := PriorAt(prior, index);
      if child.Some? {
        if index > 0 && !prevLinked {
          assert BreakAt(children, index);
          return Some(index), kids;
        }
        assert index < n;
        BuiltSnoc(prior, children, kids);
        kids := kids + [ReconcileChild(oldNode, child.value)];
        prevLinked := true;
      } else {
        assert n <= index;
        assert NullBetween(children, n, index + 1);
        prevLinked := false;
      }
      index := index + 1;
    }
  }

  /** `reconcileChildren`: on success the new child fibers (the sibling
      chain of the work-in-progress node) and the old fibers pushed onto
      `deletions`; a non-null child after a `null` one throws. */
  method ReconcileChildren(prior: seq<Fiber>, children: seq<Option<Element>>)
    returns (r: Result<(seq<Fiber>, seq<Fiber>), ReconcileError>)
    ensures r.Err? <==> exists i :: BreakAt(children, i)
    ensures r.Err? ==> BreakAt(children, r.error.index)
                       && forall i :: 0 <= i < r.error.index ==> !BreakAt(children, i)
    ensures r.Ok? ==> forall i :: Linked(children) <= i < |children| ==> children[i].None?
    ensures r.Ok? ==> |r.value.0| == Linked(children)
    ensures r.Ok? ==> forall i :: 0 <= i < |r.value.0| ==>
              children[i].Some?
              && r.value.0[i].elemType == children[i].value.elemType
              && r.value.0[i].props == children[i].value.props
              && r.value.0[i].children == []
    ensures r.Ok? ==> forall i :: 0 <= i < |r.value.0| && SameTypeAt(prior, children, i) ==>
              r.value.0[i].effectTag == Update && r.value.0[i].dom == prior[i].dom
              && r.value.0[i].hooks == prior[i].hooks && r.value.0[i].alternate == Some(prior[i])
    ensures r.Ok? ==> forall i :: 0 <= i < |r.value.0| && !SameTypeAt(prior, children, i) ==>
              r.value.0[i].effectTag == Placement && r.value.0[i].dom == None
              && r.value.0[i].alternate == None && r.value.0[i].hooks == []
    ensures r.Ok? ==> r.value.1 == DeletedUpTo(prior, children, |prior|)
  {
    var broken, kids := Walk(prior, children);
    var deleted := CollectDeleted(prior, children);
    if broken.Some? {
      r := Err(SiblingOfNull(broken.value));
    } else {
      BuiltFields(prior, children, kids);
      r := Ok((kids, deleted));
    }
  }

  /** Every fiber on the deletions list is tagged DELETION. */
  lemma {:induction false} DeletedAreTagged(prior: seq<Fiber>, children: seq<Option<Element>>, n: nat)
    requires n <= |prior|
    ensures forall f :: f in DeletedUpTo(prior, children, n) ==> f.effectTag == Deletion
  {
    if n > 0 {
      DeletedAreTagged(prior, children, n - 1);
    }
  }

  /** Each prior child is either reused or deleted, exactly once: the
      deletions list and the reused positions together account for every
      prior child. */
  lemma {:induction false} DeletedOncePerUnmatched(prior: seq<Fiber>, children: seq<Option<Element>>, n: nat)
    requires n <= |prior|
    ensures |DeletedUpTo(prior, children, n)| + |ReusedUpTo(prior, children, n)| == n
  {
    if n > 0 {
      DeletedOncePerUnmatched(prior, children, n - 1);
      var prev := ReusedUpTo(prior, children, n - 1);
      if SameTypeAt(prior, children, n - 1) {
        assert ReusedUpTo(prior, children, n) == prev + {n - 1};
      } else {
        assert ReusedUpTo(prior, children, n) == prev;
      }
    }
  }

  /** The `[div, span, div]` against `[div, p, div]` diff: UPDATE,
      PLACEMENT, UPDATE, and only the span is deleted. */
  method DivSpanDivScenario() returns (tags: seq<EffectTag>, deletedTypes: seq<ElemType>)
    ensures tags == [Update, Placement, Update]
    ensures deletedTypes == [Tag("span")]
  {
    var priorKids := [Fiber(Tag("div"), [], Some(1), None, NoTag, [], []),
                    Fiber(Tag("span"), [], Some(2), None, NoTag, [], []),
                    Fiber(Tag("div"), [], Some(3), None, NoTag, [], [])];
    var newKids := [Some(Element(Tag("div"), [])), Some(Element(Tag("p"), [])), Some(Element(Tag("div"), []))];
    assert Linked(newKids) == 3 by {
      assert Linked(newKids[3..]) == 0;
    }
    var r := ReconcileChildren(priorKids, newKids);
    assert !BreakAt(newKids, 1) && !BreakAt(newKids, 2);
    var kids := r.value.0;
    var deleted := r.value.1;
    assert SameTypeAt(priorKids, newKids, 0) && !SameTypeAt(priorKids, newKids, 1)
           && SameTypeAt(priorKids, newKids, 2);
    tags := [kids[0].effectTag, kids[1].effectTag, kids[2].effectTag];
    assert deleted == [priorKids[1].(effectTag := Deletion)];
    deletedTypes := [deleted[0].elemType];
  }

  /** A component whose only child is `null`, against an old `div`: no fiber
      is created, so `wipNode.child` is `undefined`, and the `div` is
      deleted. */
  method NullChildScenario() returns (childCount: nat, deletedTypes: seq<ElemType>)
    ensures childCount == 0
    ensures deletedTypes == [Tag("div")]
  {
    var priorKids := [Fiber(Tag("div"), [], Some(1), None, NoTag, [], [])];
    var newKids: seq<Option<Element>> := [None];
    var r := ReconcileChildren(priorKids, newKids);
    assert !BreakAt(newKids, 0);
    assert !SameTypeAt(priorKids, newKids, 0);
    assert r.value.1 == [priorKids[0].(effectTag := Deletion)];
    childCount := |r.value.0|;
    deletedTypes := [r.value.1[0].elemType];
  }

  /** `[null, p]` throws when the `p` is linked to the missing first fiber. */
  method NullThenElementScenario() returns (failed: bool, at: nat)
    ensures failed && at == 1
  {
    var newKids := [None, Some(Element(Tag("p"), []))];
    var r := ReconcileChildren([], newKids);
    assert BreakAt(newKids, 1);
    failed := r.Err?;
    at := r.error.index;
  }

  /** `[p, null]` keeps only the `p`. */
  method ElementThenNullScenario() returns (types: seq<ElemType>)
    ensures types == [Tag("p")]
  {
    var newKids := [Some(Element(Tag("p"), [])), None];
    assert Linked(newKids) == 1 by {
      assert Linked(newKids[1..]) == 0;
    }
    var r := ReconcileChildren([], newKids);
    assert !BreakAt(newKids, 1);
    types := [r.value.0[0].elemType];
  }
}

=== FILE: early_walk.dfy ===
/** The "next unit of work" step of `performUnitOfWork`: after a fiber is
    processed, continue with its first child, else with the sibling of the
    nearest fiber on the way back up (itself included), else stop. Fibers are
    addressed by their path of child indices from the work-in-progress root. */
module EarlyWalk {
  import opened Wrappers
  import opened EarlyFiber

  type Path = seq<nat>

  predicate ValidPath(t: Fiber, p: Path)
    decreases |p|
  {
    |p| == 0 || (p[0] < |t.children| && ValidPath(t.children[p[0]], p[1..]))
  }

  function At(t: Fiber, p: Path): Fiber
    requires ValidPath(t, p)
    decreases |p|
  {
    if |p| == 0 then t else At(t.children[p[0]], p[1..])
  }

  predicate IsPrefix(p: Path, q: Path) {
    |p| <= |q| && q[..|p|] == p
  }

  predicate IsProperPrefix(p: Path, q: Path) {
    |p| < |q| && q[..|p|] == p
  }

  /** Pre-order position: an ancestor comes before its descendants, and the
      whole subtree of an earlier sibling comes before a later sibling. */
  predicate PreorderBefore(p: Path, q: Path)
    decreases |p|
  {
    |q| > 0 && (|p| == 0 || p[0] < q[0] || (p[0] == q[0] && PreorderBefore(p[1..], q[1..])))
  }

  // ---------------------------------------------------------------------
  // Paths and validity

  lemma {:induction false} ValidSnoc(t: Fiber, s: Path, j: nat)
    ensures ValidPath(t, s + [j]) <==> ValidPath(t, s) && j < |At(t, s).children|
    ensures ValidPath(t, s + [j]) ==> At(t, s + [j]) == At(t, s).children[j]
    decreases |s|
  {
    if |s| > 0 {
      assert (s + [j])[0] == s[0] && (s + [j])[1..] == s[1..] + [j];
      if s[0] < |t.children| {
        ValidSnoc(t.children[s[0]], s[1..], j);
      }
    }
  }

  lemma {:induction false} ValidPrefix(t: Fiber, p: Path, n: nat)
    requires ValidPath(t, p) && n <= |p|
    ensures ValidPath(t, p[..n])
    decreases |p|
  {
    if n > 0 {
      assert p[..n][0] == p[0] && p[..n][1..] == p[1..][..n - 1];
      ValidPrefix(t.children[p[0]], p[1..], n - 1);
    }
  }

  // ---------------------------------------------------------------------
  // The traversal step

  /** The sibling search of `performUnitOfWork`'s loop, starting at `p`. */
  function Climb(t: Fiber, p: Path): (r: Option<Path>)
    requires ValidPath(t, p)
    ensures r.Some? ==> ValidPath(t, r.value)
    decreases |p|
  {
    if |p| == 0 then None
    else
      var parent := p[..|p| - 1];
      var i := p[|p| - 1];
      ValidPrefix(t, p, |p| - 1);
      ValidSnoc(t, parent, i + 1);
      if i + 1 < |At(t, parent).children| then Some(parent + [i + 1]) else Climb(t, parent)
  }

  /** `performUnitOfWork`'s return value for the fiber at `p`. */
  function NextUnit(t: Fiber, p: Path): (r: Option<Path>)
    requires ValidPath(t, p)
    ensures r.Some? ==> ValidPath(t, r.value)
  {
    ValidSnoc(t, p, 0);
    if |At(t, p).children| > 0 then Some(p + [0]) else Climb(t, p)
  }

  // ---------------------------------------------------------------------
  // Facts about the pre-order

  lemma {:induction false} PreorderIrreflexive(p: Path)
    ensures !PreorderBefore(p, p)
    decreases |p|
  {
    if |p| > 0 {
      PreorderIrreflexive(p[1..]);
    }
  }

  lemma {:induction false} PreorderTransitive(p: Path, q: Path, r: Path)
    requires PreorderBefore(p, q) && PreorderBefore(q, r)
    ensures PreorderBefore(p, r)
    decreases |p|
  {
    if |p| > 0 && p[0] == q[0] && q[0] == r[0] {
      PreorderTransitive(p[1..], q[1..], r[1..]);
    }
  }

  lemma {:induction false} PreorderBeforeExtension(p: Path, q: Path)
    requires IsProperPrefix(p, q)
    ensures PreorderBefore(p, q)
    decreases |p|
  {
    if |p| > 0 {
      assert q[1..][..|p| - 1] == p[1..];
      PreorderBeforeExtension(p[1..], q[1..]);
    }
  }

  lemma {:induction false} PreorderBeforeSibling(s: Path, i: nat, j: nat)
    requires i < j
    ensures PreorderBefore(s + [i], s + [j])
    decreases |s|
  {
    if |s| > 0 {
      assert (s + [i])[1..] == s[1..] + [i] && (s + [j])[1..] == s[1..] + [j];
      PreorderBeforeSibling(s[1..], i, j);
    }
  }

  /** Nothing lies strictly between a fiber and its first child. */
  lemma {:induction false} NothingBeforeFirstChild(p: Path, r: Path)
    ensures !(PreorderBefore(p, r) && PreorderBefore(r, p + [0]))
    decreases |p|
  {
    if |p| > 0 && |r| > 0 && p[0] == r[0] {
      assert (p + [0])[1..] == p[1..] + [0];
      NothingBeforeFirstChild(p[1..], r[1..]);
    }
  }

  /** Whatever lies strictly between two adjacent siblings is inside the
      subtree of the first one. */
  lemma {:induction false} BetweenSiblingsIsDescendant(s: Path, i: nat, r: Path)
    requires PreorderBefore(s + [i], r) && PreorderBefore(r, s + [i + 1])
    ensures IsProperPrefix(s + [i], r)
    decreases |s|
  {
    if |s| > 0 {
      assert (s + [i])[1..] == s[1..] + [i] && (s + [i + 1])[1..] == s[1..] + [i + 1];
      BetweenSiblingsIsDescendant(s[1..], i, r[1..]);
      assert r == [r[0]] + r[1..];
    } else {
      assert r[..1] == [i];
    }
  }

  /** A path after `s` but outside its subtree is after every descendant of `s`. */
  lemma {:induction false} AfterSubtree(s: Path, p: Path, q: Path)
    requires IsProperPrefix(s, p) && PreorderBefore(s, q) && !IsPrefix(s, q)
    ensures PreorderBefore(p, q)
    decreases |s|
  {
    if |s| > 0 && s[0] == q[0] {
      assert p[1..][..|s| - 1] == s[1..];
      AfterSubtree(s[1..], p[1..], q[1..]);
    }
  }

  /** Within the subtree of `s`, the order is decided by the child index
      taken right below `s`. */
  lemma {:induction false} BelowCommonPrefix(s: Path, i: nat, r: Path)
    requires IsProperPrefix(s, r) && PreorderBefore(s + [i], r)
    ensures r[|s|] >= i
    ensures r[|s|] == i ==> IsProperPrefix(s + [i], r)
    decreases |s|
  {
    if |s| > 0 {
      assert (s + [i])[1..] == s[1..] + [i];
      assert r[1..][..|s| - 1] == s[1..];
      BelowCommonPrefix(s[1..], i, r[1..]);
      if r[|s|] == i {
        assert r[..|s| + 1] == [r[0]] + r[1..][..|s|];
      }
    } else {
      if r[0] == i {
        assert r[..1] == [i];
      }
    }
  }

  /** The paths strictly between `p` and the result of the sibling search
      are exactly descendants of `p`; with no result, every later path is a
      descendant of `p`. */
  lemma {:induction false} ClimbSkipsOnlyDescendants(t: Fiber, p: Path)
    requires ValidPath(t, p)
    ensures Climb(t, p).Some? ==>
              PreorderBefore(p, Climb(t, p).value) && !IsPrefix(p, Climb(t, p).value)
              && forall r :: (ValidPath(t, r) && PreorderBefore(p, r) && PreorderBefore(r, Climb(t, p).value))
                               ==> IsProperPrefix(p, r)
    ensures Climb(t, p).None? ==>
              forall r :: ValidPath(t, r) && PreorderBefore(p, r) ==> IsProperPrefix(p, r)
    decreases |p|
  {
    if |p| == 0 {
      return;
    }
    var s := p[..|p| - 1];
    var i := p[|p| - 1];
    assert p == s + [i];
    ValidPrefix(t, p, |p| - 1);
    if i + 1 < |At(t, s).children| {
      var q := s + [i + 1];
      assert Climb(t, p) == Some(q);
      PreorderBeforeSibling(s, i, i + 1);
      assert q[..|p|] == q;
      forall r | ValidPath(t, r) && PreorderBefore(p, r) && PreorderBefore(r, q)
        ensures IsProperPrefix(p, r)
      {
        BetweenSiblingsIsDescendant(s, i, r);
      }
    } else {
      assert Climb(t, p) == Climb(t, s);
      ClimbSkipsOnlyDescendants(t, s);
      assert IsProperPrefix(s, p);
      PreorderBeforeExtension(s, p);
      if Climb(t, s).Some? {
        var q := Climb(t, s).value;
        AfterSubtree(s, p, q);
      }
      forall r | ValidPath(t, r) && PreorderBefore(p, r)
                 && (Climb(t, s).Some? ==> PreorderBefore(r, Climb(t, s).value))
        ensures IsProperPrefix(p, r)
      {
        PreorderTransitive(s, p, r);
        BelowCommonPrefix(s, i, r);
        ValidPrefix(t, r, |s| + 1);
        assert r[..|s| + 1] == s + [r[|s|]];
        ValidSnoc(t, s, r[|s|]);
      }
    }
  }

  /** `performUnitOfWork` walks the tree in pre-order: the next unit is the
      pre-order successor among all fibers of the tree, and there is no next
      unit exactly when the fiber is the last one in pre-order. */
  lemma NextUnitIsPreorderSuccessor(t: Fiber, p: Path)
    requires ValidPath(t, p)
    ensures NextUnit(t, p).Some? ==>
              PreorderBefore(p, NextUnit(t, p).value)
              && forall r :: ValidPath(t, r) ==> !(PreorderBefore(p, r) && PreorderBefore(r, NextUnit(t, p).value))
    ensures NextUnit(t, p).None? ==> forall r :: ValidPath(t, r) ==> !PreorderBefore(p, r)
  {
    if |At(t, p).children| > 0 {
      PreorderBeforeExtension(p, p + [0]);
      assert (p + [0])[..|p|] == p;
      forall r | ValidPath(t, r)
        ensures !(PreorderBefore(p, r) && PreorderBefore(r, p + [0]))
      {
        NothingBeforeFirstChild(p, r);
      }
    } else {
      ClimbSkipsOnlyDescendants(t, p);
      forall r | ValidPath(t, r) && IsProperPrefix(p, r)
        ensures false
      {
        ValidPrefix(t, r, |p| + 1);
        assert r[..|p| + 1] == p + [r[|p|]];
        ValidSnoc(t, p, r[|p|]);
      }
    }
  }
}

=== FILE: hook_dispatch.dfy ===
/** The hook dispatcher of the library (`useHook`, `cleanupHook`,
    `depsRequireChange`): every built-in hook goes through `useHook`, which
    finds the record kept for the current call position, checks the call
    order, runs the hook's body and stores the record back. */
module HookDispatch {
  import opened Wrappers
  import opened Values

  /** A hook record: its name, the state the hook's body keeps in it, and
      an optional cleanup callback (identified by number). */
  datatype Hook = Hook(name: string, data: Value, cleanup: Option<nat>)

  /** The node being rendered, as far as hooks are concerned: the records
      of its previous render (absent before the first commit) and the
      records stored during this one, by call position. */
  datatype HookHost = HookHost(prevHooks: Option<map<nat, Hook>>, hooks: map<nat, Hook>)

  /** The dispatcher's global state: the re-entrancy flag, the node being
      rendered, whether a render context is known for it, and that
      context's hook index. */
  datatype Dispatcher = Dispatcher(
    inHookCall: bool,
    node: Option<HookHost>,
    hasCtx: bool,
    hookIndex: nat)

  datatype HookError =
    | NestedHookCall(hook: string)
    | NoCurrentNode(hook: string)
    | NoRenderContext(hook: string)
    | OrderViolation(recorded: string, requested: string)
    | Thrown(code: nat)

  /** The body a hook hands to `useHook`: given the record to use and the
      previous one (if any), it returns the record to store and the hook's
      result, or the error it throws. A body may throw an error of its own
      (`Thrown`, identified by number) or let through the error of a hook it
      calls: that call runs while the re-entrancy flag is raised, so it
      fails with `NestedHookCall` and changes nothing (see
      `UseHookAsWritten`'s first postcondition). */
  type HookBody = (Hook, Option<Hook>) -> Result<(Hook, Value), HookError>

  /** `vNode.prev && vNode.prev.hooks?.at(ctx.hookIndex)`. */
  function OldHook(host: HookHost, index: nat): Option<Hook> {
    if host.prevHooks.Some? && index in host.prevHooks.value then Some(host.prevHooks.value[index]) else None
  }

  /** The checks `useHook` makes before running the body all pass. */
  predicate Admitted(d: Dispatcher, name: string) {
    && !d.inHookCall && d.node.Some? && d.hasCtx
    && (OldHook(d.node.value, d.hookIndex).None? || OldHook(d.node.value, d.hookIndex).value.name == name)
  }

  /** The record the body is given: the one kept at the current position,
      or else the supplied one stamped with the hook's name. */
  function Given(d: Dispatcher, name: string, data: Hook): Hook
    requires d.node.Some?
  {
    var prior := OldHook(d.node.value, d.hookIndex);
    if prior.Some? then prior.value else data.(name := name)
  }

  /** The state every call leaves behind on success. */
  function Stored(d: Dispatcher, h: Hook): Dispatcher
    requires d.node.Some?
  {
    d.(inHookCall := false,
       node := Some(d.node.value.(hooks := d.node.value.hooks[d.hookIndex := h])),
       hookIndex := d.hookIndex + 1)
  }

  /** `useHook` as written: the re-entrancy flag is raised before the node,
      context and order checks and before the body runs; those checks and a
      throwing body leave it raised. */
  function UseHookAsWritten(d: Dispatcher, name: string, data: Hook, body: HookBody): (r: (Dispatcher, Result<Value, HookError>))
    ensures d.inHookCall ==> r == (d, Err(NestedHookCall(name)))
    ensures !d.inHookCall && r.1.Err? ==> r.0 == d.(inHookCall := true)
  {
    if d.inHookCall then (d, Err(NestedHookCall(name)))
    else
      var raised := d.(inHookCall := true);
      if d.node.None? then (raised, Err(NoCurrentNode(name)))
      else if !d.hasCtx then (raised, Err(NoRenderContext(name)))
      else
        var prior := OldHook(d.node.value, d.hookIndex);
        if prior.Some? && prior.value.name != name then (raised, Err(OrderViolation(prior.value.name, name)))
        else
          var hook := if prior.Some? then prior.value else data.(name := name);
          var out := body(hook, prior);
          if out.Err? then (raised, Err(out.error))
          else (Stored(d, out.value.0), Ok(out.value.1))
  }

  /** As written, a hook called outside a component poisons the dispatcher:
      every later hook call, even a correct one inside a component, then
      fails as a nested call. */
  lemma FailedCallPoisonsLaterCalls(d: Dispatcher, name: string, data: Hook, body: HookBody,
                                    later: Dispatcher, name': string, data': Hook, body': HookBody)
    requires !d.inHookCall && d.node.None?
    requires later == UseHookAsWritten(d, name, data, body).0.(node := later.node, hasCtx := later.hasCtx,
                                                                hookIndex := later.hookIndex)
    ensures UseHookAsWritten(d, name, data, body).1 == Err(NoCurrentNode(name))
    ensures UseHookAsWritten(later, name', data', body').1 == Err(NestedHookCall(name'))
  {
  }

  /** As written, a body that throws, including one that lets through the
      error of a hook it called, leaves the flag raised and nothing stored;
      every later hook call then fails as a nested call. The corrected
      dispatcher gives the same error and leaves no trace. */
  lemma ThrowingBodyPoisonsLaterCalls(d: Dispatcher, name: string, data: Hook, body: HookBody,
                                      later: Dispatcher, name': string, data': Hook, body': HookBody)
    requires Admitted(d, name) && body(Given(d, name, data), OldHook(d.node.value, d.hookIndex)).Err?
    requires later == UseHookAsWritten(d, name, data, body).0.(node := later.node, hasCtx := later.hasCtx,
                                                                hookIndex := later.hookIndex)
    ensures UseHookAsWritten(d, name, data, body).1 == Err(body(Given(d, name, data), OldHook(d.node.value, d.hookIndex)).error)
    ensures UseHookAsWritten(d, name, data, body).0 == d.(inHookCall := true)
    ensures UseHookAsWritten(later, name', data', body').1 == Err(NestedHookCall(name'))
    ensures UseHook(d, name, data, body) == (d, UseHookAsWritten(d, name, data, body).1)
  {
  }

  /** `useHook` as evidently intended: a failed check leaves the dispatcher
      as it found it. Otherwise the record kept at the current position is
      reused (or the supplied one, stamped with the hook's name), the body
      runs, its record is stored at the position, and the index advances. */
  function UseHook(d: Dispatcher, name: string, data: Hook, body: HookBody): (r: (Dispatcher, Result<Value, HookError>))
    ensures r.1.Err? ==> r.0 == d
    ensures d.inHookCall ==> r.1 == Err(NestedHookCall(name))
    ensures !d.inHookCall && d.node.None? ==> r.1 == Err(NoCurrentNode(name))
    ensures !d.inHookCall && d.node.Some? && !d.hasCtx ==> r.1 == Err(NoRenderContext(name))
    ensures !d.inHookCall && d.node.Some? && d.hasCtx && OldHook(d.node.value, d.hookIndex).Some?
            && OldHook(d.node.value, d.hookIndex).value.name != name ==>
              r.1 == Err(OrderViolation(OldHook(d.node.value, d.hookIndex).value.name, name))
    ensures Admitted(d, name) && body(Given(d, name, data), OldHook(d.node.value, d.hookIndex)).Err? ==>
              r.1 == Err(body(Given(d, name, data), OldHook(d.node.value, d.hookIndex)).error)
    ensures r.1.Ok? <==> Admitted(d, name) && body(Given(d, name, data), OldHook(d.node.value, d.hookIndex)).Ok?
    ensures r.1.Ok? ==>
              var prior := OldHook(d.node.value, d.hookIndex);
              var given := Given(d, name, data);
              && body(given, prior).Ok?
              && r.1.value == body(given, prior).value.1
              && !r.0.inHookCall && r.0.hasCtx
              && r.0.hookIndex == d.hookIndex + 1
              && r.0.node.Some?
              && r.0.node.value.prevHooks == d.node.value.prevHooks
              && r.0.node.value.hooks.Keys == d.node.value.hooks.Keys + {d.hookIndex}
              && r.0.node.value.hooks[d.hookIndex] == body(given, prior).value.0
              && (forall i :: i in d.node.value.hooks && i != d.hookIndex ==>
                    r.0.node.value.hooks[i] == d.node.value.hooks[i])
  {
    var (after, res) := UseHookAsWritten(d, name, data, body);
    if res.Err? && !d.inHookCall then (d, res) else (after, res)
  }

  /** The corrected dispatcher recovers: after any failed call outside a
      hook body, the next call behaves as if the failed one never happened. */
  lemma FailedCallLeavesNoTrace(d: Dispatcher, name: string, data: Hook, body: HookBody,
                                name': string, data': Hook, body': HookBody)
    requires UseHook(d, name, data, body).1.Err?
    ensures UseHook(UseHook(d, name, data, body).0, name', data', body') == UseHook(d, name', data', body')
  {
  }

  /** The two agree on every successful call and on every nested call. */
  lemma AsWrittenAgreesOnSuccess(d: Dispatcher, name: string, data: Hook, body: HookBody)
    ensures UseHook(d, name, data, body).1 == UseHookAsWritten(d, name, data, body).1
    ensures UseHook(d, name, data, body).1.Ok? || d.inHookCall ==>
              UseHook(d, name, data, body).0 == UseHookAsWritten(d, name, data, body).0
  {
  }

  /** One hook call of a component body. */
  datatype HookCall = HookCall(name: string, data: Hook, body: HookBody)

  /** A component body's hook calls in order, stopping at the first error. */
  function RunHooks(d: Dispatcher, calls: seq<HookCall>): (r: (Dispatcher, Result<seq<Value>, HookError>))
    decreases |calls|
  {
    if calls == [] then (d, Ok([]))
    else
      var (d', res) := UseHook(d, calls[0].name, calls[0].data, calls[0].body);
      if res.Err? then (d', Err(res.error))
      else
        var (d'', rest) := RunHooks(d', calls[1..]);
        (d'', if rest.Err? then rest else Ok([res.value] + rest.value))
  }

  /** The previous render recorded a hook of the call's name at position
      `j`, and the call's body does not throw on that record. */
  predicate Replays(prev: map<nat, Hook>, j: nat, c: HookCall) {
    j in prev && prev[j].name == c.name && c.body(prev[j], Some(prev[j])).Ok?
  }

  /** Call `i` of a re-render starting at index `start` got the record kept
      at its position: it returned what its body makes of that record, and
      the body's record was stored there. */
  predicate GotRecord(prev: map<nat, Hook>, start: nat, calls: seq<HookCall>, values: seq<Value>,
                      hooks: map<nat, Hook>, i: nat)
    requires i < |calls| && i < |values|
  {
    && start + i in prev
    && calls[i].body(prev[start + i], Some(prev[start + i])).Ok?
    && values[i] == calls[i].body(prev[start + i], Some(prev[start + i])).value.1
    && start + i in hooks
    && hooks[start + i] == calls[i].body(prev[start + i], Some(prev[start + i])).value.0
  }

  /** Re-rendering a component that calls its hooks in the order they were
      recorded, with bodies that do not throw on those records, succeeds:
      no call fails, slots before the first call are untouched, and the
      index ends just past the last call. */
  lemma {:induction false} SameOrderRerenderSucceeds(d: Dispatcher, calls: seq<HookCall>)
    requires !d.inHookCall && d.node.Some? && d.hasCtx && d.node.value.prevHooks.Some?
    requires forall i :: 0 <= i < |calls| ==>
               Replays(d.node.value.prevHooks.value, d.hookIndex + i, calls[i])
    ensures RunHooks(d, calls).1.Ok?
    ensures |RunHooks(d, calls).1.value| == |calls|
    ensures !RunHooks(d, calls).0.inHookCall && RunHooks(d, calls).0.hasCtx
    ensures RunHooks(d, calls).0.hookIndex == d.hookIndex + |calls|
    ensures RunHooks(d, calls).0.node.Some?
    ensures RunHooks(d, calls).0.node.value.prevHooks == d.node.value.prevHooks
    ensures forall j :: j in d.node.value.hooks && j < d.hookIndex ==>
              j in RunHooks(d, calls).0.node.value.hooks && RunHooks(d, calls).0.node.value.hooks[j] == d.node.value.hooks[j]
    decreases |calls|
  {
    if calls != [] {
      var prev := d.node.value.prevHooks.value;
      assert Replays(prev, d.hookIndex + 0, calls[0]);
      var r := UseHook(d, calls[0].name, calls[0].data, calls[0].body);
      var d' := r.0;
      assert r.1.Ok?;
      assert d'.node.value.prevHooks.value == prev;
      SameOrderTail(d, calls);
      SameOrderRerenderSucceeds(d', calls[1..]);
    }
  }

  /** After a successful first call, the rest of the calls are still
      recorded at their positions. */
  lemma SameOrderTail(d: Dispatcher, calls: seq<HookCall>)
    requires !d.inHookCall && d.node.Some? && d.hasCtx && d.node.value.prevHooks.Some? && calls != []
    requires forall i :: 0 <= i < |calls| ==>
               Replays(d.node.value.prevHooks.value, d.hookIndex + i, calls[i])
    ensures var d' := UseHook(d, calls[0].name, calls[0].data, calls[0].body).0;
            && UseHook(d, calls[0].name, calls[0].data, calls[0].body).1.Ok?
            && !d'.inHookCall && d'.node.Some? && d'.hasCtx && d'.node.value.prevHooks == d.node.value.prevHooks
            && d'.hookIndex == d.hookIndex + 1
            && forall i :: 0 <= i < |calls[1..]| ==>
                 Replays(d.node.value.prevHooks.value, d'.hookIndex + i, calls[1..][i])
  {
    var prev := d.node.value.prevHooks.value;
    assert Replays(prev, d.hookIndex + 0, calls[0]);
    var d' := UseHook(d, calls[0].name, calls[0].data, calls[0].body).0;
    forall i | 0 <= i < |calls[1..]|
      ensures Replays(prev, d'.hookIndex + i, calls[1..][i])
    {
      assert calls[1..][i] == calls[i + 1];
      assert Replays(prev, d.hookIndex + (i + 1), calls[i + 1]);
    }
  }

  /** In such a re-render every call gets the record kept at its position:
      it returns what its body makes of that record, and the body's record
      is stored there. */
  lemma {:induction false} SameOrderCallsGetRecords(d: Dispatcher, calls: seq<HookCall>)
    requires !d.inHookCall && d.node.Some? && d.hasCtx && d.node.value.prevHooks.Some?
    requires forall i :: 0 <= i < |calls| ==>
               Replays(d.node.value.prevHooks.value, d.hookIndex + i, calls[i])
    ensures RunHooks(d, calls).1.Ok? && |RunHooks(d, calls).1.value| == |calls| && RunHooks(d, calls).0.node.Some?
    ensures forall i :: 0 <= i < |calls| ==>
              GotRecord(d.node.value.prevHooks.value, d.hookIndex, calls, RunHooks(d, calls).1.value,
                        RunHooks(d, calls).0.node.value.hooks, i)
    decreases |calls|
  {
    SameOrderRerenderSucceeds(d, calls);
    if calls != [] {
      var prev := d.node.value.prevHooks.value;
      SameOrderTail(d, calls);
      var r := UseHook(d, calls[0].name, calls[0].data, calls[0].body);
      var d' := r.0;
      var tail := calls[1..];
      SameOrderCallsGetRecords(d', tail);
      SameOrderRerenderSucceeds(d', tail);
      var rest := RunHooks(d', tail);
      var all := RunHooks(d, calls);
      assert all.0 == rest.0 && all.1.value == [r.1.value] + rest.1.value;
      forall i | 0 <= i < |calls|
        ensures GotRecord(prev, d.hookIndex, calls, all.1.value, all.0.node.value.hooks, i)
      {
        if i > 0 {
          assert GotRecord(prev, d'.hookIndex, tail, rest.1.value, rest.0.node.value.hooks, i - 1);
          assert calls[i] == tail[i - 1] && d.hookIndex + i == d'.hookIndex + (i - 1);
          assert all.1.value[i] == rest.1.value[i - 1];
        } else {
          var h := prev[d.hookIndex];
          assert OldHook(d.node.value, d.hookIndex) == Some(h);
          assert d'.node.value.hooks[d.hookIndex] == calls[0].body(h, Some(h)).value.0;
          assert d.hookIndex in d'.node.value.hooks && d.hookIndex < d'.hookIndex;
        }
      }
    }
  }

  // ---------------------------------------------------------------------
  // cleanupHook

  /** `cleanupHook`: runs the cleanup if there is one and forgets it.
      Returns the record and the cleanups called. */
  function CleanupHook(h: Hook): (r: (Hook, seq<nat>))
    ensures r.0.cleanup.None?
    ensures r.0.name == h.name && r.0.data == h.data
    ensures r.1 == if h.cleanup.Some? then [h.cleanup.value] else []
  {
    if h.cleanup.Some? then (h.(cleanup := None), [h.cleanup.value]) else (h, [])
  }

  /** Cleaning up twice calls the cleanup once: the second call does nothing. */
  lemma CleanupRunsOnce(h: Hook)
    ensures CleanupHook(CleanupHook(h).0) == (CleanupHook(h).0, [])
    ensures |CleanupHook(h).1 + CleanupHook(CleanupHook(h).0).1| <= 1
  {
  }

  // ---------------------------------------------------------------------
  // depsRequireChange

  /** `depsRequireChange(a, b)`, `undefined` lists being `None`; `Object.is`
      is equality on the abstract values. */
  predicate DepsRequireChange(a: Option<seq<Value>>, b: Option<seq<Value>>) {
    a.None? || b.None? || |a.value| != |b.value|
    || (|a.value| > 0 && exists i :: 0 <= i < |b.value| && b.value[i] != a.value[i])
  }

  /** Two dependency lists call for no change exactly when both are present
      and equal element by element. */
  lemma DepsRequireChangeIff(a: Option<seq<Value>>, b: Option<seq<Value>>)
    ensures !DepsRequireChange(a, b) <==> a.Some? && b.Some? && a.value == b.value
  {
    if a.Some? && b.Some? && |a.value| == |b.value| && !DepsRequireChange(a, b) {
      assert forall i :: 0 <= i < |a.value| ==> a.value[i] == b.value[i];
    }
  }

  lemma DepsReflexive(a: seq<Value>)
    ensures !DepsRequireChange(Some(a), Some(a))
  {
    DepsRequireChangeIff(Some(a), Some(a));
  }

  lemma DepsSymmetric(a: Option<seq<Value>>, b: Option<seq<Value>>)
    ensures DepsRequireChange(a, b) == DepsRequireChange(b, a)
  {
    DepsRequireChangeIff(a, b);
    DepsRequireChangeIff(b, a);
  }
}

=== FILE: lib_attrs.dfy ===
/** Attribute, style and listener updates of the library's commit phase
    (packages/lib/src/dom.ts): `handleAttributeRemoval`, `setDomAttribute`,
    `setStyleProp`, `setProp` and `updateDom`, each returning the document
    operations it issues. */
module LibAttrs {
  import opened Wrappers
  import opened Values
  import opened DomOps
  import opened OrderedSets

  /** Helpers of the library's utilities file, which is not part of this
      model: the boolean attribute names, the internal prop names, the
      event-key test and the prop-name-to-attribute mapping. */
  datatype Filters = Filters(
    booleanAttributes: seq<string>,
    internalProps: seq<string>,
    isEvent: string -> bool,
    propToHtmlAttr: string -> string)

  /** The values that make an attribute go away: null, undefined, a
      function, a symbol, and `false` on a boolean attribute. */
  predicate Drops(value: Value, isBoolAttr: bool) {
    value == Null || value == Undefined || value.Fn? || value.Sym? || (isBoolAttr && value == Bool(false))
  }

  /** The operation writes to document node `dom`. */
  predicate Targets(op: DomOp, dom: DomId) {
    && (op.SetProperty? || op.SetAttribute? || op.RemoveAttribute? || op.SetStyle?
        || op.SetNodeValue? || op.AddListener? || op.RemoveListener?)
    && op.target == dom
  }

  // ---------------------------------------------------------------------
  // handleAttributeRemoval, setDomAttribute

  /** `handleAttributeRemoval`: whether the attribute was removed, and the
      operations issued. */
  function HandleAttributeRemoval(dom: DomId, key: string, value: Value, isBoolAttr: bool): (r: (bool, seq<DomOp>))
    ensures r.0 <==> Drops(value, isBoolAttr)
    ensures r.0 ==> r.1 == [RemoveAttribute(dom, key)]
    ensures !r.0 ==> r.1 == []
  {
    if value == Null then (true, [RemoveAttribute(dom, key)])
    else
      var t := TypeOf(value);
      if t == "undefined" || t == "function" || t == "symbol" then (true, [RemoveAttribute(dom, key)])
      else if t == "boolean" && isBoolAttr && !value.b then (true, [RemoveAttribute(dom, key)])
      else (false, [])
  }

  /** `setDomAttribute`: a boolean attribute is written as the empty string,
      anything else as `String(value)`, unless the value drops it. */
  function SetDomAttribute(f: Filters, dom: DomId, key: string, value: Value): (r: seq<DomOp>)
    ensures |r| == 1
    ensures r[0] == RemoveAttribute(dom, key) <==> Drops(value, key in f.booleanAttributes)
    ensures r[0].SetAttribute? ==> r[0] == SetAttribute(dom, key, if key in f.booleanAttributes then "" else ToStr(value))
  {
    var isBoolAttr := key in f.booleanAttributes;
    var (removed, ops) := HandleAttributeRemoval(dom, key, value, isBoolAttr);
    if removed then ops
    else [SetAttribute(dom, key, if isBoolAttr then "" else ToStr(value))]
  }

  // ---------------------------------------------------------------------
  // The element state these operations act on

  /** What a document element exposes to the commit phase: its attributes,
      its inline style entries, its (event type, handler) listeners and,
      for a text node, its `nodeValue`. */
  datatype ElemState = ElemState(
    attrs: map<string, string>,
    style: map<string, Value>,
    listeners: set<(string, Value)>,
    nodeValue: Value)

  function Apply(st: ElemState, dom: DomId, op: DomOp): ElemState {
    match op
    case SetAttribute(t, name, text) => if t == dom then st.(attrs := st.attrs[name := text]) else st
    case RemoveAttribute(t, name) => if t == dom then st.(attrs := st.attrs - {name}) else st
    case SetStyle(t, name, v) => if t == dom then st.(style := st.style[name := v]) else st
    case AddListener(t, e, h) => if t == dom then st.(listeners := st.listeners + {(e, h)}) else st
    case RemoveListener(t, e, h) => if t == dom then st.(listeners := st.listeners - {(e, h)}) else st
    case SetNodeValue(t, v) => if t == dom then st.(nodeValue := v) else st
    case _ => st
  }

  function ApplyAll(st: ElemState, dom: DomId, ops: seq<DomOp>): ElemState
    decreases |ops|
  {
    if ops == [] then st else ApplyAll(Apply(st, dom, ops[0]), dom, ops[1..])
  }

  lemma {:induction false} ApplyAllConcat(st: ElemState, dom: DomId, a: seq<DomOp>, b: seq<DomOp>)
    ensures ApplyAll(st, dom, a + b) == ApplyAll(ApplyAll(st, dom, a), dom, b)
    decreases |a|
  {
    if a == [] {
      assert a + b == b;
    } else {
      assert (a + b)[0] == a[0] && (a + b)[1..] == a[1..] + b;
      ApplyAllConcat(Apply(st, dom, a[0]), dom, a[1..], b);
    }
  }

  /** After `setDomAttribute` the attribute is absent exactly when the value
      drops it, holds "" for a boolean attribute and `String(value)`
      otherwise; no other attribute and nothing else changes. */
  lemma SetDomAttributeEffect(f: Filters, st: ElemState, dom: DomId, key: string, value: Value)
    ensures var r := ApplyAll(st, dom, SetDomAttribute(f, dom, key, value));
            && (key !in r.attrs <==> Drops(value, key in f.booleanAttributes))
            && (key in r.attrs ==> r.attrs[key] == if key in f.booleanAttributes then "" else ToStr(value))
            && (forall k :: k != key ==> (k in r.attrs <==> k in st.attrs) && (k in r.attrs ==> r.attrs[k] == st.attrs[k]))
            && r.style == st.style && r.listeners == st.listeners && r.nodeValue == st.nodeValue
  {
    var ops := SetDomAttribute(f, dom, key, value);
    assert ApplyAll(st, dom, ops) == Apply(st, dom, ops[0]);
  }

  /** Writing the same attribute value twice leaves the element as writing
      it once. */
  lemma SetDomAttributeIdempotent(f: Filters, st: ElemState, dom: DomId, key: string, value: Value)
    ensures var ops := SetDomAttribute(f, dom, key, value);
            ApplyAll(ApplyAll(st, dom, ops), dom, ops) == ApplyAll(st, dom, ops)
  {
    var ops := SetDomAttribute(f, dom, key, value);
    assert ApplyAll(st, dom, ops) == Apply(st, dom, ops[0]);
    assert ApplyAll(ApplyAll(st, dom, ops), dom, ops) == Apply(Apply(st, dom, ops[0]), dom, ops[0]);
  }

  // ---------------------------------------------------------------------
  // setStyleProp

  /** `dom.style[k] = ""` for every key of `prev` that `next` lacks, in the
      order of `Object.keys(prev)`. */
  function ClearGone(dom: DomId, prevKeys: seq<string>, next: Props): (r: seq<DomOp>)
    ensures forall op :: op in r ==> op.SetStyle? && op.target == dom && op.value == Str("")
    ensures forall k :: SetStyle(dom, k, Str("")) in r <==> k in prevKeys && !Has(next, k)
  {
    if prevKeys == [] then []
    else
      var rest := ClearGone(dom, prevKeys[1..], next);
      assert forall k :: k in prevKeys <==> k == prevKeys[0] || k in prevKeys[1..];
      if !Has(next, prevKeys[0]) then [SetStyle(dom, prevKeys[0], Str(""))] + rest else rest
  }

  /** `dom.style[k] = value[k]` for every own key of `value`, in order. */
  function AssignAll(dom: DomId, fields: Props): (r: seq<DomOp>)
    ensures |r| == |fields|
    ensures forall i :: 0 <= i < |r| ==> r[i] == SetStyle(dom, fields[i].0, fields[i].1)
  {
    if fields == [] then [] else [SetStyle(dom, fields[0].0, fields[0].1)] + AssignAll(dom, fields[1..])
  }

  /** `setStyleProp`: a dropping value removes the style attribute, a string
      replaces it, and an object first clears the keys of an object `prev`
      it lacks and then assigns each of its own entries. */
  function SetStyleProp(dom: DomId, value: Value, prev: Value): (r: seq<DomOp>)
    ensures Drops(value, false) ==> r == [RemoveAttribute(dom, "style")]
    ensures value.Str? ==> r == [SetAttribute(dom, "style", value.s)]
    ensures value.Bool? || value.Num? ==> r == []
    ensures forall op :: op in r ==> Targets(op, dom)
  {
    var (removed, ops) := HandleAttributeRemoval(dom, "style", value, false);
    if removed then ops
    else if TypeOf(value) == "string" then [SetAttribute(dom, "style", value.s)]
    else
      var cleared :=
        if !IsFalsy(prev) && TypeOf(prev) == "object" && !IsFalsy(value) && TypeOf(value) == "object"
        then ClearGone(dom, Keys(prev.fields), value.fields)
        else [];
      if TypeOf(value) != "object" || IsFalsy(value) then cleared
      else cleared + AssignAll(dom, value.fields)
  }

  /** The inline style an object `value` leaves on an element whose style
      came from an object `prev`: every own key of `value` holds its value,
      every key only `prev` had is cleared to "", every other entry is as
      before, and attributes and listeners are untouched. */
  lemma StyleObjectOverObject(st: ElemState, dom: DomId, value: Value, prev: Value, k: string)
    requires value.Obj? && prev.Obj? && DistinctKeys(value.fields)
    ensures var r := ApplyAll(st, dom, SetStyleProp(dom, value, prev));
            && (Has(value.fields, k) ==> k in r.style && r.style[k] == Get(value.fields, k))
            && (!Has(value.fields, k) && Has(prev.fields, k) ==> k in r.style && r.style[k] == Str(""))
            && (!Has(value.fields, k) && !Has(prev.fields, k) ==>
                  (k in r.style <==> k in st.style) && (k in st.style ==> r.style[k] == st.style[k]))
            && r.attrs == st.attrs && r.listeners == st.listeners
  {
    var cleared := ClearGone(dom, Keys(prev.fields), value.fields);
    var assigns := AssignAll(dom, value.fields);
    assert SetStyleProp(dom, value, prev) == cleared + assigns;
    ApplyAllConcat(st, dom, cleared, assigns);
    ClearedStyle(st, dom, Keys(prev.fields), value.fields, k);
    AssignedStyle(ApplyAll(st, dom, cleared), dom, value.fields, k);
  }

  /** With distinct keys, the entry at `i` is the one `Get` finds. */
  lemma {:induction false} GetAtDistinct(p: Props, i: nat)
    requires DistinctKeys(p) && i < |p|
    ensures Get(p, p[i].0) == p[i].1
    decreases i
  {
    if i > 0 {
      assert p[0].0 != p[i].0;
      DistinctTail(p);
      assert p[1..][i - 1] == p[i];
      GetAtDistinct(p[1..], i - 1);
    }
  }

  lemma DistinctTail(p: Props)
    requires DistinctKeys(p) && p != []
    ensures DistinctKeys(p[1..]) && !Has(p[1..], p[0].0)
  {
    forall a, b | 0 <= a < b < |p[1..]| ensures p[1..][a].0 != p[1..][b].0 {
      assert p[1..][a] == p[a + 1] && p[1..][b] == p[b + 1];
    }
    forall j | 0 <= j < |p[1..]| ensures p[1..][j].0 != p[0].0 {
      assert p[1..][j] == p[j + 1];
    }
  }

  lemma {:induction false} ClearedStyle(st: ElemState, dom: DomId, prevKeys: seq<string>, next: Props, k: string)
    ensures var r := ApplyAll(st, dom, ClearGone(dom, prevKeys, next));
            && (k in prevKeys && !Has(next, k) ==> k in r.style && r.style[k] == Str(""))
            && (!(k in prevKeys && !Has(next, k)) ==>
                  (k in r.style <==> k in st.style) && (k in st.style ==> r.style[k] == st.style[k]))
            && r.attrs == st.attrs && r.listeners == st.listeners
    decreases |prevKeys|
  {
    if prevKeys != [] {
      var k0 := prevKeys[0];
      var rest := ClearGone(dom, prevKeys[1..], next);
      assert k in prevKeys <==> k == k0 || k in prevKeys[1..];
      if !Has(next, k0) {
        var st1 := Apply(st, dom, SetStyle(dom, k0, Str("")));
        assert ([SetStyle(dom, k0, Str(""))] + rest)[1..] == rest;
        ClearedStyle(st1, dom, prevKeys[1..], next, k);
      } else {
        ClearedStyle(st, dom, prevKeys[1..], next, k);
      }
    }
  }

  lemma {:induction false} AssignedStyle(st: ElemState, dom: DomId, fields: Props, k: string)
    requires DistinctKeys(fields)
    ensures var r := ApplyAll(st, dom, AssignAll(dom, fields));
            && (Has(fields, k) ==> k in r.style && r.style[k] == Get(fields, k))
            && (!Has(fields, k) ==> (k in r.style <==> k in st.style) && (k in st.style ==> r.style[k] == st.style[k]))
            && r.attrs == st.attrs && r.listeners == st.listeners
    decreases |fields|
  {
    if fields != [] {
      var st1 := Apply(st, dom, SetStyle(dom, fields[0].0, fields[0].1));
      assert AssignAll(dom, fields)[1..] == AssignAll(dom, fields[1..]);
      DistinctTail(fields);
      AssignedStyle(st1, dom, fields[1..], k);
      assert Keys(fields) == [fields[0].0] + Keys(fields[1..]);
      assert Has(fields, k) <==> k == fields[0].0 || Has(fields[1..], k);
    }
  }

  // ---------------------------------------------------------------------
  // setProp, updateDom

  /** `setProp`: the `style` key goes through `setStyleProp`, any other key
      through `setDomAttribute` under its attribute name. */
  function SetProp(f: Filters, dom: DomId, key: string, value: Value, prev: Value): (r: seq<DomOp>)
    ensures forall op :: op in r ==> Targets(op, dom) && (op.SetAttribute? || op.RemoveAttribute? || op.SetStyle?)
    ensures key == "style" ==> r == SetStyleProp(dom, value, prev)
    ensures key != "style" ==> r == SetDomAttribute(f, dom, f.propToHtmlAttr(key), value)
  {
    if key == "style" then SetStyleProp(dom, value, prev)
    else SetDomAttribute(f, dom, f.propToHtmlAttr(key), value)
  }

  /** `new Set([...Object.keys(prev), ...Object.keys(next)])`. */
  function KeyUnion(prev: Props, next: Props): (r: seq<string>)
    ensures NoDup(r)
    ensures forall k :: k in r <==> Has(prev, k) || Has(next, k)
  {
    Dedup(Keys(prev) + Keys(next))
  }

  /** The elements of `s` in first-occurrence order, each once. */
  function Dedup<T(==,!new)>(s: seq<T>): (r: seq<T>)
    ensures NoDup(r)
    ensures forall x :: x in r <==> x in s
    decreases |s|
  {
    if s == [] then []
    else
      var init := Dedup(s[..|s| - 1]);
      assert forall x :: x in s <==> x in s[..|s| - 1] || x == s[|s| - 1];
      Insert(init, s[|s| - 1])
  }

  /** An event key whose handler changed by identity: its listeners are
      swapped, and it is not treated as a property. */
  predicate ListenerSwap(f: Filters, prev: Props, next: Props, key: string) {
    key !in f.internalProps && f.isEvent(key) && Get(prev, key) != Get(next, key)
  }

  /** The operations `updateDom` issues for one key. */
  function KeyOps(f: Filters, dom: DomId, isText: bool, prevProps: Option<Props>, next: Props, key: string): (r: seq<DomOp>)
    ensures forall op :: op in r ==> Targets(op, dom)
  {
    var prev := PropsOf(prevProps);
    if key in f.internalProps then []
    else if f.isEvent(key) && Get(prev, key) != Get(next, key) then
      (if Has(prev, key) then [RemoveListener(dom, EventType(key), Get(prev, key))] else [])
      + (if Has(next, key) then [AddListener(dom, EventType(key), Get(next, key))] else [])
    else if !isText then SetProp(f, dom, key, Get(next, key), Get(prev, key))
    else if prevProps.Some? && Get(prev, "nodeValue") != Get(next, "nodeValue") then [SetNodeValue(dom, Get(next, "nodeValue"))]
    else []
  }

  /** `node.prev?.props ?? {}`. */
  function PropsOf(p: Option<Props>): Props {
    if p.Some? then p.value else []
  }

  function KeysOps(f: Filters, dom: DomId, isText: bool, prevProps: Option<Props>, next: Props, keys: seq<string>): (r: seq<DomOp>)
    ensures forall op :: op in r <==> exists k :: k in keys && op in KeyOps(f, dom, isText, prevProps, next, k)
  {
    if keys == [] then []
    else
      var rest := KeysOps(f, dom, isText, prevProps, next, keys[1..]);
      assert forall k :: k in keys <==> k == keys[0] || k in keys[1..];
      KeyOps(f, dom, isText, prevProps, next, keys[0]) + rest
  }

  /** `updateDom(node, dom)`: visits every key of the previous and next
      props once; `prevProps` is `None` when the node has no previous
      version, `isText` tells a text node from an element. */
  function UpdateDom(f: Filters, dom: DomId, isText: bool, prevProps: Option<Props>, next: Props): (r: seq<DomOp>)
    ensures forall op :: op in r ==> Targets(op, dom)
    ensures forall op :: op in r <==> exists k :: (Has(PropsOf(prevProps), k) || Has(next, k)) && op in KeyOps(f, dom, isText, prevProps, next, k)
  {
    KeysOps(f, dom, isText, prevProps, next, KeyUnion(PropsOf(prevProps), next))
  }

  /** One key's share of the listener changes. */
  lemma KeyOpsListeners(f: Filters, dom: DomId, isText: bool, prevProps: Option<Props>, next: Props, k: string, e: string, h: Value)
    ensures AddListener(dom, e, h) in KeyOps(f, dom, isText, prevProps, next, k) <==>
              ListenerSwap(f, PropsOf(prevProps), next, k) && Has(next, k) && e == EventType(k) && h == Get(next, k)
    ensures RemoveListener(dom, e, h) in KeyOps(f, dom, isText, prevProps, next, k) <==>
              ListenerSwap(f, PropsOf(prevProps), next, k) && Has(PropsOf(prevProps), k) && e == EventType(k) && h == Get(PropsOf(prevProps), k)
  {
    var prev := PropsOf(prevProps);
    if k !in f.internalProps && !(f.isEvent(k) && Get(prev, k) != Get(next, k)) && !isText {
      var ops := SetProp(f, dom, k, Get(next, k), Get(prev, k));
      assert AddListener(dom, e, h) !in ops;
      assert RemoveListener(dom, e, h) !in ops;
    }
  }

  /** Listener changes: a handler is added exactly for an event key of the
      next props whose handler changed, and removed exactly for an event key
      of the previous props whose handler changed, under the key's event
      type; property writes never touch listeners. */
  lemma UpdateDomListeners(f: Filters, dom: DomId, isText: bool, prevProps: Option<Props>, next: Props, e: string, h: Value)
    ensures AddListener(dom, e, h) in UpdateDom(f, dom, isText, prevProps, next) <==>
              exists k :: ListenerSwap(f, PropsOf(prevProps), next, k) && Has(next, k) && e == EventType(k) && h == Get(next, k)
    ensures RemoveListener(dom, e, h) in UpdateDom(f, dom, isText, prevProps, next) <==>
              exists k :: ListenerSwap(f, PropsOf(prevProps), next, k) && Has(PropsOf(prevProps), k) && e == EventType(k) && h == Get(PropsOf(prevProps), k)
  {
    forall k ensures AddListener(dom, e, h) in KeyOps(f, dom, isText, prevProps, next, k) <==>
                       ListenerSwap(f, PropsOf(prevProps), next, k) && Has(next, k) && e == EventType(k) && h == Get(next, k)
    {
      KeyOpsListeners(f, dom, isText, prevProps, next, k, e, h);
    }
    forall k ensures RemoveListener(dom, e, h) in KeyOps(f, dom, isText, prevProps, next, k) <==>
                       ListenerSwap(f, PropsOf(prevProps), next, k) && Has(PropsOf(prevProps), k) && e == EventType(k) && h == Get(PropsOf(prevProps), k)
    {
      KeyOpsListeners(f, dom, isText, prevProps, next, k, e, h);
    }
  }

  /** Element nodes: every key that is neither internal nor a swapped
      listener goes through `setProp` with its next and previous values. */
  lemma UpdateDomSetsProps(f: Filters, dom: DomId, prevProps: Option<Props>, next: Props, k: string)
    requires Has(PropsOf(prevProps), k) || Has(next, k)
    requires k !in f.internalProps && !ListenerSwap(f, PropsOf(prevProps), next, k)
    ensures forall op :: op in SetProp(f, dom, k, Get(next, k), Get(PropsOf(prevProps), k)) ==>
              op in UpdateDom(f, dom, false, prevProps, next)
  {
  }

  /** Text nodes: no attribute, style or listener-free property writes; the
      `nodeValue` is written only when there are previous props and its
      value changed, and then to the next value. When `nodeValue` is
      neither internal nor an event key, such a change is always written. */
  lemma UpdateDomText(f: Filters, dom: DomId, prevProps: Option<Props>, next: Props)
    ensures forall op :: op in UpdateDom(f, dom, true, prevProps, next) ==>
              !op.SetAttribute? && !op.RemoveAttribute? && !op.SetStyle?
    ensures forall v :: SetNodeValue(dom, v) in UpdateDom(f, dom, true, prevProps, next) ==>
              prevProps.Some? && v == Get(next, "nodeValue") && Get(PropsOf(prevProps), "nodeValue") != v
    ensures "nodeValue" !in f.internalProps && !f.isEvent("nodeValue")
            && prevProps.Some? && Get(PropsOf(prevProps), "nodeValue") != Get(next, "nodeValue") ==>
              SetNodeValue(dom, Get(next, "nodeValue")) in UpdateDom(f, dom, true, prevProps, next)
  {
    var r := UpdateDom(f, dom, true, prevProps, next);
    if "nodeValue" !in f.internalProps && !f.isEvent("nodeValue")
       && prevProps.Some? && Get(PropsOf(prevProps), "nodeValue") != Get(next, "nodeValue") {
      var k := "nodeValue";
      assert Has(PropsOf(prevProps), k) || Has(next, k);
      assert SetNodeValue(dom, Get(next, k)) in KeyOps(f, dom, true, prevProps, next, k);
    }
    forall op | op in r
      ensures !op.SetAttribute? && !op.RemoveAttribute? && !op.SetStyle?
      ensures op.SetNodeValue? ==> prevProps.Some? && op.value == Get(next, "nodeValue") && Get(PropsOf(prevProps), "nodeValue") != op.value
    {
      var k :| (Has(PropsOf(prevProps), k) || Has(next, k)) && op in KeyOps(f, dom, true, prevProps, next, k);
      KeyOpsText(f, dom, prevProps, next, k, op);
    }
  }

  lemma KeyOpsText(f: Filters, dom: DomId, prevProps: Option<Props>, next: Props, k: string, op: DomOp)
    requires op in KeyOps(f, dom, true, prevProps, next, k)
    ensures !op.SetAttribute? && !op.RemoveAttribute? && !op.SetStyle?
    ensures op.SetNodeValue? ==> prevProps.Some? && op.value == Get(next, "nodeValue") && Get(PropsOf(prevProps), "nodeValue") != op.value
  {
  }
}

=== FILE: lib_commit.dfy ===
/** The library's commit of one node (packages/lib/src/dom.ts): `commitWork`,
    `findMountedDomRecursive` and `commitDeletion`. The first-child /
    next-sibling / parent links are represented by a rose tree: a task
    carries the node, the siblings after it and its ancestors (nearest
    first). Each step returns its document operations, the callbacks it
    calls, the callbacks it queues, the updated node and its follow-up
    tasks, which the global context (not part of this model) runs later. */
module LibCommit {
  import opened Wrappers
  import opened Values
  import opened DomOps
  import opened LibAttrs
  import HookDispatch

  /** `type`: a text node, an intrinsic tag, a function component or a
      class component. */
  datatype Kind = TextNode | Host(tag: string) | FunctionComp(fid: nat) | ClassComp(cid: nat)

  /** A class component instance: its root document node and lifecycle
      methods, if defined. */
  datatype Instance = Instance(rootDom: Option<DomId>, didMount: Option<nat>, didUpdate: Option<nat>, willUnmount: Option<nat>)

  datatype EffectTag = NoTag | Placement | Update | Deletion

  datatype VNode = VNode(
    kind: Kind,
    props: Props,
    dom: Option<DomId>,
    instance: Option<Instance>,
    effectTag: EffectTag,
    prev: Option<VNode>,
    hooks: seq<HookDispatch.Hook>,
    children: seq<VNode>)

  /** What the document tells the commit: which nodes are connected
      (`isConnected`) and which have child nodes (`childNodes.length > 0`). */
  datatype Doc = Doc(connected: set<DomId>, nonEmpty: set<DomId>)

  /** A follow-up: `commitWork(child or sibling, ...)` or
      `commitDeletion(child or sibling, undefined, true)`. */
  datatype Task =
    | CommitTask(node: VNode, rest: seq<VNode>, ancestors: seq<VNode>, domParent: Option<DomId>,
                 prevSibling: Option<VNode>, prevSiblingDom: Option<DomId>, commitSibling: bool)
    | DeleteTask(node: VNode, rest: seq<VNode>, deleteSibling: bool)

  /** The result of one step. */
  datatype Step = Step(ops: seq<DomOp>, calls: seq<nat>, queued: seq<nat>, node: VNode, followUps: seq<Task>)

  function RootDom(v: VNode): Option<DomId> {
    if v.instance.Some? then v.instance.value.rootDom else None
  }

  /** `vNode.dom ?? vNode.instance?.rootDom`. */
  function OwnDom(v: VNode): Option<DomId> {
    if v.dom.Some? then v.dom else RootDom(v)
  }

  /** `node.instance?.rootDom ?? node.dom`, the order used when looking for
      a parent. */
  function ParentDom(v: VNode): Option<DomId> {
    if RootDom(v).Some? then RootDom(v) else v.dom
  }

  // ---------------------------------------------------------------------
  // findMountedDomRecursive

  predicate Mounted(doc: Doc, v: VNode) {
    v.dom.Some? && v.dom.value in doc.connected
  }

  /** `findMountedDomRecursive(vNode)`: the node's own connected `dom`, else
      the first found in its children (each child followed by its later
      siblings). */
  function FindMounted(doc: Doc, v: VNode): Option<DomId> {
    if Mounted(doc, v) then v.dom else FindMountedIn(doc, v.children)
  }

  /** `findMountedDomRecursive(first, true)`: the forest of `first` and its
      later siblings. */
  function FindMountedIn(doc: Doc, vs: seq<VNode>): Option<DomId> {
    if vs == [] then None
    else
      var d := FindMounted(doc, vs[0]);
      if d.Some? then d else FindMountedIn(doc, vs[1..])
  }

  /** The node and its descendants in pre-order. */
  function Preorder(v: VNode): (r: seq<VNode>)
    ensures |r| >= 1 && r[0] == v
  {
    [v] + PreorderIn(v.children)
  }

  function PreorderIn(vs: seq<VNode>): seq<VNode> {
    if vs == [] then [] else Preorder(vs[0]) + PreorderIn(vs[1..])
  }

  /** The `dom` of the first node of `vs` that is connected. */
  function FirstMounted(doc: Doc, vs: seq<VNode>): Option<DomId> {
    if vs == [] then None
    else if Mounted(doc, vs[0]) then vs[0].dom
    else FirstMounted(doc, vs[1..])
  }

  /** `FirstMounted` finds something exactly when some node is connected,
      and then the first such node's `dom`. */
  lemma {:induction false} FirstMountedIsFirst(doc: Doc, vs: seq<VNode>)
    ensures FirstMounted(doc, vs).Some? <==> exists i :: 0 <= i < |vs| && Mounted(doc, vs[i])
    ensures FirstMounted(doc, vs).Some? ==>
              exists i :: 0 <= i < |vs| && Mounted(doc, vs[i]) && FirstMounted(doc, vs) == vs[i].dom
                          && forall j :: 0 <= j < i ==> !Mounted(doc, vs[j])
    decreases |vs|
  {
    if vs != [] && !Mounted(doc, vs[0]) {
      FirstMountedIsFirst(doc, vs[1..]);
      var r := FirstMounted(doc, vs[1..]);
      if r.Some? {
        var i :| 0 <= i < |vs[1..]| && Mounted(doc, vs[1..][i]) && r == vs[1..][i].dom
                 && forall j :: 0 <= j < i ==> !Mounted(doc, vs[1..][j]);
        assert vs[1..][i] == vs[i + 1];
        forall j | 0 <= j < i + 1 ensures !Mounted(doc, vs[j]) {
          if j > 0 { assert vs[j] == vs[1..][j - 1]; }
        }
      } else {
        forall i | 0 <= i < |vs| ensures !Mounted(doc, vs[i]) {
          if i > 0 { assert vs[i] == vs[1..][i - 1]; }
        }
      }
    }
  }

  lemma {:induction false} FirstMountedConcat(doc: Doc, a: seq<VNode>, b: seq<VNode>)
    ensures FirstMounted(doc, a + b) == if FirstMounted(doc, a).Some? then FirstMounted(doc, a) else FirstMounted(doc, b)
    decreases |a|
  {
    if a == [] {
      assert a + b == b;
    } else {
      assert (a + b)[0] == a[0] && (a + b)[1..] == a[1..] + b;
      FirstMountedConcat(doc, a[1..], b);
    }
  }

  /** The search finds the `dom` of the first connected node in pre-order
      over the node and its subtree, and nothing when there is none. */
  lemma {:induction false} FindMountedIsPreorderFirst(doc: Doc, v: VNode)
    ensures FindMounted(doc, v) == FirstMounted(doc, Preorder(v))
    decreases v, 1
  {
    FirstMountedConcat(doc, [v], PreorderIn(v.children));
    FindMountedInIsPreorderFirst(doc, v.children);
  }

  /** With siblings included, the search covers each node's subtree and
      then its later siblings', in pre-order. */
  lemma {:induction false} FindMountedInIsPreorderFirst(doc: Doc, vs: seq<VNode>)
    ensures FindMountedIn(doc, vs) == FirstMounted(doc, PreorderIn(vs))
    decreases vs, 0
  {
    if vs != [] {
      FindMountedIsPreorderFirst(doc, vs[0]);
      FindMountedInIsPreorderFirst(doc, vs[1..]);
      FirstMountedConcat(doc, Preorder(vs[0]), PreorderIn(vs[1..]));
    }
  }

  // ---------------------------------------------------------------------
  // commitDeletion

  /** `while (vNode.hooks?.length) cleanupHook(vNode.hooks.pop()!)`: the
      cleanups called, last hook first. */
  function PopHooks(hooks: seq<HookDispatch.Hook>): (calls: seq<nat>)
    decreases |hooks|
  {
    if hooks == [] then []
    else HookDispatch.CleanupHook(hooks[|hooks| - 1]).1 + PopHooks(hooks[..|hooks| - 1])
  }

  /** The cleanups the hooks hold, first hook first. */
  function Cleanups(hooks: seq<HookDispatch.Hook>): seq<nat> {
    if hooks == [] then []
    else (if hooks[0].cleanup.Some? then [hooks[0].cleanup.value] else []) + Cleanups(hooks[1..])
  }

  function Reverse<T>(s: seq<T>): (r: seq<T>)
    ensures |r| == |s|
    ensures forall i :: 0 <= i < |s| ==> r[i] == s[|s| - 1 - i]
  {
    if s == [] then [] else Reverse(s[1..]) + [s[0]]
  }

  lemma {:induction false} CleanupsSnoc(hooks: seq<HookDispatch.Hook>, h: HookDispatch.Hook)
    ensures Cleanups(hooks + [h]) == Cleanups(hooks) + (if h.cleanup.Some? then [h.cleanup.value] else [])
    decreases |hooks|
  {
    if hooks == [] {
      assert [] + [h] == [h];
      assert [h][1..] == [];
    } else {
      var s := hooks + [h];
      assert s[0] == hooks[0] && s[1..] == hooks[1..] + [h];
      CleanupsSnoc(hooks[1..], h);
      var head := if hooks[0].cleanup.Some? then [hooks[0].cleanup.value] else [];
      var tail := if h.cleanup.Some? then [h.cleanup.value] else [];
      assert Cleanups(s) == head + (Cleanups(hooks[1..]) + tail);
      assert Cleanups(hooks) == head + Cleanups(hooks[1..]);
    }
  }

  lemma ReverseConcat<T>(a: seq<T>, b: seq<T>)
    ensures Reverse(a + b) == Reverse(b) + Reverse(a)
  {
  }

  /** Popping the hooks one by one calls every cleanup they hold exactly
      once, in reverse order of the hooks. */
  lemma {:induction false} PopHooksCallsEachCleanupOnce(hooks: seq<HookDispatch.Hook>)
    ensures PopHooks(hooks) == Reverse(Cleanups(hooks))
    decreases |hooks|
  {
    if hooks != [] {
      var init := hooks[..|hooks| - 1];
      var last := hooks[|hooks| - 1];
      assert hooks == init + [last];
      PopHooksCallsEachCleanupOnce(init);
      CleanupsSnoc(init, last);
      var c := if last.cleanup.Some? then [last.cleanup.value] else [];
      ReverseConcat(Cleanups(init), c);
      assert Reverse(c) == c;
    }
  }

  /** `commitDeletion(vNode, dom, deleteSibling)`: a class component with an
      instance is told it unmounts, any other component has its hooks
      cleaned up; a connected `dom` that is not the instance's root is
      removed and forgotten; follow-ups delete the first child (with its
      later siblings) and, when asked, the next sibling. */
  function CommitDeletion(doc: Doc, v: VNode, rest: seq<VNode>, dom: Option<DomId>, deleteSibling: bool): (r: Step)
    ensures r.queued == []
    ensures v.kind.ClassComp? && v.instance.Some? ==>
              && r.calls == (if v.instance.value.willUnmount.Some? then [v.instance.value.willUnmount.value] else [])
              && r.node.hooks == v.hooks
    ensures v.kind.FunctionComp? || (v.kind.ClassComp? && v.instance.None?) ==>
              r.calls == Reverse(Cleanups(v.hooks)) && r.node.hooks == []
    ensures v.kind.TextNode? || v.kind.Host? ==> r.calls == [] && r.node.hooks == v.hooks
    ensures r.ops == (if dom.Some? && dom.value in doc.connected && RootDom(v) != dom then [RemoveNode(dom.value)] else [])
    ensures dom.Some? ==> r.node.dom.None?
    ensures r.followUps ==
              (if v.children != [] then [DeleteTask(v.children[0], v.children[1..], true)] else [])
              + (if deleteSibling && rest != [] then [DeleteTask(rest[0], rest[1..], true)] else [])
  {
    var calls :=
      if v.kind.ClassComp? && v.instance.Some? then
        (if v.instance.value.willUnmount.Some? then [v.instance.value.willUnmount.value] else [])
      else if v.kind.FunctionComp? || v.kind.ClassComp? then PopHooks(v.hooks)
      else [];
    var hooks := if v.kind.ClassComp? && v.instance.Some? then v.hooks
                 else if v.kind.FunctionComp? || v.kind.ClassComp? then [] else v.hooks;
    var ops := if dom.Some? && dom.value in doc.connected && RootDom(v) != dom then [RemoveNode(dom.value)] else [];
    var node := v.(hooks := hooks, dom := if dom.Some? then None else v.dom);
    var fus := (if v.children != [] then [DeleteTask(v.children[0], v.children[1..], true)] else [])
               + (if deleteSibling && rest != [] then [DeleteTask(rest[0], rest[1..], true)] else []);
    PopHooksCallsEachCleanupOnce(v.hooks);
    Step(ops, calls, [], node, fus)
  }

  /** How many nodes a follow-up can still reach: the node's subtree, plus
      the later siblings' subtrees when it continues along them. */
  function TaskSize(t: Task): nat {
    |Preorder(t.node)| + (if (t.DeleteTask? && t.deleteSibling) || (t.CommitTask? && t.commitSibling) then |PreorderIn(t.rest)| else 0)
  }

  function TasksSize(ts: seq<Task>): nat {
    if ts == [] then 0 else TaskSize(ts[0]) + TasksSize(ts[1..])
  }

  /** The follow-up a deletion step returns for the node's first child. */
  function ChildDeletion(t: Task): (r: seq<Task>)
    ensures |r| <= 1 && forall i :: 0 <= i < |r| ==> r[i].DeleteTask?
  {
    if t.node.children != [] then [DeleteTask(t.node.children[0], t.node.children[1..], true)] else []
  }

  /** The follow-up a deletion step returns for the next sibling. */
  function SiblingDeletion(t: Task): (r: seq<Task>)
    requires t.DeleteTask?
    ensures |r| <= 1 && forall i :: 0 <= i < |r| ==> r[i].DeleteTask?
  {
    if t.deleteSibling && t.rest != [] then [DeleteTask(t.rest[0], t.rest[1..], true)] else []
  }

  /** The nodes a deletion reaches when every follow-up it returns is run,
      each follow-up's own follow-ups before the next: the global context
      that runs them is not part of this model. */
  function DeletionReach(doc: Doc, t: Task): seq<VNode>
    requires t.DeleteTask?
    decreases TaskSize(t), 0
  {
    var step := CommitDeletion(doc, t.node, t.rest, t.node.dom, t.deleteSibling);
    ReachSizes(t);
    [t.node] + DeletionReachAll(doc, step.followUps)
  }

  function DeletionReachAll(doc: Doc, ts: seq<Task>): seq<VNode>
    requires forall i :: 0 <= i < |ts| ==> ts[i].DeleteTask?
    decreases TasksSize(ts), 1
  {
    if ts == [] then [] else DeletionReach(doc, ts[0]) + DeletionReachAll(doc, ts[1..])
  }

  /** The follow-ups of a deletion step can reach one node fewer than the
      step itself. */
  lemma ReachSizes(t: Task)
    requires t.DeleteTask?
    ensures TasksSize(ChildDeletion(t) + SiblingDeletion(t)) < TaskSize(t)
    ensures TasksSize(ChildDeletion(t)) + TasksSize(SiblingDeletion(t)) < TaskSize(t)
  {
    var cs := t.node.children;
    if cs != [] {
      assert PreorderIn(cs) == Preorder(cs[0]) + PreorderIn(cs[1..]);
    }
    if t.rest != [] {
      assert PreorderIn(t.rest) == Preorder(t.rest[0]) + PreorderIn(t.rest[1..]);
    }
    TasksSizeConcat(ChildDeletion(t), SiblingDeletion(t));
  }

  lemma {:induction false} TasksSizeConcat(a: seq<Task>, b: seq<Task>)
    ensures TasksSize(a + b) == TasksSize(a) + TasksSize(b)
    decreases |a|
  {
    if a == [] {
      assert a + b == b;
    } else {
      assert (a + b)[0] == a[0] && (a + b)[1..] == a[1..] + b;
      TasksSizeConcat(a[1..], b);
    }
  }

  /** One step of the deletion walk: the node, then what its first child's
      follow-up reaches, then what the sibling's follow-up reaches. */
  lemma DeletionReachUnfold(doc: Doc, t: Task)
    requires t.DeleteTask?
    ensures DeletionReach(doc, t) ==
              [t.node] + (DeletionReachAll(doc, ChildDeletion(t)) + DeletionReachAll(doc, SiblingDeletion(t)))
  {
    var step := CommitDeletion(doc, t.node, t.rest, t.node.dom, t.deleteSibling);
    assert step.followUps == ChildDeletion(t) + SiblingDeletion(t);
    DeletionReachAllConcat(doc, ChildDeletion(t), SiblingDeletion(t));
  }

  /** The single follow-up for a non-empty run of nodes reaches their
      subtrees, given that each task reaches its own. */
  lemma ReachOfRun(doc: Doc, vs: seq<VNode>, reach: seq<VNode>)
    requires vs != [] && reach == Preorder(vs[0]) + PreorderIn(vs[1..])
    requires DeletionReach(doc, DeleteTask(vs[0], vs[1..], true)) == reach
    ensures DeletionReachAll(doc, [DeleteTask(vs[0], vs[1..], true)]) == PreorderIn(vs)
  {
    var ts := [DeleteTask(vs[0], vs[1..], true)];
    assert ts[1..] == [];
    assert DeletionReachAll(doc, ts) == DeletionReach(doc, ts[0]) + [];
  }

  /** A deletion reaches exactly the node's subtree, in pre-order, each
      node once; its own later siblings only when it continues along them,
      which the commit's own call (`deleteSibling` false) does not. */
  lemma {:induction false} DeletionReachesSubtree(doc: Doc, t: Task)
    requires t.DeleteTask?
    ensures DeletionReach(doc, t) == Preorder(t.node) + (if t.deleteSibling then PreorderIn(t.rest) else [])
    decreases TaskSize(t), 0
  {
    var cs := t.node.children;
    ReachSizes(t);
    DeletionReachUnfold(doc, t);
    var a := DeletionReachAll(doc, ChildDeletion(t));
    var b := DeletionReachAll(doc, SiblingDeletion(t));
    if cs != [] {
      var c := DeleteTask(cs[0], cs[1..], true);
      assert ChildDeletion(t) == [c];
      assert TaskSize(c) == TasksSize(ChildDeletion(t));
      DeletionReachesSubtree(doc, c);
      ReachOfRun(doc, cs, Preorder(cs[0]) + PreorderIn(cs[1..]));
    }
    assert a == PreorderIn(cs);
    if t.deleteSibling && t.rest != [] {
      var sb := DeleteTask(t.rest[0], t.rest[1..], true);
      assert SiblingDeletion(t) == [sb];
      assert TaskSize(sb) == TasksSize(SiblingDeletion(t));
      DeletionReachesSubtree(doc, sb);
      ReachOfRun(doc, t.rest, Preorder(t.rest[0]) + PreorderIn(t.rest[1..]));
    }
    assert b == if t.deleteSibling then PreorderIn(t.rest) else [];
    assert Preorder(t.node) == [t.node] + a;
    ConcatAssoc([t.node], a, b);
  }

  lemma ConcatAssoc<T>(x: seq<T>, y: seq<T>, z: seq<T>)
    ensures x + (y + z) == (x + y) + z
  {
  }

  lemma {:induction false} DeletionReachAllConcat(doc: Doc, a: seq<Task>, b: seq<Task>)
    requires forall i :: 0 <= i < |a| ==> a[i].DeleteTask?
    requires forall i :: 0 <= i < |b| ==> b[i].DeleteTask?
    ensures forall i :: 0 <= i < |a + b| ==> (a + b)[i].DeleteTask?
    ensures DeletionReachAll(doc, a + b) == DeletionReachAll(doc, a) + DeletionReachAll(doc, b)
    decreases |a|
  {
    if a == [] {
      assert a + b == b;
    } else {
      assert (a + b)[0] == a[0] && (a + b)[1..] == a[1..] + b;
      DeletionReachAllConcat(doc, a[1..], b);
    }
  }

  // ---------------------------------------------------------------------
  // commitWork

  /** The search for a mountable parent: the document node of the nearest
      ancestor that has one. */
  function SearchDomParent(ancestors: seq<VNode>): Option<DomId> {
    if ancestors == [] then None
    else if ParentDom(ancestors[0]).Some? then ParentDom(ancestors[0])
    else SearchDomParent(ancestors[1..])
  }

  /** The search fails exactly when no ancestor has a document node, and
      otherwise finds the nearest one's. */
  lemma {:induction false} SearchDomParentIsNearest(ancestors: seq<VNode>)
    ensures SearchDomParent(ancestors).Some? <==> exists i :: 0 <= i < |ancestors| && ParentDom(ancestors[i]).Some?
    ensures SearchDomParent(ancestors).Some? ==>
              exists i :: 0 <= i < |ancestors| && SearchDomParent(ancestors) == ParentDom(ancestors[i])
                          && forall j :: 0 <= j < i ==> ParentDom(ancestors[j]).None?
    decreases |ancestors|
  {
    if ancestors != [] && ParentDom(ancestors[0]).None? {
      SearchDomParentIsNearest(ancestors[1..]);
      var r := SearchDomParent(ancestors[1..]);
      if r.Some? {
        var i :| 0 <= i < |ancestors[1..]| && r == ParentDom(ancestors[1..][i])
                 && forall j :: 0 <= j < i ==> ParentDom(ancestors[1..][j]).None?;
        assert ancestors[1..][i] == ancestors[i + 1];
        forall j | 0 <= j < i + 1 ensures ParentDom(ancestors[j]).None? {
          if j > 0 { assert ancestors[j] == ancestors[1..][j - 1]; }
        }
      } else {
        forall i | 0 <= i < |ancestors| ensures ParentDom(ancestors[i]).None? {
          if i > 0 { assert ancestors[i] == ancestors[1..][i - 1]; }
        }
      }
    }
  }

  /** Placing `dom` under `parent`: appended when the parent is empty;
      otherwise after the previous sibling's document node (the one given,
      else the first connected one in the previous sibling's subtree), and
      appended when there is none. */
  function Mount(doc: Doc, parent: DomId, dom: DomId, prevSibling: Option<VNode>, prevSiblingDom: Option<DomId>): (r: seq<DomOp>)
    ensures |r| == 1
    ensures r[0] == AppendChild(parent, dom) || (r[0].InsertAfter? && r[0].node == dom && parent in doc.nonEmpty)
    ensures r[0].InsertAfter? ==>
              if prevSiblingDom.Some? then r[0].anchor == prevSiblingDom.value
              else prevSibling.Some? && FindMounted(doc, prevSibling.value) == Some(r[0].anchor)
    ensures prevSibling.None? && prevSiblingDom.None? ==> r == [AppendChild(parent, dom)]
  {
    if parent !in doc.nonEmpty then [AppendChild(parent, dom)]
    else
      var anchor := if prevSiblingDom.None? && prevSibling.Some? then FindMounted(doc, prevSibling.value) else prevSiblingDom;
      if anchor.Some? then [InsertAfter(anchor.value, dom)] else [AppendChild(parent, dom)]
  }

  /** `node.prev?.props`. */
  function PrevProps(v: VNode): Option<Props> {
    if v.prev.Some? then Some(v.prev.value.props) else None
  }

  /** `vNode.effectTag = undefined; vNode.prev = { ...vNode, prev: undefined }`. */
  function Committed(v: VNode): (r: VNode)
    ensures r.effectTag == NoTag && r.prev == Some(r.(prev := None))
    ensures r.(prev := v.prev, effectTag := v.effectTag) == v
  {
    var cleared := v.(effectTag := NoTag);
    cleared.(prev := Some(cleared.(prev := None)))
  }

  /** The lifecycle callback queued: `componentDidMount` on first commit,
      else `componentDidUpdate` on an update. */
  function Lifecycle(v: VNode): (r: seq<nat>)
    ensures |r| <= 1
    ensures r != [] ==>
              && v.instance.Some?
              && ((v.prev.None? && v.instance.value.didMount == Some(r[0]))
                  || (v.effectTag == Update && v.instance.value.didUpdate == Some(r[0])))
    ensures v.instance.Some? && v.prev.None? && v.instance.value.didMount.Some? ==> r == [v.instance.value.didMount.value]
  {
    if v.instance.None? then []
    else if v.prev.None? && v.instance.value.didMount.Some? then [v.instance.value.didMount.value]
    else if v.effectTag == Update && v.instance.value.didUpdate.Some? then [v.instance.value.didUpdate.value]
    else []
  }

  /** The common tail of `commitWork`: follow-ups for the first child and,
      when asked, the next sibling; the lifecycle callback; the ref; the
      cleared tag and the snapshot. `childAnchor` is the previous sibling
      handed to the child's follow-up. */
  function Finish(v: VNode, rest: seq<VNode>, ancestors: seq<VNode>, domParent: Option<DomId>,
                  commitSibling: bool, ops: seq<DomOp>, childAnchor: Option<VNode>): (r: Step)
    ensures r.node == Committed(v) && r.calls == [] && r.queued == Lifecycle(v)
    ensures |r.followUps| == (if v.children != [] then 1 else 0) + (if commitSibling && rest != [] then 1 else 0)
    ensures v.children != [] ==>
              r.followUps[0] == CommitTask(v.children[0], v.children[1..], [Committed(v)] + ancestors, OwnDom(v), childAnchor, None, true)
    ensures commitSibling && rest != [] ==>
              r.followUps[|r.followUps| - 1] == CommitTask(rest[0], rest[1..], ancestors, domParent, Some(Committed(v)), OwnDom(v), true)
    ensures |r.ops| >= |ops| && r.ops[..|ops|] == ops
    ensures r.ops[|ops|..] == (if !IsFalsy(Get(v.props, "ref")) && OwnDom(v).Some? then [AssignRef(Get(v.props, "ref"), OwnDom(v).value)] else [])
  {
    var dom := OwnDom(v);
    var node := Committed(v);
    var childTask := if v.children != [] then [CommitTask(v.children[0], v.children[1..], [node] + ancestors, dom, childAnchor, None, true)] else [];
    var siblingTask := if commitSibling && rest != [] then [CommitTask(rest[0], rest[1..], ancestors, domParent, Some(node), dom, true)] else [];
    var refOps := if !IsFalsy(Get(v.props, "ref")) && dom.Some? then [AssignRef(Get(v.props, "ref"), dom.value)] else [];
    assert (ops + refOps)[..|ops|] == ops && (ops + refOps)[|ops|..] == refOps;
    Step(ops + refOps, [], Lifecycle(v), node, childTask + siblingTask)
  }

  /** The node is detached, or newly placed and not a class component
      instance's root: it must be (re)inserted. */
  predicate NeedsMount(doc: Doc, v: VNode) {
    OwnDom(v).Some? && (OwnDom(v).value !in doc.connected || (v.effectTag == Placement && RootDom(v).None?))
  }

  /** The document parent a mount goes under: the one handed in, else the
      nearest ancestor's. */
  function MountParent(t: Task): Option<DomId>
    requires t.CommitTask?
  {
    if t.domParent.Some? then t.domParent else SearchDomParent(t.ancestors)
  }

  /** The node has no parent, or no document parent can be found: the
      source reports the error and commits nothing. */
  predicate Orphan(t: Task)
    requires t.CommitTask?
  {
    t.ancestors == [] || MountParent(t).None?
  }

  /** `commitWork`, with the previous sibling the child's follow-up gets
      chosen by `inheritAnchor`: `true` hands on the node's own previous
      sibling whatever the node, as the source does; `false` hands it on
      only for a node without a document node of its own, whose children
      are placed among the node's siblings. */
  function CommitWorkWith(f: Filters, doc: Doc, t: Task, inheritAnchor: bool): (r: Step)
    requires t.CommitTask?
  {
    var v := t.node;
    var dom := OwnDom(v);
    var childAnchor := if inheritAnchor || dom.None? then t.prevSibling else None;
    if NeedsMount(doc, v) then
      if Orphan(t) then Step([], [], [], v, [])
      else
        var parent := MountParent(t);
        Finish(v, t.rest, t.ancestors, parent, t.commitSibling,
               Mount(doc, parent.value, dom.value, t.prevSibling, t.prevSiblingDom), childAnchor)
    else if v.effectTag == Update && dom.Some? && RootDom(v).None? then
      Finish(v, t.rest, t.ancestors, t.domParent, t.commitSibling,
             UpdateDom(f, dom.value, v.kind.TextNode?, PrevProps(v), v.props), childAnchor)
    else if v.effectTag == Deletion then CommitDeletion(doc, v, t.rest, dom, false)
    else Finish(v, t.rest, t.ancestors, t.domParent, t.commitSibling, [], childAnchor)
  }

  /** `commitWork` as written: the first child's follow-up is handed the
      node's own previous sibling. */
  function CommitWorkAsWritten(f: Filters, doc: Doc, t: Task): (r: Step)
    requires t.CommitTask?
    ensures NeedsMount(doc, t.node) && Orphan(t) ==> r == Step([], [], [], t.node, [])
    ensures t.node.children != [] && !NeedsMount(doc, t.node) && t.node.effectTag != Deletion ==>
              |r.followUps| >= 1 && r.followUps[0].CommitTask? && r.followUps[0].prevSibling == t.prevSibling
  {
    CommitWorkWith(f, doc, t, true)
  }

  /** `commitWork`: mounts a detached or newly placed node under the nearest
      document parent, updates an updated one in place, hands a deleted one
      to `commitDeletion`, and otherwise leaves the document alone; then
      queues the lifecycle callback, assigns the ref, clears the tag and
      snapshots the node. The first child's follow-up gets no previous
      sibling when the node has a document node, since the child goes
      inside it, and the node's own previous sibling otherwise. */
  function CommitWork(f: Filters, doc: Doc, t: Task): (r: Step)
    requires t.CommitTask?
    ensures NeedsMount(doc, t.node) && Orphan(t) ==> r == Step([], [], [], t.node, [])
    ensures NeedsMount(doc, t.node) && !Orphan(t) ==>
              |r.ops| >= 1 && r.ops[0] == Mount(doc, MountParent(t).value, OwnDom(t.node).value, t.prevSibling, t.prevSiblingDom)[0]
    ensures !NeedsMount(doc, t.node) && t.node.effectTag == Update && OwnDom(t.node).Some? && RootDom(t.node).None? ==>
              var u := UpdateDom(f, OwnDom(t.node).value, t.node.kind.TextNode?, PrevProps(t.node), t.node.props);
              |r.ops| >= |u| && r.ops[..|u|] == u && |r.ops| <= |u| + 1
              && forall op :: op in r.ops[|u|..] ==> op.AssignRef?
    ensures !NeedsMount(doc, t.node) && t.node.effectTag == Deletion ==>
              r == CommitDeletion(doc, t.node, t.rest, OwnDom(t.node), false)
    ensures !NeedsMount(doc, t.node) && t.node.effectTag != Deletion
            && !(t.node.effectTag == Update && OwnDom(t.node).Some? && RootDom(t.node).None?) ==>
              |r.ops| <= 1 && forall op :: op in r.ops ==> op.AssignRef?
  {
    CommitWorkWith(f, doc, t, false)
  }

  /** What `Finish` leaves behind. */
  lemma FinishShape(v: VNode, rest: seq<VNode>, ancestors: seq<VNode>, domParent: Option<DomId>,
                    commitSibling: bool, ops: seq<DomOp>, childAnchor: Option<VNode>)
    ensures var r := Finish(v, rest, ancestors, domParent, commitSibling, ops, childAnchor);
            && r.node.effectTag == NoTag && r.node.prev == Some(r.node.(prev := None))
            && r.node.props == v.props && r.node.children == v.children
            && r.queued == Lifecycle(v)
            && |r.followUps| <= 2
            && (forall u :: u in r.followUps ==> u.CommitTask? && u.commitSibling)
            && (v.children != [] ==>
                  && |r.followUps| >= 1 && r.followUps[0].node == v.children[0]
                  && r.followUps[0].ancestors != [] && r.followUps[0].domParent == OwnDom(v)
                  && r.followUps[0].prevSibling == childAnchor && r.followUps[0].prevSiblingDom.None?)
            && (!commitSibling ==> forall u :: u in r.followUps ==> v.children != [] && u.node == v.children[0])
  {
    var r := Finish(v, rest, ancestors, domParent, commitSibling, ops, childAnchor);
    var node := Committed(v);
    assert r.node == node;
    assert node.props == v.props && node.children == v.children by {
      assert node.(prev := v.prev, effectTag := v.effectTag) == v;
    }
    forall u | u in r.followUps ensures u.CommitTask? && u.commitSibling && (!commitSibling ==> v.children != [] && u.node == v.children[0]) {
      var k :| 0 <= k < |r.followUps| && r.followUps[k] == u;
      if v.children != [] && k == 0 {
      } else {
        assert commitSibling && rest != [] && k == |r.followUps| - 1;
      }
    }
  }

  /** Unless it is an orphan or a deletion, a committed node has its tag
      cleared and a snapshot of itself, keeps its props and children, queues
      its lifecycle callback, and hands on at most two follow-ups: the first
      child's, under the node's own document node, and the next sibling's
      only when asked to. A node with a document node hands its child no
      previous sibling; one without hands on its own. */
  lemma CommitWorkFinishes(f: Filters, doc: Doc, t: Task)
    requires t.CommitTask?
    requires !(NeedsMount(doc, t.node) && Orphan(t)) && (NeedsMount(doc, t.node) || t.node.effectTag != Deletion)
    ensures var r := CommitWork(f, doc, t);
            && r.node.effectTag == NoTag && r.node.prev == Some(r.node.(prev := None))
            && r.node.props == t.node.props && r.node.children == t.node.children
            && r.queued == Lifecycle(t.node)
            && |r.followUps| <= 2
            && (forall u :: u in r.followUps ==> u.CommitTask? && u.commitSibling)
            && (t.node.children != [] ==>
                  && |r.followUps| >= 1 && r.followUps[0].node == t.node.children[0]
                  && r.followUps[0].ancestors != [] && r.followUps[0].domParent == OwnDom(t.node)
                  && r.followUps[0].prevSibling == (if OwnDom(t.node).Some? then None else t.prevSibling)
                  && r.followUps[0].prevSiblingDom.None?)
            && (!t.commitSibling ==> forall u :: u in r.followUps ==> t.node.children != [] && u.node == t.node.children[0])
  {
    var v := t.node;
    var r := CommitWork(f, doc, t);
    var a := if OwnDom(v).Some? then None else t.prevSibling;
    if NeedsMount(doc, v) {
      var ops := Mount(doc, MountParent(t).value, OwnDom(v).value, t.prevSibling, t.prevSiblingDom);
      assert r == Finish(v, t.rest, t.ancestors, MountParent(t), t.commitSibling, ops, a);
      FinishShape(v, t.rest, t.ancestors, MountParent(t), t.commitSibling, ops, a);
    } else if v.effectTag == Update && OwnDom(v).Some? && RootDom(v).None? {
      var ops := UpdateDom(f, OwnDom(v).value, v.kind.TextNode?, PrevProps(v), v.props);
      assert r == Finish(v, t.rest, t.ancestors, t.domParent, t.commitSibling, ops, a);
      FinishShape(v, t.rest, t.ancestors, t.domParent, t.commitSibling, ops, a);
    } else {
      assert r == Finish(v, t.rest, t.ancestors, t.domParent, t.commitSibling, [], a);
      FinishShape(v, t.rest, t.ancestors, t.domParent, t.commitSibling, [], a);
    }
  }

  /** Committing a committed node again, once its document node is
      connected, changes nothing: no placement or update, no lifecycle
      callback, the same node; only the ref is assigned again. */
  lemma CommitAgainIsQuiet(f: Filters, doc: Doc, doc2: Doc, t: Task)
    requires t.CommitTask?
    requires !(NeedsMount(doc, t.node) && Orphan(t)) && (NeedsMount(doc, t.node) || t.node.effectTag != Deletion)
    requires OwnDom(t.node).Some? ==> OwnDom(t.node).value in doc2.connected
    ensures var n := CommitWork(f, doc, t).node;
            var again := CommitWork(f, doc2, CommitTask(n, t.rest, t.ancestors, t.domParent, t.prevSibling, t.prevSiblingDom, t.commitSibling));
            && again.node == n && again.queued == []
            && forall op :: op in again.ops ==> op.AssignRef?
  {
    CommitWorkFinishes(f, doc, t);
    var n := CommitWork(f, doc, t).node;
    assert n.prev.Some?;
    assert OwnDom(n) == OwnDom(t.node) by {
      assert n == Committed(t.node);
    }
  }

  // ---------------------------------------------------------------------
  // The first child's anchor

  /** `main` (document node 0) holds `p` (1) and `div` (2); `div` already
      shows a `span` (4) and gets a new first child `b` (3). */
  function SampleDoc(): Doc {
    Doc({0, 1, 2, 4}, {0, 2})
  }

  function SampleDiv(): VNode {
    var b := VNode(Host("b"), [], Some(3), None, Placement, None, [], []);
    var span := VNode(Host("span"), [], Some(4), None, NoTag, None, [], []);
    VNode(Host("div"), [], Some(2), None, Update, None, [], [b, span])
  }

  function SampleTask(): (t: Task)
    ensures t.CommitTask?
  {
    var p := VNode(Host("p"), [], Some(1), None, NoTag, None, [], []);
    var main := VNode(Host("main"), [], Some(0), None, NoTag, None, [], [p, SampleDiv()]);
    CommitTask(SampleDiv(), [], [main], Some(0), Some(p), Some(1), true)
  }

  /** As written, `div`'s child follow-up inherits `div`'s previous sibling
      `p`, and `b` is inserted after `p`: outside `div`, next to it. */
  lemma FirstChildAnchoredOutsideParent(f: Filters)
    ensures var step := CommitWorkAsWritten(f, SampleDoc(), SampleTask());
            && |step.followUps| == 1 && step.followUps[0].CommitTask?
            && CommitWorkAsWritten(f, SampleDoc(), step.followUps[0]).ops == [InsertAfter(1, 3)]
  {
    var step := CommitWorkAsWritten(f, SampleDoc(), SampleTask());
    assert KeyUnion([], []) == [];
    assert UpdateDom(f, 2, false, None, []) == [];
    assert step.followUps[0].prevSibling.Some?;
  }

  /** With no anchor handed to the child, `b` goes into `div`: appended
      after `span`, so not in first-child order either. */
  lemma FirstChildPlacedInParent(f: Filters)
    ensures var step := CommitWork(f, SampleDoc(), SampleTask());
            && |step.followUps| == 1 && step.followUps[0].CommitTask?
            && CommitWork(f, SampleDoc(), step.followUps[0]).ops == [AppendChild(2, 3)]
  {
    var step := CommitWork(f, SampleDoc(), SampleTask());
    assert KeyUnion([], []) == [];
    assert UpdateDom(f, 2, false, None, []) == [];
  }

  /** In general, the first child of a committed node that has a document
      node is never placed next to something else: when it needs mounting it
      is appended to its parent's document node. */
  lemma FirstChildMountsIntoParent(f: Filters, doc: Doc, doc2: Doc, t: Task)
    requires t.CommitTask? && t.node.children != [] && OwnDom(t.node).Some?
    requires !(NeedsMount(doc, t.node) && Orphan(t)) && (NeedsMount(doc, t.node) || t.node.effectTag != Deletion)
    ensures var c := CommitWork(f, doc, t).followUps[0];
            && c.CommitTask?
            && (NeedsMount(doc2, c.node) ==>
                  CommitWork(f, doc2, c).ops[0] == AppendChild(OwnDom(t.node).value, OwnDom(c.node).value))
  {
    CommitWorkFinishes(f, doc, t);
  }

  /** `div` (0) holds `p` (1), a function component `F` without a document
      node, and `q` (5); `F` is updated and gets a new child `c` (3). */
  function DomlessTask(): (t: Task)
    ensures t.CommitTask?
  {
    var p := VNode(Host("p"), [], Some(1), None, NoTag, None, [], []);
    var c := VNode(Host("c"), [], Some(3), None, Placement, None, [], []);
    var fc := VNode(FunctionComp(7), [], None, None, Update, None, [], [c]);
    var q := VNode(Host("q"), [], Some(5), None, NoTag, None, [], []);
    var div := VNode(Host("div"), [], Some(0), None, NoTag, None, [], [p, fc, q]);
    CommitTask(fc, [q], [div], Some(0), Some(p), Some(1), true)
  }

  /** A component without a document node places its children among its
      own siblings: both versions hand `c` the previous sibling `p`, and
      `c` is inserted right after `p`, before `q`. */
  lemma DomlessChildFollowsPrevSibling(f: Filters)
    ensures var step := CommitWork(f, Doc({0, 1, 5}, {0}), DomlessTask());
            && |step.followUps| == 2 && step.followUps[0].CommitTask?
            && CommitWork(f, Doc({0, 1, 5}, {0}), step.followUps[0]).ops == [InsertAfter(1, 3)]
    ensures CommitWorkAsWritten(f, Doc({0, 1, 5}, {0}), DomlessTask()) == CommitWork(f, Doc({0, 1, 5}, {0}), DomlessTask())
  {
    var doc := Doc({0, 1, 5}, {0});
    var t := DomlessTask();
    assert !NeedsMount(doc, t.node) && OwnDom(t.node).None?;
    var step := CommitWork(f, doc, t);
    assert step == Finish(t.node, t.rest, t.ancestors, t.domParent, true, [], t.prevSibling);
    var c := step.followUps[0];
    assert c.prevSibling == t.prevSibling && c.domParent.None?;
    assert NeedsMount(doc, c.node) && SearchDomParent(c.ancestors) == Some(0);
    assert FindMounted(doc, t.prevSibling.value) == Some(1);
    assert Mount(doc, 0, 3, c.prevSibling, None) == [InsertAfter(1, 3)];
  }
}

=== FILE: lib_ssr.dfy ===
/** Element normalisation and the string renderer of the library
    (packages/lib/src/index.ts): `createChildElement`, `createTextElement`,
    `renderToString`, `transformPropNameToHtmlAttr`, `styleObjectToCss` and
    `transformPropValueToHtmlAttrValue`. */
module LibSsr {
  import opened Wrappers
  import opened Values

  /** A JSX value as the renderer meets it. A function element or a
      component is represented by what calling it returns. */
  datatype Elem =
    | Prim(v: Value)                                   // any non-node value
    | Thunk(result: Elem)                              // a function element
    | Arr(items: seq<Elem>)                            // an array
    | Node(elemType: ElemType, props: Props, children: seq<Elem>)

  /** An intrinsic tag (including "TEXT_ELEMENT") or a component, function
      or class, represented by what it renders. */
  datatype ElemType = Tag(name: string) | Comp(rendered: Elem)

  /** `selfClosingTags` and `propFilters.isProperty` of the utilities file,
      which is not part of this model. */
  datatype SsrConfig = SsrConfig(selfClosingTags: seq<string>, isProperty: string -> bool)

  /** Reading `props.children` of a truthy non-node value throws. */
  datatype RenderError = NotANode(v: Value) | PropsOfNullish(v: Value)

  const TextTag: string := "TEXT_ELEMENT"

  // ---------------------------------------------------------------------
  // createChildElement, createTextElement

  /** A child handed to `createElement`: a node, a thunk returning a
      child, or any other value. */
  datatype Child =
    | NodeChild(elemType: ElemType, props: Props, children: seq<Elem>)
    | FnChild(call: Child)
    | ValueChild(v: Value)

  /** `createTextElement(nodeValue)`; the `children: []` prop is the empty
      children sequence. */
  function CreateTextElement(nodeValue: string): (r: Elem)
    ensures r.Node? && r.elemType == Tag(TextTag) && r.children == []
    ensures Get(r.props, "nodeValue") == Str(nodeValue) && DistinctKeys(r.props)
  {
    Node(Tag(TextTag), [("nodeValue", Str(nodeValue))], [])
  }

  /** `createChildElement`: a node is kept, a thunk is called and its
      result normalised, anything else becomes a text node holding
      `String(child)`. */
  function CreateChildElement(child: Child): (r: Elem)
    ensures r.Node?
    ensures child.NodeChild? ==> r == Node(child.elemType, child.props, child.children)
    ensures child.ValueChild? ==> r == CreateTextElement(ToStr(child.v))
  {
    match child
    case NodeChild(t, p, cs) => Node(t, p, cs)
    case FnChild(call) => CreateChildElement(call)
    case ValueChild(v) => CreateTextElement(ToStr(v))
  }

  /** Normalising a child that is already normal changes nothing. */
  lemma CreateChildElementIdempotent(child: Child)
    ensures var r := CreateChildElement(child);
            CreateChildElement(NodeChild(r.elemType, r.props, r.children)) == r
  {
  }

  // ---------------------------------------------------------------------
  // transformPropNameToHtmlAttr

  /** `transformPropNameToHtmlAttr`: `className` and `htmlFor`, in any
      letter case, become `class` and `for`; every other name is kept. */
  function PropNameToHtmlAttr(key: string): (r: string)
    ensures Lower(key) == "classname" ==> r == "class"
    ensures Lower(key) == "htmlfor" ==> r == "for"
    ensures Lower(key) != "classname" && Lower(key) != "htmlfor" ==> r == key
  {
    var k := Lower(key);
    if k == "classname" then "class"
    else if k == "htmlfor" then "for"
    else key
  }

  /** Attribute names are fixed points: mapping twice is mapping once. */
  lemma PropNameToHtmlAttrIdempotent(key: string)
    ensures PropNameToHtmlAttr(PropNameToHtmlAttr(key)) == PropNameToHtmlAttr(key)
  {
    var k := Lower(key);
    if k == "classname" {
      assert Lower("class") == "class";
    } else if k == "htmlfor" {
      assert Lower("for") == "for";
    }
  }

  /** The mapping ignores letter case for the two names it renames. */
  lemma PropNameCaseInsensitive(a: string, b: string)
    requires Lower(a) == Lower(b)
    requires Lower(a) == "classname" || Lower(a) == "htmlfor"
    ensures PropNameToHtmlAttr(a) == PropNameToHtmlAttr(b)
  {
  }

  // ---------------------------------------------------------------------
  // styleObjectToCss

  /** `key.replace(/([A-Z])/g, "-$1")`. */
  function DashUpper(key: string): (r: string)
    ensures |r| >= |key|
  {
    if key == [] then []
    else (if IsUpper(key[0]) then ['-', key[0]] else [key[0]]) + DashUpper(key[1..])
  }

  /** `key.replace(/([A-Z])/g, "-$1").toLowerCase()`. */
  function Kebab(key: string): string {
    Lower(DashUpper(key))
  }

  /** The kebab form character by character: an upper-case letter becomes
      "-" and its lower case, anything else is kept. */
  function KebabChars(key: string): (r: string)
    ensures forall i :: 0 <= i < |r| ==> !IsUpper(r[i])
  {
    if key == [] then []
    else (if IsUpper(key[0]) then ['-', LowerChar(key[0])] else [key[0]]) + KebabChars(key[1..])
  }

  lemma LowerConcat(a: string, b: string)
    ensures Lower(a + b) == Lower(a) + Lower(b)
  {
    assert forall i :: 0 <= i < |a + b| ==> Lower(a + b)[i] == (Lower(a) + Lower(b))[i];
  }

  lemma {:induction false} KebabIsCharwise(key: string)
    ensures Kebab(key) == KebabChars(key)
    decreases |key|
  {
    if key != [] {
      var head := if IsUpper(key[0]) then ['-', key[0]] else [key[0]];
      LowerConcat(head, DashUpper(key[1..]));
      KebabIsCharwise(key[1..]);
      assert Lower(head) == if IsUpper(key[0]) then ['-', LowerChar(key[0])] else [key[0]];
    }
  }

  /** Reads a kebab-case name back: "-" followed by a letter gives its
      upper case. */
  function Camel(s: string): string
    decreases |s|
  {
    if s == [] then []
    else if s[0] == '-' && |s| >= 2 then [UpperChar(s[1])] + Camel(s[2..])
    else [s[0]] + Camel(s[1..])
  }

  /** A style key without dashes is recovered from its kebab form, so two
      such keys never produce the same CSS property name. */
  lemma {:induction false} KebabRoundTrip(key: string)
    requires forall i :: 0 <= i < |key| ==> key[i] != '-'
    ensures Camel(Kebab(key)) == key
    decreases |key|
  {
    KebabIsCharwise(key);
    KebabCharsRoundTrip(key);
  }

  lemma {:induction false} KebabCharsRoundTrip(key: string)
    requires forall i :: 0 <= i < |key| ==> key[i] != '-'
    ensures Camel(KebabChars(key)) == key
    decreases |key|
  {
    if key != [] {
      var rest := KebabChars(key[1..]);
      KebabCharsRoundTrip(key[1..]);
      if IsUpper(key[0]) {
        var s := ['-', LowerChar(key[0])] + rest;
        assert s[0] == '-' && s[1] == LowerChar(key[0]) && s[2..] == rest;
        assert UpperChar(LowerChar(key[0])) == key[0];
      } else {
        var s := [key[0]] + rest;
        assert s[0] == key[0] && s[1..] == rest;
      }
    }
  }

  /** `styleObjectToCss`: `kebab(key):value;` for each own key, in order. */
  function StyleObjectToCss(fields: Props): (r: string)
    ensures fields == [] ==> r == ""
  {
    if fields == [] then ""
    else Kebab(fields[0].0) + ":" + ToStr(fields[0].1) + ";" + StyleObjectToCss(fields[1..])
  }

  /** The CSS text of a style object is the CSS texts of its entries, one
      after another. */
  lemma {:induction false} StyleObjectToCssConcat(a: Props, b: Props)
    ensures StyleObjectToCss(a + b) == StyleObjectToCss(a) + StyleObjectToCss(b)
    decreases |a|
  {
    if a == [] {
      assert a + b == b;
    } else {
      assert (a + b)[0] == a[0] && (a + b)[1..] == a[1..] + b;
      StyleObjectToCssConcat(a[1..], b);
    }
  }

  /** A single entry renders as `kebab(key):value;`. */
  lemma StyleEntry(key: string, value: Value)
    ensures StyleObjectToCss([(key, value)]) == Kebab(key) + ":" + ToStr(value) + ";"
  {
    assert [(key, value)][1..] == [];
  }

  /** `transformPropValueToHtmlAttrValue`: an object `style` becomes CSS
      text, every other value `String(value)`. */
  function PropValueToHtmlAttrValue(key: string, value: Value): (r: string)
    ensures key == "style" && value.Obj? ==> r == StyleObjectToCss(value.fields)
    ensures !(key == "style" && value.Obj?) ==> r == ToStr(value)
  {
    if key == "style" && TypeOf(value) == "object" && !IsFalsy(value) then StyleObjectToCss(value.fields)
    else ToStr(value)
  }

  // ---------------------------------------------------------------------
  // renderToString

  /** `name="value"`. */
  function Attr(key: string, value: Value): string {
    PropNameToHtmlAttr(key) + "=\"" + PropValueToHtmlAttrValue(key, value) + "\""
  }

  /** `.filter(isProperty).map(attr).join(" ")` over the props' keys. */
  function Attrs(c: SsrConfig, props: Props): (r: string)
    ensures (forall i :: 0 <= i < |props| ==> !c.isProperty(props[i].0)) <==> r == ""
  {
    if props == [] then ""
    else
      var rest := Attrs(c, props[1..]);
      assert forall i :: 1 <= i < |props| ==> props[i] == props[1..][i - 1];
      if !c.isProperty(props[0].0) then rest
      else if rest == "" then Attr(props[0].0, props[0].1)
      else Attr(props[0].0, props[0].1) + " " + rest
  }

  /** The props an intrinsic element renders: a `form`'s function `action`
      is dropped. */
  function RenderedProps(tag: string, props: Props): (r: Props)
    ensures tag == "form" && Get(props, "action").Fn? ==> !Has(r, "action")
    ensures !(tag == "form" && Get(props, "action").Fn?) ==> r == props
  {
    if tag == "form" && TypeOf(Get(props, "action")) == "function" then Remove(props, "action") else props
  }

  /** `<tag attrs>` or `<tag attrs />`. */
  function OpenTag(c: SsrConfig, tag: string, props: Props): string {
    var attrs := Attrs(c, RenderedProps(tag, props));
    "<" + tag + (if attrs != "" then " " + attrs else "") + (if tag in c.selfClosingTags then " /" else "") + ">"
  }

  /** `renderToString(element)`. */
  function RenderToString(c: SsrConfig, e: Elem): (r: Result<string, RenderError>)
    ensures e.Prim? && IsFalsy(e.v) ==> r == Ok("")
    ensures e.Prim? && e.v.Str? ==> r == Ok(e.v.s)
    ensures e.Prim? && e.v.Num? && e.v.n != 0 ==> r == Ok(IntToDecimal(e.v.n))
    ensures e.Prim? && r.Err? <==> e.Prim? && !IsFalsy(e.v) && !e.v.Str? && !e.v.Num?
    ensures e.Node? && e.elemType == Tag(TextTag) ==>
              r == Ok(if Get(e.props, "nodeValue") in {Null, Undefined} then "" else ToStr(Get(e.props, "nodeValue")))
    decreases e, 1
  {
    match e
    case Prim(v) =>
      if IsFalsy(v) then Ok("")
      else if TypeOf(v) == "string" then Ok(v.s)
      else if TypeOf(v) == "number" then Ok(IntToDecimal(v.n))
      else Err(NotANode(v))
    case Thunk(result) => RenderToString(c, result)
    case Arr(items) => RenderAll(c, items)
    case Node(Tag(tag), props, children) =>
      if tag == TextTag then
        var nv := Get(props, "nodeValue");
        Ok(if nv == Null || nv == Undefined then "" else ToStr(nv))
      else if tag in c.selfClosingTags then Ok(OpenTag(c, tag, props))
      else
        var inner := RenderAll(c, children);
        if inner.Err? then Err(inner.error)
        else Ok(OpenTag(c, tag, props) + inner.value + "</" + tag + ">")
    case Node(Comp(rendered), _, _) => RenderToString(c, rendered)
  }

  /** `renderToString(el, el.props)` for one array item or child: reading
      `props` of `null` or `undefined` throws before the call. */
  function RenderItem(c: SsrConfig, e: Elem): (r: Result<string, RenderError>)
    ensures e.Prim? && (e.v == Null || e.v == Undefined) ==> r == Err(PropsOfNullish(e.v))
    ensures !(e.Prim? && (e.v == Null || e.v == Undefined)) ==> r == RenderToString(c, e)
    decreases e, 2
  {
    if e.Prim? && (e.v == Null || e.v == Undefined) then Err(PropsOfNullish(e.v)) else RenderToString(c, e)
  }

  /** `items.map((el) => renderToString(el, el.props)).join("")`, failing at
      the first item that throws. */
  function RenderAll(c: SsrConfig, items: seq<Elem>): (r: Result<string, RenderError>)
    ensures items == [] ==> r == Ok("")
    decreases items, 0
  {
    if items == [] then Ok("")
    else
      var head := RenderItem(c, items[0]);
      if head.Err? then Err(head.error)
      else
        var rest := RenderAll(c, items[1..]);
        if rest.Err? then Err(rest.error) else Ok(head.value + rest.value)
  }

  /** Rendering an array is rendering its parts: the texts concatenate and
      the first failure wins. */
  lemma {:induction false} RenderAllConcat(c: SsrConfig, a: seq<Elem>, b: seq<Elem>)
    ensures RenderAll(c, a + b) ==
              if RenderAll(c, a).Err? then RenderAll(c, a)
              else if RenderAll(c, b).Err? then RenderAll(c, b)
              else Ok(RenderAll(c, a).value + RenderAll(c, b).value)
    decreases |a|
  {
    if a == [] {
      assert a + b == b;
      if RenderAll(c, b).Ok? {
        assert "" + RenderAll(c, b).value == RenderAll(c, b).value;
      }
    } else {
      assert (a + b)[0] == a[0] && (a + b)[1..] == a[1..] + b;
      RenderAllConcat(c, a[1..], b);
      var head := RenderItem(c, a[0]);
      var restA := RenderAll(c, a[1..]);
      var rb := RenderAll(c, b);
      if head.Ok? && restA.Ok? && rb.Ok? {
        assert RenderAll(c, a[1..] + b) == Ok(restA.value + rb.value);
        assert head.value + (restA.value + rb.value) == (head.value + restA.value) + rb.value;
      }
    }
  }

  /** An array or child list holding `null` or `undefined` anywhere fails
      to render, whatever the other items. */
  lemma {:induction false} NullishItemFails(c: SsrConfig, items: seq<Elem>, i: nat)
    requires i < |items| && items[i].Prim? && (items[i].v == Null || items[i].v == Undefined)
    ensures RenderAll(c, items).Err?
    ensures (forall j :: 0 <= j < i ==> RenderItem(c, items[j]).Ok?) ==>
              RenderAll(c, items) == Err(PropsOfNullish(items[i].v))
    decreases i
  {
    if i > 0 {
      NullishItemFails(c, items[1..], i - 1);
      if (forall j :: 0 <= j < i ==> RenderItem(c, items[j]).Ok?) {
        assert RenderItem(c, items[0]).Ok?;
        forall j | 0 <= j < i - 1 ensures RenderItem(c, items[1..][j]).Ok? {
          assert items[1..][j] == items[j + 1];
        }
      }
    }
  }

  /** A normalised plain child renders as its `String` text. */
  lemma ValueChildRendersAsText(c: SsrConfig, v: Value)
    ensures RenderToString(c, CreateChildElement(ValueChild(v))) == Ok(ToStr(v))
  {
  }

  /** Distinct non-zero numbers render as distinct texts. */
  lemma NumbersRenderDistinctly(c: SsrConfig, m: int, n: int)
    requires m != 0 && n != 0 && m != n
    ensures RenderToString(c, Prim(Num(m))).Ok? && RenderToString(c, Prim(Num(n))).Ok?
    ensures RenderToString(c, Prim(Num(m))) != RenderToString(c, Prim(Num(n)))
  {
    if IntToDecimal(m) == IntToDecimal(n) {
      DecimalInjective(m, n);
    }
  }

  /** A self-closing tag renders only its open tag, ending in " />": its
      children are never rendered. */
  lemma SelfClosingIgnoresChildren(c: SsrConfig, tag: string, props: Props, a: seq<Elem>, b: seq<Elem>)
    requires tag != TextTag && tag in c.selfClosingTags
    ensures RenderToString(c, Node(Tag(tag), props, a)) == RenderToString(c, Node(Tag(tag), props, b))
    ensures var s := RenderToString(c, Node(Tag(tag), props, a)).value;
            |s| >= 3 && s[..1 + |tag|] == "<" + tag && s[|s| - 3..] == " />"
  {
  }

  /** Any other intrinsic tag renders its open tag, its children's texts
      in order and the closing tag. */
  lemma ElementWrapsChildren(c: SsrConfig, tag: string, props: Props, children: seq<Elem>)
    requires tag != TextTag && tag !in c.selfClosingTags
    requires RenderAll(c, children).Ok?
    ensures RenderToString(c, Node(Tag(tag), props, children))
            == Ok(OpenTag(c, tag, props) + RenderAll(c, children).value + "</" + tag + ">")
    ensures var open := OpenTag(c, tag, props);
            open[..1 + |tag|] == "<" + tag && open[|open| - 1] == '>' 
  {
  }

  /** An intrinsic element's text depends on its props only through its
      open tag. */
  lemma RenderIntrinsic(c: SsrConfig, tag: string, props: Props, children: seq<Elem>)
    requires tag != TextTag
    ensures RenderToString(c, Node(Tag(tag), props, children)) ==
              if tag in c.selfClosingTags then Ok(OpenTag(c, tag, props))
              else if RenderAll(c, children).Err? then RenderAll(c, children)
              else Ok(OpenTag(c, tag, props) + RenderAll(c, children).value + "</" + tag + ">")
  {
  }

  /** A `form` renders the same with or without a function `action`. */
  lemma FormDropsFunctionAction(c: SsrConfig, props: Props, children: seq<Elem>)
    requires Get(props, "action").Fn?
    ensures RenderToString(c, Node(Tag("form"), props, children))
            == RenderToString(c, Node(Tag("form"), Remove(props, "action"), children))
  {
    var without := Remove(props, "action");
    assert Get(without, "action") == Undefined;
    assert RenderedProps("form", props) == without;
    assert RenderedProps("form", without) == without;
    assert OpenTag(c, "form", props) == OpenTag(c, "form", without);
    RenderIntrinsic(c, "form", props, children);
    RenderIntrinsic(c, "form", without, children);
  }
}

=== FILE: ordered_sets.dfy ===
/** Insertion-ordered sets as duplicate-free sequences: the iteration order
    of a JavaScript `Set`, and of the keys of a `Map`. Adding a present
    element keeps its position; deleting removes it. */
module OrderedSets {

  predicate NoDup<T(==,!new)>(s: seq<T>) {
    forall i, j :: 0 <= i < j < |s| ==> s[i] != s[j]
  }

  /** `set.add(x)`. */
  function Insert<T(==,!new)>(s: seq<T>, x: T): (r: seq<T>)
    ensures forall y :: y in r <==> y in s || y == x
    ensures NoDup(s) ==> NoDup(r)
    ensures x in s ==> r == s
    ensures x !in s ==> r == s + [x]
  {
    if x in s then s else s + [x]
  }

  /** `set.delete(x)`. */
  function Without<T(==,!new)>(s: seq<T>, x: T): (r: seq<T>)
    ensures forall y :: y in r <==> y in s && y != x
    ensures NoDup(s) ==> NoDup(r)
    ensures |r| <= |s|
    ensures x !in s ==> r == s
    decreases |s|
  {
    if s == [] then []
    else
      var rest := Without(s[1..], x);
      assert forall y :: y in s <==> y == s[0] || y in s[1..];
      if s[0] == x then rest
      else
        assert NoDup(s) ==> NoDup(s[1..]) && s[0] !in s[1..] by {
          if NoDup(s) {
            forall i, j | 0 <= i < j < |s[1..]| ensures s[1..][i] != s[1..][j] {
              assert s[1..][i] == s[i + 1] && s[1..][j] == s[j + 1];
            }
            forall k | 0 <= k < |s[1..]| ensures s[1..][k] != s[0] {
              assert s[1..][k] == s[k + 1];
            }
          }
        }
        assert NoDup(s) ==> NoDup([s[0]] + rest) by {
          if NoDup(s) {
            var r := [s[0]] + rest;
            forall i, j | 0 <= i < j < |r| ensures r[i] != r[j] {
              if i == 0 {
                assert r[j] == rest[j - 1];
                assert rest[j - 1] in rest;
              } else {
                assert r[i] == rest[i - 1] && r[j] == rest[j - 1];
              }
            }
          }
        }
        [s[0]] + rest
  }

  /** A sequence is duplicate-free exactly when its head is not in its
      tail and its tail is duplicate-free. */
  lemma NoDupCons<T(!new)>(x: T, s: seq<T>)
    ensures NoDup([x] + s) <==> x !in s && NoDup(s)
  {
    var r := [x] + s;
    assert forall k :: 0 <= k < |s| ==> r[k + 1] == s[k];
    if x !in s && NoDup(s) {
      forall i, j | 0 <= i < j < |r| ensures r[i] != r[j] {
        if i == 0 {
          assert r[j] == s[j - 1];
        }
      }
    }
    if NoDup(r) {
      forall k | 0 <= k < |s| ensures s[k] != x {
        assert r[0] != r[k + 1];
      }
      forall i, j | 0 <= i < j < |s| ensures s[i] != s[j] {
        assert r[i + 1] != r[j + 1];
      }
    }
  }

  /** Appending an absent element keeps a sequence duplicate-free. */
  lemma NoDupSnoc<T(!new)>(s: seq<T>, x: T)
    requires NoDup(s) && x !in s
    ensures NoDup(s + [x])
  {
    var r := s + [x];
    forall i, j | 0 <= i < j < |r| ensures r[i] != r[j] {
      if j == |s| {
        assert r[i] == s[i];
      } else {
        assert r[i] == s[i] && r[j] == s[j];
      }
    }
  }

  /** Deleting what was just added restores the set. */
  lemma InsertThenWithout<T(!new)>(s: seq<T>, x: T)
    requires x !in s
    ensures Without(Insert(s, x), x) == s
  {
    WithoutAppend(s, x);
  }

  lemma {:induction false} WithoutAppend<T(!new)>(s: seq<T>, x: T)
    requires x !in s
    ensures Without(s + [x], x) == s
    decreases |s|
  {
    if s != [] {
      assert (s + [x])[0] == s[0] && (s + [x])[1..] == s[1..] + [x];
      WithoutAppend(s[1..], x);
      assert [s[0]] + s[1..] == s;
    }
  }

  /** Adding twice is adding once. */
  lemma InsertIdempotent<T(!new)>(s: seq<T>, x: T)
    ensures Insert(Insert(s, x), x) == Insert(s, x)
  {
  }

  /** Deleting twice is deleting once. */
  lemma WithoutIdempotent<T(!new)>(s: seq<T>, x: T)
    ensures Without(Without(s, x), x) == Without(s, x)
  {
  }
}

=== FILE: signal_derive.dfy ===
/** Derivation of computed signals (`appliedTrackedSignals`,
    `ComputedSignal.start`/`stop`, `computed`): run the getter with tracking
    on, store its result without notifying, then reconcile the reaction's
    subscriptions against the signals the getter actually read. */
module SignalDerive {
  import opened Wrappers
  import opened Values
  import opened OrderedSets
  import opened SignalStore

  // ---------------------------------------------------------------------
  // Reconciling subscriptions

  /** The unsubscribe function of `x` on signal `k`. */
  function UnsubAt(sigs: map<SigId, Sig>, k: SigId, x: Subscriber): map<SigId, Sig> {
    if k in sigs then sigs[k := sigs[k].(subscribers := Without(sigs[k].subscribers, x))] else sigs
  }

  /** `dependencySignal.subscribe(cb)` with `cb` being `x`. */
  function SubAt(sigs: map<SigId, Sig>, k: SigId, x: Subscriber): map<SigId, Sig> {
    if k in sigs then sigs[k := sigs[k].(subscribers := Insert(sigs[k].subscribers, x))] else sigs
  }

  /** The loop over the unsubscribe map: every entry whose signal was not
      read is unsubscribed and deleted; the others stay in order. */
  function DropUntracked(sigs: map<SigId, Sig>, x: Subscriber, deps: seq<SigId>, tracked: seq<SigId>)
    : (r: (map<SigId, Sig>, seq<SigId>))
    ensures r.0.Keys == sigs.Keys
    ensures forall k :: k in r.1 <==> k in deps && k in tracked
    ensures NoDup(deps) ==> NoDup(r.1)
    ensures (forall k :: k in deps ==> k in tracked) ==> r == (sigs, deps)
    ensures tracked == [] ==> r.1 == []
    ensures forall k :: k in sigs ==>
              r.0[k] == if k in deps && k !in tracked then sigs[k].(subscribers := Without(sigs[k].subscribers, x))
                        else sigs[k]
    decreases |deps|
  {
    if deps == [] then (sigs, [])
    else
      var d := deps[0];
      var r := DropUntracked(if d in tracked then sigs else UnsubAt(sigs, d, x), x, deps[1..], tracked);
      assert forall k :: k in deps <==> k == d || k in deps[1..];
      NoDupCons(d, deps[1..]);
      assert deps == [d] + deps[1..];
      if d in tracked then
        NoDupCons(d, r.1);
        (r.0, [d] + r.1)
      else r
  }

  /** The loop over the tracked reads: every signal read that has no entry
      yet is subscribed once and gets an entry at the end. */
  function SubscribeNew(sigs: map<SigId, Sig>, x: Subscriber, deps: seq<SigId>, tracked: seq<SigId>)
    : (r: (map<SigId, Sig>, seq<SigId>))
    ensures r.0.Keys == sigs.Keys
    ensures forall k :: k in r.1 <==> k in deps || k in tracked
    ensures NoDup(deps) ==> NoDup(r.1)
    ensures (forall k :: k in tracked ==> k in deps) ==> r == (sigs, deps)
    ensures forall k :: k in sigs ==>
              r.0[k] == if k in tracked && k !in deps then sigs[k].(subscribers := Insert(sigs[k].subscribers, x))
                        else sigs[k]
    decreases |tracked|
  {
    if tracked == [] then (sigs, deps)
    else
      var t := tracked[0];
      assert forall k :: k in tracked <==> k == t || k in tracked[1..];
      if t in deps then SubscribeNew(sigs, x, deps, tracked[1..])
      else
        assert NoDup(deps) ==> NoDup(deps + [t]) by {
          if NoDup(deps) { NoDupSnoc(deps, t); }
        }
        SubscribeNew(SubAt(sigs, t, x), x, deps + [t], tracked[1..])
  }

  /** `x` is subscribed to exactly the signals listed in `deps`: the
      invariant linking a reaction's unsubscribe map to the subscriber sets. */
  predicate SubscribedExactly(sigs: map<SigId, Sig>, x: Subscriber, deps: seq<SigId>) {
    forall k :: k in sigs ==> (x in sigs[k].subscribers <==> k in deps)
  }

  /** One signal's subscriber set after reconciling reaction `x`, which had
      an entry for it (`wasDep`) and whose getter did or did not read it
      (`isRead`). */
  function Adjusted(s: seq<Subscriber>, x: Subscriber, wasDep: bool, isRead: bool): (r: seq<Subscriber>)
    ensures forall y :: y != x ==> (y in r <==> y in s)
    ensures x in r <==> if wasDep != isRead then isRead else x in s
    ensures NoDup(s) ==> NoDup(r)
    ensures wasDep == isRead ==> r == s
  {
    var s1 := if wasDep && !isRead then Without(s, x) else s;
    if isRead && !wasDep then Insert(s1, x) else s1
  }

  /** The reconciliation both `appliedTrackedSignals` and
      `appliedTrackedEffects` perform after a getter run: the new entries are
      exactly the signals read; `x` leaves the signals no longer read, joins
      the newly read ones once, and nothing else changes. */
  function Reconcile(sigs: map<SigId, Sig>, x: Subscriber, deps: seq<SigId>, tracked: seq<SigId>)
    : (r: (map<SigId, Sig>, seq<SigId>))
    ensures r.0.Keys == sigs.Keys
    ensures forall k :: k in r.1 <==> k in tracked
    ensures NoDup(deps) ==> NoDup(r.1)
    ensures (forall k :: k in deps <==> k in tracked) ==> r == (sigs, deps)
    ensures forall k :: k in sigs ==>
              r.0[k] == sigs[k].(subscribers := Adjusted(sigs[k].subscribers, x, k in deps, k in tracked))
    ensures tracked == [] ==> r.1 == []
  {
    var dropped := DropUntracked(sigs, x, deps, tracked);
    ReconcileSteps(sigs, x, deps, tracked);
    SubscribeNew(dropped.0, x, dropped.1, tracked)
  }

  /** The two loops of the reconciliation, composed signal by signal. */
  lemma ReconcileSteps(sigs: map<SigId, Sig>, x: Subscriber, deps: seq<SigId>, tracked: seq<SigId>)
    ensures var dropped := DropUntracked(sigs, x, deps, tracked);
            var r := SubscribeNew(dropped.0, x, dropped.1, tracked);
            && (forall k :: k in sigs ==>
                  r.0[k] == sigs[k].(subscribers := Adjusted(sigs[k].subscribers, x, k in deps, k in tracked)))
            && ((forall k :: k in deps <==> k in tracked) ==> r == (sigs, deps))
  {
    var (m, kept) := DropUntracked(sigs, x, deps, tracked);
    var r := SubscribeNew(m, x, kept, tracked);
    forall k | k in sigs
      ensures r.0[k] == sigs[k].(subscribers := Adjusted(sigs[k].subscribers, x, k in deps, k in tracked))
    {
      var s0 := sigs[k].subscribers;
      var s1 := if k in deps && k !in tracked then Without(s0, x) else s0;
      assert m[k] == sigs[k].(subscribers := s1);
      var s2 := if k in tracked && k !in deps then Insert(s1, x) else s1;
      assert r.0[k] == m[k].(subscribers := s2);
    }
    if forall k :: k in deps <==> k in tracked {
      assert (m, kept) == (sigs, deps);
    }
  }

  /** Reconciling keeps the invariant: if `x` was subscribed to exactly its
      old entries, it is subscribed to exactly its new ones. */
  lemma ReconcileKeepsSubscribedExactly(sigs: map<SigId, Sig>, x: Subscriber, deps: seq<SigId>, tracked: seq<SigId>)
    requires SubscribedExactly(sigs, x, deps)
    ensures SubscribedExactly(Reconcile(sigs, x, deps, tracked).0, x, Reconcile(sigs, x, deps, tracked).1)
  {
  }

  // ---------------------------------------------------------------------
  // appliedTrackedSignals

  /** `appliedTrackedSignals(c)`: drop `c`'s pending entry, run its getter
      with tracking on, store the result with `sneak`, and — unless a node
      is rendering with side effects off — reconcile its subscriptions with
      what the getter read. Nobody is notified. */
  function DeriveComputed(st: Store, c: SigId): (r: Store)
    requires c in st.sigs && st.sigs[c].getter.Some?
    ensures r.sigs.Keys == st.sigs.Keys
    ensures r.sigs[c].value == Eval(st.sigs[c].getter.value, st.sigs).0
    ensures r.sigs[c].getter == st.sigs[c].getter
    ensures forall q :: q in r.queue <==> q in st.queue && q != Derive(c)
    ensures NoDup(st.queue) ==> NoDup(r.queue)
    ensures r.log == st.log + [GetterRan(Derive(c))]
    ensures r.micro == st.micro && r.watchers == st.watchers && r.ctx == st.ctx && r.nodeSubs == st.nodeSubs
    ensures TracksReads(st.ctx) ==>
              forall k :: k in r.sigs[c].deps <==> k in Eval(st.sigs[c].getter.value, st.sigs).1
    ensures !TracksReads(st.ctx) ==>
              r.sigs == st.sigs[c := st.sigs[c].(value := Eval(st.sigs[c].getter.value, st.sigs).0)]
    ensures NoDup(st.sigs[c].deps) ==> NoDup(r.sigs[c].deps)
    ensures forall k :: k in st.sigs && k != c ==>
              && r.sigs[k].value == st.sigs[k].value
              && r.sigs[k].getter == st.sigs[k].getter
              && r.sigs[k].deps == st.sigs[k].deps
    ensures forall k, y :: k in st.sigs && y != ReactionSub(Derive(c)) ==>
              (y in r.sigs[k].subscribers <==> y in st.sigs[k].subscribers)
  {
    var sig := st.sigs[c];
    var (v, seen) := Eval(sig.getter.value, st.sigs);
    var sigs1 := st.sigs[c := sig.(value := v)];
    var st1 := st.(sigs := sigs1, queue := Without(st.queue, Derive(c)), log := st.log + [GetterRan(Derive(c))]);
    if !TracksReads(st.ctx) then st1
    else
      var (m, deps') := Reconcile(sigs1, ReactionSub(Derive(c)), sig.deps, seen);
      st1.(sigs := m[c := m[c].(deps := deps')])
  }

  /** After a derivation the reaction is subscribed to exactly the signals
      its getter read (the keys of the unsubscribe map), provided it was
      subscribed to exactly its old entries before. */
  lemma DeriveSubscribesExactlyReads(st: Store, c: SigId)
    requires c in st.sigs && st.sigs[c].getter.Some?
    requires SubscribedExactly(st.sigs, ReactionSub(Derive(c)), st.sigs[c].deps)
    ensures SubscribedExactly(DeriveComputed(st, c).sigs, ReactionSub(Derive(c)), DeriveComputed(st, c).sigs[c].deps)
  {
    var sig := st.sigs[c];
    var (v, seen) := Eval(sig.getter.value, st.sigs);
    var sigs1 := st.sigs[c := sig.(value := v)];
    if TracksReads(st.ctx) {
      assert SubscribedExactly(sigs1, ReactionSub(Derive(c)), sig.deps);
      ReconcileKeepsSubscribedExactly(sigs1, ReactionSub(Derive(c)), sig.deps, seen);
    }
  }

  /** A derivation whose getter yields the stored value and reads exactly
      the recorded dependencies only drops the pending entry and logs the
      run. */
  lemma DeriveAtFixedPoint(st: Store, c: SigId)
    requires c in st.sigs && st.sigs[c].getter.Some? && TracksReads(st.ctx)
    requires Eval(st.sigs[c].getter.value, st.sigs).0 == st.sigs[c].value
    requires forall k :: k in st.sigs[c].deps <==> k in Eval(st.sigs[c].getter.value, st.sigs).1
    ensures DeriveComputed(st, c) == st.(queue := Without(st.queue, Derive(c)), log := st.log + [GetterRan(Derive(c))])
  {
    var sig := st.sigs[c];
    var (v, seen) := Eval(sig.getter.value, st.sigs);
    var sigs1 := st.sigs[c := sig.(value := v)];
    assert sigs1 == st.sigs;
    var (m, deps') := Reconcile(sigs1, ReactionSub(Derive(c)), sig.deps, seen);
    assert (m, deps') == (st.sigs, sig.deps);
    assert m[c := m[c].(deps := deps')] == st.sigs;
  }

  /** Deriving again with nothing changed is a no-op apart from running the
      getter once more: same value, same entries in the same order, same
      subscribers. The getter must not read `c` itself. */
  lemma DeriveAgainChangesNothing(st: Store, c: SigId)
    requires c in st.sigs && st.sigs[c].getter.Some?
    requires !ReadsIn(st.sigs[c].getter.value, c) && !PeeksIn(st.sigs[c].getter.value, c)
    requires TracksReads(st.ctx)
    ensures var once := DeriveComputed(st, c);
            DeriveComputed(once, c) == once.(log := once.log + [GetterRan(Derive(c))])
  {
    var once := DeriveComputed(st, c);
    var e := st.sigs[c].getter.value;
    forall s | s in Eval(e, st.sigs).1
      ensures ValueOf(st.sigs, s) == ValueOf(once.sigs, s)
    {
      assert ReadsIn(e, s);
    }
    TrackedReadsDetermine(e, st.sigs, once.sigs);
    DeriveAtFixedPoint(once, c);
    WithoutIdempotent(st.queue, Derive(c));
  }

  // ---------------------------------------------------------------------
  // ComputedSignal and computed()

  /** `new ComputedSignal(getter)` under a fresh id (its value starts as
      `null`), followed by `ComputedSignal.start`, which derives it once. */
  function CreateComputed(st: Store, c: SigId, getter: Expr): (r: Store)
    requires c !in st.sigs
    ensures c in r.sigs && r.sigs.Keys == st.sigs.Keys + {c}
    ensures r.sigs[c].getter == Some(getter)
    ensures r.sigs[c].value == Eval(getter, st.sigs[c := Sig(Null, [], Some(getter), [])]).0
    ensures !ReadsIn(getter, c) ==> forall y :: y !in r.sigs[c].subscribers
    ensures TracksReads(st.ctx) ==>
              forall k :: k in r.sigs[c].deps <==> k in Eval(getter, st.sigs[c := Sig(Null, [], Some(getter), [])]).1
    ensures NoDup(r.sigs[c].deps)
    ensures r.log == st.log + [GetterRan(Derive(c))]
    ensures forall k :: k in st.sigs ==> r.sigs[k].value == st.sigs[k].value
  {
    DeriveComputed(st.(sigs := st.sigs[c := Sig(Null, [], Some(getter), [])]), c)
  }

  /** `ComputedSignal.stop`: drop the pending entry, call every unsubscribe
      function and empty the map. The value is kept. */
  function ComputedStop(st: Store, c: SigId): (r: Store)
    requires c in st.sigs
    ensures r.sigs.Keys == st.sigs.Keys
    ensures r.sigs[c].deps == []
    ensures Derive(c) !in r.queue
    ensures forall q :: q in r.queue <==> q in st.queue && q != Derive(c)
    ensures forall k :: k in st.sigs ==>
              (ReactionSub(Derive(c)) in r.sigs[k].subscribers <==>
                 ReactionSub(Derive(c)) in st.sigs[k].subscribers && k !in st.sigs[c].deps)
    ensures forall k, y :: k in st.sigs && y != ReactionSub(Derive(c)) ==>
              (y in r.sigs[k].subscribers <==> y in st.sigs[k].subscribers)
    ensures forall k :: k in st.sigs ==> r.sigs[k].value == st.sigs[k].value
    ensures r.log == st.log && r.micro == st.micro && r.watchers == st.watchers
  {
    var (m, deps') := Reconcile(st.sigs, ReactionSub(Derive(c)), st.sigs[c].deps, []);
    st.(sigs := m[c := m[c].(deps := deps')], queue := Without(st.queue, Derive(c)))
  }

  /** A stopped computed is subscribed to nothing. */
  lemma ComputedStopUnsubscribesAll(st: Store, c: SigId)
    requires c in st.sigs
    requires SubscribedExactly(st.sigs, ReactionSub(Derive(c)), st.sigs[c].deps)
    ensures forall k :: k in ComputedStop(st, c).sigs ==>
              ReactionSub(Derive(c)) !in ComputedStop(st, c).sigs[k].subscribers
  {
  }

  /** Stopping a computed a second time changes nothing. */
  lemma ComputedStopIdempotent(st: Store, c: SigId)
    requires c in st.sigs
    ensures ComputedStop(ComputedStop(st, c), c) == ComputedStop(st, c)
  {
    var once := ComputedStop(st, c);
    var (m, deps') := Reconcile(once.sigs, ReactionSub(Derive(c)), once.sigs[c].deps, []);
    assert (m, deps') == (once.sigs, once.sigs[c].deps);
    assert m[c := m[c].(deps := deps')] == once.sigs;
    WithoutIdempotent(st.queue, Derive(c));
  }

  /** `computed(getter)` as written. Outside a component a new computed is
      created and started. Inside one, `useHook` hands the callback no
      `isInit`, so the branch that creates the computed never runs: the
      hook keeps its initial `signal: undefined`, and that is what is
      returned, on every render. */
  function UseComputedAsWritten(st: Store, c: SigId, getter: Expr): (r: (Store, Option<SigId>))
    requires st.ctx.node.None? ==> c !in st.sigs
    ensures st.ctx.node.Some? ==> r.0 == st && r.1.None?
    ensures st.ctx.node.None? ==>
              r.1 == Some(c) && c in r.0.sigs && r.0.sigs[c].getter == Some(getter) && r.0.log == st.log + [GetterRan(Derive(c))]
  {
    if st.ctx.node.None? then (CreateComputed(st, c, getter), Some(c)) else (st, None)
  }

  /** `computed(getter)` with `isInit` read as "the hook has no old record",
      which is what the callback evidently expects: inside a component the
      `useComputedSignal` hook creates and starts the computed on the first
      render only, and every render returns the signal kept in the hook. */
  function UseComputed(st: Store, c: SigId, getter: Expr, firstRender: bool): (r: (Store, Option<SigId>))
    requires (st.ctx.node.None? || firstRender) ==> c !in st.sigs
    ensures r.1 == Some(c)
    ensures st.ctx.node.Some? && !firstRender ==> r.0 == st
    ensures st.ctx.node.None? || firstRender ==>
              c in r.0.sigs && r.0.sigs[c].getter == Some(getter) && r.0.log == st.log + [GetterRan(Derive(c))]
  {
    if st.ctx.node.None? || firstRender then (CreateComputed(st, c, getter), Some(c)) else (st, Some(c))
  }

  /** On a component's first render, the written hook yields no signal and
      creates nothing, while the corrected one creates and returns the
      computed. Outside components the two agree. */
  lemma ComputedInComponentIsUndefined(st: Store, c: SigId, getter: Expr)
    requires c !in st.sigs
    ensures st.ctx.node.Some? ==>
              && UseComputedAsWritten(st, c, getter).1.None? && c !in UseComputedAsWritten(st, c, getter).0.sigs
              && UseComputed(st, c, getter, true).1 == Some(c) && c in UseComputed(st, c, getter, true).0.sigs
    ensures st.ctx.node.None? ==> UseComputedAsWritten(st, c, getter) == UseComputed(st, c, getter, true)
  {
  }

  /** The cleanup of the `useComputedSignal` hook: stop the computed and
      clear its own subscribers. */
  function ComputedHookCleanup(st: Store, c: SigId): (r: Store)
    requires c in st.sigs
    ensures r.sigs.Keys == st.sigs.Keys
    ensures r.sigs[c].subscribers == [] && r.sigs[c].deps == []
    ensures Derive(c) !in r.queue
    ensures SubscribedExactly(st.sigs, ReactionSub(Derive(c)), st.sigs[c].deps) ==>
              forall k :: k in r.sigs ==> ReactionSub(Derive(c)) !in r.sigs[k].subscribers
    ensures forall k :: k in st.sigs ==> r.sigs[k].value == st.sigs[k].value
  {
    var s1 := ComputedStop(st, c);
    s1.(sigs := s1.sigs[c := s1.sigs[c].(subscribers := [])])
  }
}

=== FILE: signal_example.dfy ===
/** The dynamic-dependency scenario of the signals demo component: `double`
    reads `count` only while `isTracking` is true, so its subscriptions
    follow the branch the getter takes. */
module SignalExample {
  import opened Wrappers
  import opened Values
  import opened SignalStore
  import opened SignalDerive
  import opened SignalWatch

  const Count: SigId := 0
  const IsTracking: SigId := 1
  const Double: SigId := 2

  /** `isTracking.value ? count.value * 2 : 0` */
  const DoubleGetter: Expr := If(Read(IsTracking), Times(Read(Count), 2), Lit(Num(0)))

  /** `count` and `isTracking` outside any component. */
  function Initial(count: int): (st: Store)
    ensures Count in st.sigs && IsTracking in st.sigs && Double !in st.sigs
  {
    Store(map[Count := Sig(Num(count), [], None, []), IsTracking := Sig(Bool(false), [], None, [])],
          map[], [], [], [], RenderCtx(None, true), map[])
  }

  /** The getter's two branches. */
  lemma EvalDouble(sigs: map<SigId, Sig>)
    ensures ValueOf(sigs, IsTracking) == Bool(false) ==> Eval(DoubleGetter, sigs) == (Num(0), [IsTracking])
    ensures ValueOf(sigs, IsTracking) == Bool(true) && ValueOf(sigs, Count).Num? ==>
              Eval(DoubleGetter, sigs) == (Num(ValueOf(sigs, Count).n * 2), [IsTracking, Count])
    ensures IsTracking in Eval(DoubleGetter, sigs).1
  {
    var c := Eval(Read(IsTracking), sigs);
    assert c == (ValueOf(sigs, IsTracking), [IsTracking]);
    var t := if IsFalsy(c.0) then Eval(Lit(Num(0)), sigs) else Eval(Times(Read(Count), 2), sigs);
    assert Eval(DoubleGetter, sigs) == (t.0, c.1 + t.1);
    assert (c.1 + t.1)[0] == IsTracking;
    if ValueOf(sigs, IsTracking) == Bool(false) {
      assert IsFalsy(c.0);
      assert Eval(Lit(Num(0)), sigs) == (Num(0), []);
      assert [IsTracking] + [] == [IsTracking];
    }
    if ValueOf(sigs, IsTracking) == Bool(true) && ValueOf(sigs, Count).Num? {
      assert !IsFalsy(c.0);
      assert Eval(Read(Count), sigs) == (ValueOf(sigs, Count), [Count]);
      assert [IsTracking] + [Count] == [IsTracking, Count];
      assert Eval(Times(Read(Count), 2), sigs) == (Num(ValueOf(sigs, Count).n * 2), [Count]);
    }
  }

  /** Creating `double` while `isTracking` is false subscribes it to
      `isTracking` only, with value 0. */
  lemma CreatedUntracked(count: int)
    ensures var st := CreateComputed(Initial(count), Double, DoubleGetter);
            && st.sigs[Double].value == Num(0)
            && (forall k :: k in st.sigs[Double].deps <==> k == IsTracking)
            && st.queue == []
            && PeekValue(st, Count) == Num(count)
            && SubscribedExactly(st.sigs, ReactionSub(Derive(Double)), st.sigs[Double].deps)
  {
    var st0 := Initial(count);
    var pre := st0.(sigs := st0.sigs[Double := Sig(Null, [], Some(DoubleGetter), [])]);
    EvalDouble(pre.sigs);
    assert Eval(DoubleGetter, pre.sigs) == (Num(0), [IsTracking]);
    assert SubscribedExactly(pre.sigs, ReactionSub(Derive(Double)), []) by {
      forall k | k in pre.sigs ensures pre.sigs[k].subscribers == [] {
        assert k == Count || k == IsTracking || k == Double;
      }
    }
    DeriveSubscribesExactlyReads(pre, Double);
    var st := DeriveComputed(pre, Double);
    assert st == CreateComputed(st0, Double, DoubleGetter);
    assert TracksReads(pre.ctx);
    assert st.sigs[Count].value == pre.sigs[Count].value;
  }

  /** `count` and `isTracking` are plain signals and `double` is their
      computed, subscribed exactly to its recorded dependencies, which
      include `isTracking`. */
  predicate DoubleReady(st: Store) {
    && Count in st.sigs && IsTracking in st.sigs && Double in st.sigs
    && st.sigs[Count].getter.None? && st.sigs[IsTracking].getter.None?
    && st.sigs[Double].getter == Some(DoubleGetter)
    && TracksReads(st.ctx)
    && IsTracking in st.sigs[Double].deps
    && SubscribedExactly(st.sigs, ReactionSub(Derive(Double)), st.sigs[Double].deps)
  }

  /** Creating `double` while `isTracking` is false leaves it ready. */
  lemma CreatedReady(count: int)
    ensures var st := CreateComputed(Initial(count), Double, DoubleGetter);
            && DoubleReady(st)
            && ValueOf(st.sigs, Count) == Num(count)
            && Derive(Double) !in st.queue
  {
    CreatedUntracked(count);
  }

  /** The flush microtask of `double` re-derives it from the current values
      and keeps its subscriptions exact. */
  lemma FlushDouble(st: Store)
    requires DoubleReady(st) && Derive(Double) in st.queue
    ensures var r := RunMicro(st, Flush(Derive(Double)), AsWritten);
            && DoubleReady(r)
            && r.sigs[Double].value == Eval(DoubleGetter, st.sigs).0
            && (forall k :: k in r.sigs[Double].deps <==> k in Eval(DoubleGetter, st.sigs).1)
            && ValueOf(r.sigs, Count) == ValueOf(st.sigs, Count)
            && ValueOf(r.sigs, IsTracking) == ValueOf(st.sigs, IsTracking)
  {
    var st1 := DeriveComputed(st, Double);
    assert RunMicro(st, Flush(Derive(Double)), AsWritten).sigs == st1.sigs;
    assert RunMicro(st, Flush(Derive(Double)), AsWritten).ctx == st1.ctx;
    DeriveSubscribesExactlyReads(st, Double);
    EvalDouble(st.sigs);
    assert IsTracking in st1.sigs[Double].deps;
  }

  /** Writing `count` or `isTracking` keeps `double` ready and makes it
      pending exactly when it depends on the signal written. */
  lemma WriteKeepsDouble(st: Store, s: SigId, v: Value)
    requires DoubleReady(st) && (s == Count || s == IsTracking)
    ensures var r := Write(st, s, v);
            && DoubleReady(r)
            && ValueOf(r.sigs, s) == v
            && (forall k :: k in st.sigs && k != s ==> r.sigs[k] == st.sigs[k])
            && (Derive(Double) in r.queue <==> Derive(Double) in st.queue || s in st.sigs[Double].deps)
  {
  }

  /** Switching `isTracking` on schedules `double`; flushing it derives
      `count * 2` and subscribes it to `count` as well. */
  lemma TrackingOn(st: Store, count: int)
    requires DoubleReady(st) && ValueOf(st.sigs, Count) == Num(count)
    ensures var st2 := Write(st, IsTracking, Bool(true));
            && Derive(Double) in st2.queue
            && var st3 := RunMicro(st2, Flush(Derive(Double)), AsWritten);
               && DoubleReady(st3)
               && st3.sigs[Double].value == Num(count * 2)
               && (forall k :: k in st3.sigs[Double].deps <==> k == IsTracking || k == Count)
  {
    WriteKeepsDouble(st, IsTracking, Bool(true));
    var st2 := Write(st, IsTracking, Bool(true));
    assert ValueOf(st2.sigs, Count) == Num(count);
    FlushTrackingOn(st2, count);
  }

  /** The flush of `double` once `isTracking` is true. */
  lemma FlushTrackingOn(st: Store, count: int)
    requires DoubleReady(st) && Derive(Double) in st.queue
    requires ValueOf(st.sigs, Count) == Num(count) && ValueOf(st.sigs, IsTracking) == Bool(true)
    ensures var r := RunMicro(st, Flush(Derive(Double)), AsWritten);
            && DoubleReady(r)
            && r.sigs[Double].value == Num(count * 2)
            && (forall k :: k in r.sigs[Double].deps <==> k == IsTracking || k == Count)
  {
    EvalDouble(st.sigs);
    assert Eval(DoubleGetter, st.sigs) == (Num(count * 2), [IsTracking, Count]);
    FlushDouble(st);
  }

  /** After switching `isTracking` on and flushing, `double` listens to
      `count`: a later write to `count` schedules it again. */
  lemma TrackingOnSubscribesCount(st: Store, count: int, later: int)
    requires DoubleReady(st) && ValueOf(st.sigs, Count) == Num(count)
    ensures var st3 := RunMicro(Write(st, IsTracking, Bool(true)), Flush(Derive(Double)), AsWritten);
            && ReactionSub(Derive(Double)) in st3.sigs[Count].subscribers
            && Derive(Double) in Write(st3, Count, Num(later)).queue
  {
    TrackingOn(st, count);
    var st3 := RunMicro(Write(st, IsTracking, Bool(true)), Flush(Derive(Double)), AsWritten);
    assert Count in st3.sigs[Double].deps;
    WriteKeepsDouble(st3, Count, Num(later));
  }

  /** Switching `isTracking` off schedules `double`; flushing it derives 0
      and subscribes it to `isTracking` alone. */
  lemma TrackingOffFlush(st: Store)
    requires DoubleReady(st)
    ensures var st4 := Write(st, IsTracking, Bool(false));
            && Derive(Double) in st4.queue
            && var st5 := RunMicro(st4, Flush(Derive(Double)), AsWritten);
               && DoubleReady(st5)
               && st5.sigs[Double].value == Num(0)
               && (forall k :: k in st5.sigs[Double].deps <==> k == IsTracking)
  {
    WriteKeepsDouble(st, IsTracking, Bool(false));
    var st4 := Write(st, IsTracking, Bool(false));
    assert ValueOf(st4.sigs, IsTracking) == Bool(false);
    EvalDouble(st4.sigs);
    assert Eval(DoubleGetter, st4.sigs) == (Num(0), [IsTracking]);
    FlushDouble(st4);
  }

  /** Switching `isTracking` off and flushing drops the subscription to
      `count`, so a later write to `count` no longer schedules `double`. */
  lemma TrackingOff(st: Store, later: int)
    requires DoubleReady(st)
    ensures var st5 := RunMicro(Write(st, IsTracking, Bool(false)), Flush(Derive(Double)), AsWritten);
            && ReactionSub(Derive(Double)) !in st5.sigs[Count].subscribers
            && (Derive(Double) in Write(st5, Count, Num(later)).queue <==> Derive(Double) in st5.queue)
  {
    TrackingOffFlush(st);
    var st5 := RunMicro(Write(st, IsTracking, Bool(false)), Flush(Derive(Double)), AsWritten);
    assert Count !in st5.sigs[Double].deps;
    WriteKeepsDouble(st5, Count, Num(later));
  }
}

=== FILE: signal_store.dfy ===
/** The signal store: signals with their values and subscriber sets, the
    getter language that computed signals and watchers evaluate, the pending
    reaction queue (`effectQueue`), the microtask queue, and the primitive
    operations on a signal — reading `.value`, writing it, `peek`, `sneak`,
    `subscribe` and `notify`. Side effects that leave the store (calling a
    listener, asking a node to re-render, running a getter or a cleanup) are
    recorded in an event log. */
module SignalStore {
  import opened Wrappers
  import opened Values
  import opened OrderedSets

  type SigId = nat
  type WatchId = nat
  type NodeId = nat

  /** A getter body. `Read` is a `.value` read (tracked while a getter runs);
      `Peek` is `.peek()` (never tracked). `If`, `Times` and `Plus` stand for
      the conditional and arithmetic user code does with what it read. */
  datatype Expr =
    | Lit(v: Value)
    | Read(s: SigId)
    | Peek(s: SigId)
    | If(cond: Expr, yes: Expr, no: Expr)
    | Times(e: Expr, k: int)
    | Plus(a: Expr, b: Expr)

  /** What a pending entry of `effectQueue` re-runs: the derivation of a
      computed signal, or a watcher's effect. */
  datatype Reaction = Derive(c: SigId) | Watch(w: WatchId)

  /** A member of a signal's subscriber set: a component node, a listener
      function passed to `subscribe`, or the scheduling callback a derivation
      or watcher installs on each signal it depends on. */
  datatype Subscriber = NodeSub(node: NodeId) | ListenerSub(fid: nat) | ReactionSub(r: Reaction)

  /** A signal. A computed signal has a getter and the ordered keys of its
      unsubscribe map (the signals it currently depends on). */
  datatype Sig = Sig(value: Value, subscribers: seq<Subscriber>, getter: Option<Expr>, deps: seq<SigId>)

  /** A `WatchEffect`: its getter, the signals it depends on, the cleanup its
      getter returned, and whether it is started. */
  datatype Watcher = Watcher(getter: Expr, deps: seq<SigId>, cleanup: Option<nat>, running: bool)

  /** A queued microtask: flush one pending reaction, or a watcher's first run. */
  datatype Micro = Flush(r: Reaction) | FirstRun(w: WatchId)

  datatype Event =
    | ListenerCalled(fid: nat, value: Value)
    | UpdateRequested(node: NodeId)
    | GetterRan(r: Reaction)
    | CleanupCalled(fid: nat)

  /** The node being rendered (`node.current`) and whether side effects are
      enabled for it. */
  datatype RenderCtx = RenderCtx(node: Option<NodeId>, sideEffects: bool)

  /** The global state. `nodeSubs` holds each node's `subs` list. */
  datatype Store = Store(
    sigs: map<SigId, Sig>,
    watchers: map<WatchId, Watcher>,
    queue: seq<Reaction>,
    micro: seq<Micro>,
    log: seq<Event>,
    ctx: RenderCtx,
    nodeSubs: map<NodeId, seq<SigId>>)

  /** Reads are recorded while a getter runs, unless a node is rendering
      with side effects disabled (the `entangle` guard). */
  predicate TracksReads(ctx: RenderCtx) {
    ctx.node.None? || ctx.sideEffects
  }

  // ---------------------------------------------------------------------
  // Getters

  function ValueOf(sigs: map<SigId, Sig>, s: SigId): Value {
    if s in sigs then sigs[s].value else Undefined
  }

  /** The getter contains a `.value` read of `s`. */
  predicate ReadsIn(e: Expr, s: SigId) {
    match e
    case Lit(_) => false
    case Read(t) => t == s
    case Peek(_) => false
    case If(c, y, n) => ReadsIn(c, s) || ReadsIn(y, s) || ReadsIn(n, s)
    case Times(a, _) => ReadsIn(a, s)
    case Plus(a, b) => ReadsIn(a, s) || ReadsIn(b, s)
  }

  /** The getter contains a `.peek()` of `s`. */
  predicate PeeksIn(e: Expr, s: SigId) {
    match e
    case Lit(_) => false
    case Read(_) => false
    case Peek(t) => t == s
    case If(c, y, n) => PeeksIn(c, s) || PeeksIn(y, s) || PeeksIn(n, s)
    case Times(a, _) => PeeksIn(a, s)
    case Plus(a, b) => PeeksIn(a, s) || PeeksIn(b, s)
  }

  /** Runs a getter against the current signal values: its result and the
      signals whose `.value` it read, in the order read (the
      `trackedSignals` list). Only the branch taken is evaluated. */
  function Eval(e: Expr, sigs: map<SigId, Sig>): (r: (Value, seq<SigId>))
    ensures forall s :: s in r.1 ==> ReadsIn(e, s)
    decreases e
  {
    match e
    case Lit(v) => (v, [])
    case Read(s) => (ValueOf(sigs, s), [s])
    case Peek(s) => (ValueOf(sigs, s), [])
    case If(c, y, n) =>
      var (cv, ct) := Eval(c, sigs);
      var (v, t) := if IsFalsy(cv) then Eval(n, sigs) else Eval(y, sigs);
      (v, ct + t)
    case Times(a, k) =>
      var (v, t) := Eval(a, sigs);
      (if v.Num? then Num(v.n * k) else Undefined, t)
    case Plus(a, b) =>
      var (x, ta) := Eval(a, sigs);
      var (y, tb) := Eval(b, sigs);
      (if x.Num? && y.Num? then Num(x.n + y.n)
       else if x.Str? && y.Str? then Str(x.s + y.s)
       else Undefined, ta + tb)
  }

  /** Dependency tracking is sound: a getter's result (and what it reads)
      depends only on the signals it read and the signals it peeked. So a
      reaction subscribed to exactly its tracked reads is never stale after
      a write it did not hear about. */
  lemma {:induction false} TrackedReadsDetermine(e: Expr, m1: map<SigId, Sig>, m2: map<SigId, Sig>)
    requires forall s :: s in Eval(e, m1).1 ==> ValueOf(m1, s) == ValueOf(m2, s)
    requires forall s :: PeeksIn(e, s) ==> ValueOf(m1, s) == ValueOf(m2, s)
    ensures Eval(e, m2) == Eval(e, m1)
    decreases e
  {
    match e
    case Lit(_) =>
    case Read(s) =>
      assert s in Eval(e, m1).1;
    case Peek(s) =>
      assert PeeksIn(e, s);
    case If(c, y, n) =>
      var (cv, ct) := Eval(c, m1);
      TrackedReadsDetermine(c, m1, m2);
      if IsFalsy(cv) {
        TrackedReadsDetermine(n, m1, m2);
      } else {
        TrackedReadsDetermine(y, m1, m2);
      }
    case Times(a, _) =>
      TrackedReadsDetermine(a, m1, m2);
    case Plus(a, b) =>
      TrackedReadsDetermine(a, m1, m2);
      TrackedReadsDetermine(b, m1, m2);
  }

  // ---------------------------------------------------------------------
  // value, peek, sneak

  /** The store with one signal's value replaced and nothing else touched. */
  function WithValue(st: Store, s: SigId, v: Value): Store
    requires s in st.sigs
  {
    st.(sigs := st.sigs[s := st.sigs[s].(value := v)])
  }

  /** `sig.peek()`: the value, with no tracking and no subscription. */
  function PeekValue(st: Store, s: SigId): (v: Value)
    requires s in st.sigs
  {
    st.sigs[s].value
  }

  /** `sig.sneak(v)`: replaces the value without notifying anyone. */
  function Sneak(st: Store, s: SigId, v: Value): (r: Store)
    requires s in st.sigs
    ensures r.sigs.Keys == st.sigs.Keys
    ensures PeekValue(r, s) == v
    ensures r.sigs[s].subscribers == st.sigs[s].subscribers
    ensures forall k :: k in st.sigs && k != s ==> r.sigs[k] == st.sigs[k]
    ensures r.log == st.log && r.queue == st.queue && r.micro == st.micro
  {
    WithValue(st, s, v)
  }

  /** The `.value` getter outside a getter run (`entangle` with tracking
      off): while a node renders with side effects on, the node joins the
      signal's subscribers and the signal joins the node's `subs` list, each
      at most once. */
  function ReadValue(st: Store, s: SigId): (r: (Store, Value))
    requires s in st.sigs
    ensures r.1 == PeekValue(st, s)
    ensures !(st.ctx.node.Some? && st.ctx.sideEffects) ==> r.0 == st
    ensures st.ctx.node.Some? && st.ctx.sideEffects ==>
              var n := st.ctx.node.value;
              && r.0.sigs.Keys == st.sigs.Keys
              && (forall x :: x in r.0.sigs[s].subscribers <==> x in st.sigs[s].subscribers || x == NodeSub(n))
              && r.0.sigs[s].value == st.sigs[s].value
              && (forall k :: k in st.sigs && k != s ==> r.0.sigs[k] == st.sigs[k])
              && n in r.0.nodeSubs
              && (forall t :: t in r.0.nodeSubs[n] <==> t == s || (n in st.nodeSubs && t in st.nodeSubs[n]))
              && (forall m :: m in st.nodeSubs && m != n ==> m in r.0.nodeSubs && r.0.nodeSubs[m] == st.nodeSubs[m])
    ensures r.0.log == st.log && r.0.queue == st.queue && r.0.micro == st.micro && r.0.watchers == st.watchers
    ensures NoDup(st.sigs[s].subscribers) ==> NoDup(r.0.sigs[s].subscribers)
  {
    if st.ctx.node.Some? && st.ctx.sideEffects then
      var n := st.ctx.node.value;
      var sig := st.sigs[s];
      var subs := if n in st.nodeSubs then st.nodeSubs[n] else [];
      (st.(sigs := st.sigs[s := sig.(subscribers := Insert(sig.subscribers, NodeSub(n)))],
           nodeSubs := st.nodeSubs[n := Insert(subs, s)]),
       sig.value)
    else (st, st.sigs[s].value)
  }

  /** Reading a signal again during the same render adds nothing: the node
      is subscribed at most once. */
  lemma ReadTwiceSubscribesOnce(st: Store, s: SigId)
    requires s in st.sigs
    ensures ReadValue(ReadValue(st, s).0, s) == ReadValue(st, s)
  {
    if st.ctx.node.Some? && st.ctx.sideEffects {
      var n := st.ctx.node.value;
      var once := ReadValue(st, s).0;
      InsertIdempotent(st.sigs[s].subscribers, NodeSub(n));
      InsertIdempotent(if n in st.nodeSubs then st.nodeSubs[n] else [], s);
      assert once.sigs[s := once.sigs[s]] == once.sigs;
      assert once.nodeSubs[n := once.nodeSubs[n]] == once.nodeSubs;
    }
  }

  // ---------------------------------------------------------------------
  // subscribe

  /** `sig.subscribe(f)`: adds the listener (a set: adding it twice keeps one). */
  function Subscribe(st: Store, s: SigId, f: nat): (r: Store)
    requires s in st.sigs
    ensures r.sigs.Keys == st.sigs.Keys
    ensures forall x :: x in r.sigs[s].subscribers <==> x in st.sigs[s].subscribers || x == ListenerSub(f)
    ensures r.sigs[s].value == st.sigs[s].value
    ensures forall k :: k in st.sigs && k != s ==> r.sigs[k] == st.sigs[k]
    ensures r.log == st.log && r.queue == st.queue && r.micro == st.micro
  {
    st.(sigs := st.sigs[s := st.sigs[s].(subscribers := Insert(st.sigs[s].subscribers, ListenerSub(f)))])
  }

  /** The function `subscribe` returns (and `sig.unsubscribe(f)`): deletes
      the subscriber. */
  function Unsubscribe(st: Store, s: SigId, x: Subscriber): (r: Store)
    requires s in st.sigs
    ensures r.sigs.Keys == st.sigs.Keys
    ensures forall y :: y in r.sigs[s].subscribers <==> y in st.sigs[s].subscribers && y != x
    ensures r.sigs[s].value == st.sigs[s].value
    ensures forall k :: k in st.sigs && k != s ==> r.sigs[k] == st.sigs[k]
    ensures r.log == st.log && r.queue == st.queue && r.micro == st.micro
  {
    st.(sigs := st.sigs[s := st.sigs[s].(subscribers := Without(st.sigs[s].subscribers, x))])
  }

  /** Calling the returned unsubscribe function undoes a fresh subscription. */
  lemma SubscribeThenUnsubscribe(st: Store, s: SigId, f: nat)
    requires s in st.sigs && ListenerSub(f) !in st.sigs[s].subscribers
    ensures Unsubscribe(Subscribe(st, s, f), s, ListenerSub(f)) == st
  {
    InsertThenWithout(st.sigs[s].subscribers, ListenerSub(f));
    var r := Unsubscribe(Subscribe(st, s, f), s, ListenerSub(f));
    assert r.sigs[s] == st.sigs[s];
    assert r.sigs == st.sigs;
  }

  // ---------------------------------------------------------------------
  // Scheduling and notify

  /** The scheduling callback a reaction installs on its dependencies:
      queue a flush microtask only if the reaction is not already pending,
      and make the reaction pending. Re-setting an existing key of the queue
      keeps its position. */
  function Schedule(st: Store, r: Reaction): (s': Store)
    ensures r in s'.queue
    ensures forall q :: q in s'.queue <==> q in st.queue || q == r
    ensures NoDup(st.queue) ==> NoDup(s'.queue)
    ensures r in st.queue ==> s' == st
    ensures r !in st.queue ==> s'.micro == st.micro + [Flush(r)]
    ensures s'.sigs == st.sigs && s'.watchers == st.watchers && s'.log == st.log
    ensures s'.ctx == st.ctx && s'.nodeSubs == st.nodeSubs
  {
    if r in st.queue then st
    else st.(queue := st.queue + [r], micro := st.micro + [Flush(r)])
  }

  /** However many dependencies fire before the flush, a reaction is queued
      once and gets one flush microtask. */
  lemma ScheduleCoalesces(st: Store, r: Reaction)
    ensures Schedule(Schedule(st, r), r) == Schedule(st, r)
    ensures |Schedule(Schedule(st, r), r).micro| <= |st.micro| + 1
  {
  }

  /** What notifying a subscriber may add to the log: a listener called with
      the value, or a render request for a node. */
  predicate NotifiedBy(e: Event, subs: seq<Subscriber>, v: Value, filter: Subscriber -> bool) {
    || (e.ListenerCalled? && e.value == v && ListenerSub(e.fid) in subs && filter(ListenerSub(e.fid)))
    || (e.UpdateRequested? && NodeSub(e.node) in subs && filter(NodeSub(e.node)))
  }

  /** The event of notifying one subscriber the filter admits: a listener
      is called with the value, a node gets `requestUpdate`. A reaction's
      callback only schedules, which leaves no event. */
  function EventFor(x: Subscriber, v: Value, filter: Subscriber -> bool): (es: seq<Event>)
    ensures |es| <= 1
    ensures forall e :: e in es ==> NotifiedBy(e, [x], v, filter)
  {
    if !filter(x) then []
    else match x
      case ListenerSub(f) => [ListenerCalled(f, v)]
      case NodeSub(n) => [UpdateRequested(n)]
      case ReactionSub(_) => []
  }

  /** The events of notifying `subs` in order. */
  function NotifyEvents(subs: seq<Subscriber>, v: Value, filter: Subscriber -> bool): seq<Event>
    decreases |subs|
  {
    if subs == [] then [] else EventFor(subs[0], v, filter) + NotifyEvents(subs[1..], v, filter)
  }

  /** Every admitted listener and node is notified, and nothing else is. */
  lemma {:induction false} NotifyEventsExact(subs: seq<Subscriber>, v: Value, filter: Subscriber -> bool)
    ensures forall f :: ListenerSub(f) in subs && filter(ListenerSub(f)) ==> ListenerCalled(f, v) in NotifyEvents(subs, v, filter)
    ensures forall n :: NodeSub(n) in subs && filter(NodeSub(n)) ==> UpdateRequested(n) in NotifyEvents(subs, v, filter)
    ensures forall e :: e in NotifyEvents(subs, v, filter) ==> NotifiedBy(e, subs, v, filter)
    decreases |subs|
  {
    if subs != [] {
      NotifyEventsExact(subs[1..], v, filter);
      assert forall y :: y in subs <==> y == subs[0] || y in subs[1..];
    }
  }

  /** `notify`'s loop over the subscriber set, in insertion order. */
  function NotifyEach(st: Store, subs: seq<Subscriber>, v: Value, filter: Subscriber -> bool): (r: Store)
    ensures r.sigs == st.sigs && r.watchers == st.watchers && r.ctx == st.ctx && r.nodeSubs == st.nodeSubs
    ensures r.log == st.log + NotifyEvents(subs, v, filter)
    decreases |subs|
  {
    if subs == [] then st
    else
      var x := subs[0];
      var st1 := st.(log := st.log + EventFor(x, v, filter));
      var st2 := if filter(x) && x.ReactionSub? then Schedule(st1, x.r) else st1;
      assert st2.log == st.log + EventFor(x, v, filter);
      assert NotifyEvents(subs, v, filter) == EventFor(x, v, filter) + NotifyEvents(subs[1..], v, filter);
      NotifyEach(st2, subs[1..], v, filter)
  }

  /** Notifying makes pending exactly the reactions the filter admits among
      the subscribers (those already pending stay where they are). */
  lemma {:induction false} NotifyEachQueue(st: Store, subs: seq<Subscriber>, v: Value, filter: Subscriber -> bool)
    ensures forall q :: q in NotifyEach(st, subs, v, filter).queue <==>
              q in st.queue || (ReactionSub(q) in subs && filter(ReactionSub(q)))
    ensures NoDup(st.queue) ==> NoDup(NotifyEach(st, subs, v, filter).queue)
    decreases |subs|
  {
    if subs != [] {
      var x := subs[0];
      var st1 := st.(log := st.log + EventFor(x, v, filter));
      var st2 := if filter(x) && x.ReactionSub? then Schedule(st1, x.r) else st1;
      assert NotifyEach(st, subs, v, filter) == NotifyEach(st2, subs[1..], v, filter);
      NotifyEachQueue(st2, subs[1..], v, filter);
      assert forall y :: y in subs <==> y == x || y in subs[1..];
    }
  }

  /** Notifying only appends flush microtasks; those already queued keep
      their order. */
  lemma {:induction false} NotifyEachAppendsMicro(st: Store, subs: seq<Subscriber>, v: Value, filter: Subscriber -> bool)
    ensures |st.micro| <= |NotifyEach(st, subs, v, filter).micro|
    ensures forall i :: 0 <= i < |st.micro| ==> NotifyEach(st, subs, v, filter).micro[i] == st.micro[i]
    decreases |subs|
  {
    if subs != [] {
      var x := subs[0];
      var st1 := st.(log := st.log + EventFor(x, v, filter));
      var st2 := if filter(x) && x.ReactionSub? then Schedule(st1, x.r) else st1;
      assert NotifyEach(st, subs, v, filter) == NotifyEach(st2, subs[1..], v, filter);
      assert st1.micro == st.micro;
      assert st2.micro == st.micro || st2.micro == st.micro + [Flush(x.r)];
      NotifyEachAppendsMicro(st2, subs[1..], v, filter);
    }
  }

  /** `sig.notify(options)`: every subscriber the filter admits hears of the
      current value (with no filter, every subscriber), nothing else is
      called, and the admitted reactions become pending. */
  function Notify(st: Store, s: SigId, filter: Subscriber -> bool): (r: Store)
    requires s in st.sigs
    ensures r.sigs == st.sigs && r.watchers == st.watchers && r.ctx == st.ctx
    ensures |r.log| >= |st.log| && r.log[..|st.log|] == st.log
    ensures forall f :: ListenerSub(f) in st.sigs[s].subscribers && filter(ListenerSub(f)) ==>
              ListenerCalled(f, st.sigs[s].value) in r.log[|st.log|..]
    ensures forall n :: NodeSub(n) in st.sigs[s].subscribers && filter(NodeSub(n)) ==>
              UpdateRequested(n) in r.log[|st.log|..]
    ensures forall e :: e in r.log[|st.log|..] ==> NotifiedBy(e, st.sigs[s].subscribers, st.sigs[s].value, filter)
    ensures forall q :: q in r.queue <==> q in st.queue || (ReactionSub(q) in st.sigs[s].subscribers && filter(ReactionSub(q)))
    ensures NoDup(st.queue) ==> NoDup(r.queue)
  {
    var subs := st.sigs[s].subscribers;
    NotifyEventsExact(subs, st.sigs[s].value, filter);
    NotifyEachQueue(st, subs, st.sigs[s].value, filter);
    var r := NotifyEach(st, subs, st.sigs[s].value, filter);
    assert r.log[|st.log|..] == NotifyEvents(subs, st.sigs[s].value, filter);
    r
  }

  function Everyone(x: Subscriber): bool {
    true
  }

  /** The `.value` setter. A plain signal stores the value and notifies every
      subscriber; assigning to a computed signal does nothing. */
  function Write(st: Store, s: SigId, v: Value): (r: Store)
    requires s in st.sigs
    ensures st.sigs[s].getter.Some? ==> r == st
    ensures st.sigs[s].getter.None? ==>
              && s in r.sigs && PeekValue(r, s) == v
              && r.sigs.Keys == st.sigs.Keys
              && (forall k :: k in st.sigs && k != s ==> r.sigs[k] == st.sigs[k])
              && |r.log| >= |st.log|
              && (forall f :: ListenerSub(f) in st.sigs[s].subscribers ==> ListenerCalled(f, v) in r.log[|st.log|..])
              && (forall n :: NodeSub(n) in st.sigs[s].subscribers ==> UpdateRequested(n) in r.log[|st.log|..])
              && (forall e :: e in r.log[|st.log|..] ==> NotifiedBy(e, st.sigs[s].subscribers, v, Everyone))
              && (forall q :: q in r.queue <==> q in st.queue || ReactionSub(q) in st.sigs[s].subscribers)
    ensures NoDup(st.queue) ==> NoDup(r.queue)
  {
    if st.sigs[s].getter.Some? then st
    else Notify(WithValue(st, s, v), s, Everyone)
  }

  /** A write is observed by `peek` and changes no other signal's value. */
  lemma WriteThenPeek(st: Store, s: SigId, t: SigId, v: Value)
    requires s in st.sigs && t in st.sigs && st.sigs[s].getter.None?
    ensures PeekValue(Write(st, s, v), t) == if t == s then v else PeekValue(st, t)
  {
  }

  // ---------------------------------------------------------------------
  // unwrap

  /** A value that may be a signal. */
  datatype MaybeSignal = Plain(v: Value) | SignalRef(s: SigId)

  /** `unwrap(x)`: a signal's current value (peeked, so nothing subscribes),
      or the value itself. */
  function Unwrap(st: Store, x: MaybeSignal): (v: Value)
    requires x.SignalRef? ==> x.s in st.sigs
    ensures x.Plain? ==> v == x.v
    ensures x.SignalRef? ==> v == PeekValue(st, x.s)
  {
    match x
    case Plain(v) => v
    case SignalRef(s) => st.sigs[s].value
  }
}

=== FILE: signal_watch.dfy ===
/** Watchers and the scheduler: `appliedTrackedEffects`, `WatchEffect.start`
    and `stop`, the closures kept in `effectQueue`, the microtask queue and
    `tick`. */
module SignalWatch {
  import opened Wrappers
  import opened Values
  import opened OrderedSets
  import opened SignalStore
  import opened SignalDerive

  // ---------------------------------------------------------------------
  // The cleanup cell of a watcher

  /** The cleanup kept after a getter run, as written: a returned function
      replaces the cell's content, and a run that returns nothing leaves the
      previous (already called) cleanup in place. */
  function KeptCleanupAsWritten(cell: Option<nat>, result: Value): (r: Option<nat>)
    ensures result.Fn? ==> r == Some(result.fid)
  {
    if result.Fn? then Some(result.fid) else cell
  }

  /** The cleanup kept after a getter run, as evidently intended: exactly
      the one this run returned, if any. */
  function ReturnedCleanup(result: Value): (r: Option<nat>)
    ensures r.Some? <==> result.Fn?
    ensures r.Some? ==> r.value == result.fid
  {
    if result.Fn? then Some(result.fid) else None
  }

  /** The cleanups called by successive re-runs of a watcher whose getter
      returns `results` in turn, as written: each re-run first calls the
      cell's content, then runs the getter and updates the cell. */
  function RerunCallsAsWritten(cell: Option<nat>, results: seq<Value>): (calls: seq<nat>)
    decreases |results|
  {
    if results == [] then []
    else
      (if cell.Some? then [cell.value] else [])
      + RerunCallsAsWritten(KeptCleanupAsWritten(cell, results[0]), results[1..])
  }

  /** The same with the corrected cell. */
  function RerunCalls(cell: Option<nat>, results: seq<Value>): (calls: seq<nat>)
    decreases |results|
  {
    if results == [] then []
    else (if cell.Some? then [cell.value] else []) + RerunCalls(ReturnedCleanup(results[0]), results[1..])
  }

  /** The cleanups the getter runs returned, in order. */
  function Returned(results: seq<Value>): seq<nat>
    decreases |results|
  {
    if results == [] then []
    else (if results[0].Fn? then [results[0].fid] else []) + Returned(results[1..])
  }

  /** As written, a getter that returns its cleanup once and then nothing
      has that cleanup called on every later re-run. */
  lemma StaleCleanupCalledAgain()
    ensures RerunCallsAsWritten(None, [Fn(7), Undefined, Undefined]) == [7, 7]
    ensures RerunCalls(None, [Fn(7), Undefined, Undefined]) == [7]
  {
    assert [Fn(7), Undefined, Undefined][1..] == [Undefined, Undefined];
    assert [Undefined, Undefined][1..] == [Undefined];
    assert [Undefined][1..] == [];
  }

  /** With the corrected cell, re-running calls each returned cleanup
      exactly once, in order, before the next run: the calls are exactly the
      cleanups returned by every run but the last. */
  lemma {:induction false} EachCleanupCalledOnce(first: Value, results: seq<Value>)
    ensures RerunCalls(ReturnedCleanup(first), results) == Returned(([first] + results)[..|results|])
    decreases |results|
  {
    if results != [] {
      EachCleanupCalledOnce(results[0], results[1..]);
      var all := [first] + results;
      assert all[..|results|] == [first] + ([results[0]] + results[1..])[..|results| - 1];
      assert results == [results[0]] + results[1..];
    }
  }

  /** Which behaviour of the cleanup cell the store follows. `AsWritten` is
      the source's: a run that returns nothing leaves the previous cleanup
      in the cell, and calling a cleanup leaves it there too. `Intended`
      holds exactly the cleanup the last run returned, and empties the cell
      once that cleanup is called. */
  datatype CellRule = AsWritten | Intended

  /** The cell after a getter run under `rule`. */
  function KeptCleanup(rule: CellRule, cell: Option<nat>, result: Value): Option<nat>
  {
    match rule
    case AsWritten => KeptCleanupAsWritten(cell, result)
    case Intended => ReturnedCleanup(result)
  }

  /** The cell after its cleanup was called under `rule`. */
  function CalledCell(rule: CellRule, cell: Option<nat>): Option<nat>
  {
    match rule
    case AsWritten => cell
    case Intended => None
  }

  // ---------------------------------------------------------------------
  // appliedTrackedEffects

  /** A watcher is subscribed to exactly the signals in its entries. */
  predicate WatchConsistent(st: Store, w: WatchId)
    requires w in st.watchers
  {
    SubscribedExactly(st.sigs, ReactionSub(Watch(w)), st.watchers[w].deps)
  }

  /** `appliedTrackedEffects` for watcher `w`: drop its pending entry, run
      its getter with tracking on, update the cleanup cell, and — unless a
      node is rendering with side effects off — reconcile its subscriptions
      with what the getter read. */
  function RunEffect(st: Store, w: WatchId, rule: CellRule): (r: Store)
    requires w in st.watchers
    ensures w in r.watchers && r.watchers.Keys == st.watchers.Keys
    ensures Eval(st.watchers[w].getter, st.sigs).0.Fn? ==>
              r.watchers[w].cleanup == Some(Eval(st.watchers[w].getter, st.sigs).0.fid)
    ensures !Eval(st.watchers[w].getter, st.sigs).0.Fn? ==>
              r.watchers[w].cleanup == (if rule == AsWritten then st.watchers[w].cleanup else None)
    ensures r.watchers[w].getter == st.watchers[w].getter && r.watchers[w].running == st.watchers[w].running
    ensures forall v :: v in st.watchers && v != w ==> r.watchers[v] == st.watchers[v]
    ensures forall q :: q in r.queue <==> q in st.queue && q != Watch(w)
    ensures NoDup(st.queue) ==> NoDup(r.queue)
    ensures r.log == st.log + [GetterRan(Watch(w))]
    ensures r.micro == st.micro && r.ctx == st.ctx
    ensures r.sigs.Keys == st.sigs.Keys
    ensures forall k :: k in st.sigs ==> r.sigs[k].value == st.sigs[k].value && r.sigs[k].getter == st.sigs[k].getter
    ensures TracksReads(st.ctx) ==>
              forall k :: k in r.watchers[w].deps <==> k in Eval(st.watchers[w].getter, st.sigs).1
    ensures !TracksReads(st.ctx) ==> r.sigs == st.sigs && r.watchers[w].deps == st.watchers[w].deps
    ensures WatchConsistent(st, w) ==> WatchConsistent(r, w)
  {
    var wt := st.watchers[w];
    var (v, seen) := Eval(wt.getter, st.sigs);
    var cell := KeptCleanup(rule, wt.cleanup, v);
    var st1 := st.(queue := Without(st.queue, Watch(w)), log := st.log + [GetterRan(Watch(w))],
                   watchers := st.watchers[w := wt.(cleanup := cell)]);
    if !TracksReads(st.ctx) then st1
    else
      var (m, deps') := Reconcile(st.sigs, ReactionSub(Watch(w)), wt.deps, seen);
      assert WatchConsistent(st, w) ==> SubscribedExactly(m, ReactionSub(Watch(w)), deps');
      st1.(sigs := m, watchers := st.watchers[w := wt.(cleanup := cell, deps := deps')])
  }

  /** Calling the watcher's cleanup (`cleanup.call?.()`). As written the
      cell keeps it; the intended cell forgets it. */
  function CallCleanup(st: Store, w: WatchId, rule: CellRule): (r: Store)
    requires w in st.watchers
    ensures w in r.watchers
    ensures r.log == st.log + (if st.watchers[w].cleanup.Some? then [CleanupCalled(st.watchers[w].cleanup.value)] else [])
    ensures rule == AsWritten ==> r.watchers == st.watchers
    ensures rule == Intended ==> r.watchers == st.watchers[w := st.watchers[w].(cleanup := None)]
    ensures r.sigs == st.sigs && r.queue == st.queue && r.micro == st.micro && r.ctx == st.ctx
  {
    var wt := st.watchers[w];
    var st1 := st.(watchers := st.watchers[w := wt.(cleanup := CalledCell(rule, wt.cleanup))]);
    if wt.cleanup.Some? then st1.(log := st.log + [CleanupCalled(wt.cleanup.value)]) else st1
  }

  // ---------------------------------------------------------------------
  // WatchEffect

  /** `WatchEffect.start`: mark the watcher running and defer its first run
      to a microtask; a running watcher is left alone. */
  function WatchStart(st: Store, w: WatchId): (r: Store)
    requires w in st.watchers
    ensures st.watchers[w].running ==> r == st
    ensures !st.watchers[w].running ==>
              && r == st.(watchers := st.watchers[w := st.watchers[w].(running := true)],
                          micro := st.micro + [FirstRun(w)])
    ensures w in r.watchers && r.watchers[w].running
  {
    if st.watchers[w].running then st
    else st.(watchers := st.watchers[w := st.watchers[w].(running := true)], micro := st.micro + [FirstRun(w)])
  }

  /** `WatchEffect.stop`: on a running watcher, drop its pending entry, call
      every unsubscribe function, empty the map, call the cleanup and clear
      the running flag; a stopped watcher is left alone. */
  function WatchStop(st: Store, w: WatchId, rule: CellRule): (r: Store)
    requires w in st.watchers
    ensures !st.watchers[w].running ==> r == st
    ensures w in r.watchers && !r.watchers[w].running
    ensures r.watchers.Keys == st.watchers.Keys
    ensures st.watchers[w].running ==>
              && r.watchers[w].deps == []
              && r.watchers[w].cleanup == (if rule == AsWritten then st.watchers[w].cleanup else None)
              && Watch(w) !in r.queue
              && (forall q :: q in r.queue <==> q in st.queue && q != Watch(w))
              && r.log == st.log + (if st.watchers[w].cleanup.Some? then [CleanupCalled(st.watchers[w].cleanup.value)] else [])
              && r.sigs.Keys == st.sigs.Keys
              && (forall k :: k in st.sigs ==>
                    (ReactionSub(Watch(w)) in r.sigs[k].subscribers <==>
                       ReactionSub(Watch(w)) in st.sigs[k].subscribers && k !in st.watchers[w].deps))
              && (forall k, y :: k in st.sigs && y != ReactionSub(Watch(w)) ==>
                    (y in r.sigs[k].subscribers <==> y in st.sigs[k].subscribers))
    ensures NoDup(st.queue) ==> NoDup(r.queue)
    ensures r.micro == st.micro
  {
    var wt := st.watchers[w];
    if !wt.running then st
    else
      var (m, deps') := Reconcile(st.sigs, ReactionSub(Watch(w)), wt.deps, []);
      var st1 := st.(queue := Without(st.queue, Watch(w)), sigs := m,
                     watchers := st.watchers[w := wt.(deps := deps')]);
      var st2 := CallCleanup(st1, w, rule);
      st2.(watchers := st2.watchers[w := st2.watchers[w].(running := false)])
  }

  /** Starting and stopping are idempotent. */
  lemma StartStopIdempotent(st: Store, w: WatchId, rule: CellRule)
    requires w in st.watchers
    ensures WatchStart(WatchStart(st, w), w) == WatchStart(st, w)
    ensures WatchStop(WatchStop(st, w, rule), w, rule) == WatchStop(st, w, rule)
  {
  }

  /** A stopped watcher is subscribed to nothing. */
  lemma StoppedWatcherHearsNothing(st: Store, w: WatchId, rule: CellRule)
    requires w in st.watchers && st.watchers[w].running && WatchConsistent(st, w)
    ensures forall k :: k in WatchStop(st, w, rule).sigs ==> ReactionSub(Watch(w)) !in WatchStop(st, w, rule).sigs[k].subscribers
  {
  }

  /** As written, stopping, restarting and stopping again before the
      deferred first run calls the same cleanup twice: `start` leaves the
      old cell in place until that run replaces it. */
  lemma RestartedStopCallsCleanupAgain(st: Store, w: WatchId, c: nat)
    requires w in st.watchers && st.watchers[w].running && st.watchers[w].cleanup == Some(c)
    ensures WatchStop(WatchStart(WatchStop(st, w, AsWritten), w), w, AsWritten).log
              == st.log + [CleanupCalled(c), CleanupCalled(c)]
  {
    var s1 := WatchStop(st, w, AsWritten);
    var s2 := WatchStart(s1, w);
    assert s2.watchers[w].cleanup == Some(c);
  }

  /** With the intended cell the same sequence calls the cleanup once. */
  lemma RestartedStopCallsCleanupOnce(st: Store, w: WatchId, c: nat)
    requires w in st.watchers && st.watchers[w].running && st.watchers[w].cleanup == Some(c)
    ensures WatchStop(WatchStart(WatchStop(st, w, Intended), w), w, Intended).log
              == st.log + [CleanupCalled(c)]
  {
    var s1 := WatchStop(st, w, Intended);
    var s2 := WatchStart(s1, w);
    assert s2.watchers[w].cleanup.None?;
  }

  // ---------------------------------------------------------------------
  // The scheduler

  /** The closure `effectQueue` holds for a reaction: a computed re-derives
      and then notifies its own subscribers; a watcher calls its cleanup and
      re-runs its effect. */
  function RunReaction(st: Store, q: Reaction, rule: CellRule): (r: Store)
    ensures r.ctx == st.ctx
    ensures NoDup(st.queue) ==> NoDup(r.queue)
  {
    match q
    case Derive(c) =>
      if c in st.sigs && st.sigs[c].getter.Some? then
        Notify(DeriveComputed(st, c), c, Everyone)
      else st
    case Watch(w) =>
      if w in st.watchers then RunEffect(CallCleanup(st, w, rule), w, rule) else st
  }

  /** As written, a re-run whose getter returns nothing calls the kept
      cleanup and keeps it, so the next re-run or `stop` calls it again;
      the intended cell is empty by then. */
  lemma RerunKeepsCalledCleanup(st: Store, w: WatchId, c: nat)
    requires w in st.watchers && st.watchers[w].cleanup == Some(c)
    requires !Eval(st.watchers[w].getter, st.sigs).0.Fn?
    ensures var r := RunReaction(st, Watch(w), AsWritten);
            && r.log == st.log + [CleanupCalled(c), GetterRan(Watch(w))]
            && w in r.watchers && r.watchers[w].cleanup == Some(c)
            && CallCleanup(r, w, AsWritten).log == r.log + [CleanupCalled(c)]
    ensures var r := RunReaction(st, Watch(w), Intended);
            && r.log == st.log + [CleanupCalled(c), GetterRan(Watch(w))]
            && w in r.watchers && r.watchers[w].cleanup.None?
            && CallCleanup(r, w, Intended).log == r.log
  {
  }

  /** The flush microtask re-derives before notifying: every listener of the
      computed hears the freshly derived value. */
  lemma FlushNotifiesDerivedValue(st: Store, c: SigId, rule: CellRule)
    requires c in st.sigs && st.sigs[c].getter.Some?
    ensures forall f :: ListenerSub(f) in st.sigs[c].subscribers ==>
              ListenerCalled(f, Eval(st.sigs[c].getter.value, st.sigs).0) in RunReaction(st, Derive(c), rule).log
  {
    var st1 := DeriveComputed(st, c);
    forall f | ListenerSub(f) in st.sigs[c].subscribers
      ensures ListenerCalled(f, Eval(st.sigs[c].getter.value, st.sigs).0) in RunReaction(st, Derive(c), rule).log
    {
      assert ListenerSub(f) in st1.sigs[c].subscribers;
      var r := Notify(st1, c, Everyone);
      assert ListenerCalled(f, st1.sigs[c].value) in r.log[|st1.log|..];
    }
  }

  /** One microtask: a flush runs the reaction's closure only if the
      reaction is still pending; a watcher's first run happens only if it is
      still running, with a fresh cleanup cell. */
  function RunMicro(st: Store, m: Micro, rule: CellRule): (r: Store)
    ensures NoDup(st.queue) ==> NoDup(r.queue)
  {
    match m
    case Flush(q) => if q in st.queue then RunReaction(st, q, rule) else st
    case FirstRun(w) =>
      if w in st.watchers && st.watchers[w].running
      then RunEffect(st.(watchers := st.watchers[w := st.watchers[w].(cleanup := None)]), w, rule)
      else st
  }

  /** Take the oldest microtask and run it. */
  function Step(st: Store, rule: CellRule): (r: Store)
    requires st.micro != []
    ensures NoDup(st.queue) ==> NoDup(r.queue)
  {
    RunMicro(st.(micro := st.micro[1..]), st.micro[0], rule)
  }

  /** Starting and then stopping a watcher before microtasks run means its
      getter never runs: the deferred first run finds it stopped. */
  lemma StartThenStopNeverRuns(st: Store, w: WatchId, rule: CellRule)
    requires w in st.watchers && !st.watchers[w].running
    ensures var s := WatchStop(WatchStart(st, w), w, rule);
            && FirstRun(w) in s.micro
            && RunMicro(s, FirstRun(w), rule) == s
            && GetterRan(Watch(w)) !in s.log[|st.log|..]
  {
    var s := WatchStop(WatchStart(st, w), w, rule);
    assert WatchStart(st, w).micro == st.micro + [FirstRun(w)];
    assert FirstRun(w) in s.micro;
  }

  /** Starting, stopping and starting again before microtasks run queues
      two first runs, and both run the getter: the first finds the watcher
      running again, and leaves it running for the second. In the source
      each of those runs makes its own cleanup object, which the one cleanup
      cell of this model does not tell apart. */
  lemma RestartRunsFirstRunTwice(st: Store, w: WatchId, rule: CellRule)
    requires w in st.watchers && !st.watchers[w].running
    ensures var s := WatchStart(WatchStop(WatchStart(st, w), w, rule), w);
            var s1 := RunMicro(s, FirstRun(w), rule);
            && s.micro == st.micro + [FirstRun(w), FirstRun(w)]
            && s1.log == s.log + [GetterRan(Watch(w))]
            && w in s1.watchers && s1.watchers[w].running
            && RunMicro(s1, FirstRun(w), rule).log == s1.log + [GetterRan(Watch(w))]
  {
    var s0 := WatchStart(st, w);
    assert s0.micro == st.micro + [FirstRun(w)];
    var s := WatchStart(WatchStop(s0, w, rule), w);
    assert s.micro == s0.micro + [FirstRun(w)];
  }

  // ---------------------------------------------------------------------
  // tick

  /** The reactions whose getter ran, in order. */
  function Ran(es: seq<Event>): seq<Reaction>
    decreases |es|
  {
    if es == [] then [] else (if es[0].GetterRan? then [es[0].r] else []) + Ran(es[1..])
  }

  lemma {:induction false} RanAppend(a: seq<Event>, b: seq<Event>)
    ensures Ran(a + b) == Ran(a) + Ran(b)
    decreases |a|
  {
    if a != [] {
      assert (a + b)[0] == a[0] && (a + b)[1..] == a[1..] + b;
      RanAppend(a[1..], b);
      var h := if a[0].GetterRan? then [a[0].r] else [];
      assert Ran(a + b) == h + Ran(a[1..] + b);
      assert Ran(a) == h + Ran(a[1..]);
    } else {
      assert a + b == b;
    }
  }

  lemma {:induction false} RanOfNotify(es: seq<Event>, subs: seq<Subscriber>, v: Value, filter: Subscriber -> bool)
    requires forall e :: e in es ==> NotifiedBy(e, subs, v, filter)
    ensures Ran(es) == []
    decreases |es|
  {
    if es != [] {
      assert es[0] in es;
      assert forall e :: e in es[1..] ==> e in es;
      RanOfNotify(es[1..], subs, v, filter);
    }
  }

  /** A log extended by one event and then by more. */
  lemma LogSplice(a: seq<Event>, b: seq<Event>, c: seq<Event>, e: Event)
    requires b == a + [e] && |c| >= |b| && c[..|b|] == b
    ensures |c| >= |a| && c[..|a|] == a
    ensures c[|a|..] == [e] + c[|b|..]
  {
    assert c[..|a|] == b[..|a|];
    assert c[|a|..] == c[|a|..|b|] + c[|b|..];
  }

  /** Re-deriving and notifying runs that computed's getter and nothing else. */
  lemma DeriveClosureRan(st: Store, c: SigId, rule: CellRule)
    requires c in st.sigs && st.sigs[c].getter.Some?
    ensures |RunReaction(st, Derive(c), rule).log| >= |st.log|
    ensures RunReaction(st, Derive(c), rule).log[..|st.log|] == st.log
    ensures Ran(RunReaction(st, Derive(c), rule).log[|st.log|..]) == [Derive(c)]
  {
    var st1 := DeriveComputed(st, c);
    var r := Notify(st1, c, Everyone);
    assert RunReaction(st, Derive(c), rule) == r;
    var notified := r.log[|st1.log|..];
    assert forall e :: e in notified ==> NotifiedBy(e, st1.sigs[c].subscribers, st1.sigs[c].value, Everyone);
    RanOfNotify(notified, st1.sigs[c].subscribers, st1.sigs[c].value, Everyone);
    LogSplice(st.log, st1.log, r.log, GetterRan(Derive(c)));
    RanAppend([GetterRan(Derive(c))], notified);
  }

  /** Re-running a watcher runs its getter and nothing else. */
  lemma WatchClosureRan(st: Store, w: WatchId, rule: CellRule)
    requires w in st.watchers
    ensures |RunReaction(st, Watch(w), rule).log| >= |st.log|
    ensures RunReaction(st, Watch(w), rule).log[..|st.log|] == st.log
    ensures Ran(RunReaction(st, Watch(w), rule).log[|st.log|..]) == [Watch(w)]
  {
    var st1 := CallCleanup(st, w, rule);
    var r := RunEffect(st1, w, rule);
    var called := st1.log[|st.log|..];
    assert r.log[|st.log|..] == called + [GetterRan(Watch(w))];
    RanAppend(called, [GetterRan(Watch(w))]);
    assert called == [] || called == [CleanupCalled(st.watchers[w].cleanup.value)];
  }

  /** A reaction whose closure has something to run: a computed that has a
      getter, or a watcher that exists. */
  predicate Live(st: Store, q: Reaction)
  {
    match q
    case Derive(c) => c in st.sigs && st.sigs[c].getter.Some?
    case Watch(w) => w in st.watchers
  }

  /** Running one reaction's closure runs exactly that reaction's getter
      when it is live, and nothing otherwise. */
  lemma RunReactionRan(st: Store, q: Reaction, rule: CellRule)
    ensures |RunReaction(st, q, rule).log| >= |st.log|
    ensures RunReaction(st, q, rule).log[..|st.log|] == st.log
    ensures Ran(RunReaction(st, q, rule).log[|st.log|..]) == (if Live(st, q) then [q] else [])
  {
    match q
    case Derive(c) =>
      if c in st.sigs && st.sigs[c].getter.Some? {
        DeriveClosureRan(st, c, rule);
      } else {
        assert RunReaction(st, q, rule).log[|st.log|..] == [];
      }
    case Watch(w) =>
      if w in st.watchers {
        WatchClosureRan(st, w, rule);
      } else {
        assert RunReaction(st, q, rule).log[|st.log|..] == [];
      }
  }

  /** A reaction's closure neither removes any other pending reaction nor
      creates or destroys any reaction. */
  lemma RunReactionFrame(st: Store, q: Reaction, rule: CellRule)
    ensures forall k :: k in st.queue && k != q ==> k in RunReaction(st, q, rule).queue
    ensures forall k :: Live(RunReaction(st, q, rule), k) <==> Live(st, k)
  {
    var r := RunReaction(st, q, rule);
    match q
    case Derive(c) =>
      if c in st.sigs && st.sigs[c].getter.Some? {
        var st1 := DeriveComputed(st, c);
        assert r == Notify(st1, c, Everyone);
        assert forall k :: Live(st1, k) <==> Live(st, k);
      }
    case Watch(w) =>
      if w in st.watchers {
        var st1 := CallCleanup(st, w, rule);
        assert r == RunEffect(st1, w, rule);
        assert forall k :: Live(st1, k) <==> Live(st, k);
      }
  }

  /** One iteration of `tick`'s loop: a reaction still pending has its
      closure run and is then deleted; one no longer pending is skipped. */
  function TickStep(st: Store, k: Reaction, rule: CellRule): (r: Store)
    ensures NoDup(st.queue) ==> NoDup(r.queue)
    ensures k !in r.queue
    ensures k !in st.queue ==> r == st
    ensures |r.log| >= |st.log| && r.log[..|st.log|] == st.log
    ensures k in st.queue ==> Ran(r.log[|st.log|..]) == (if Live(st, k) then [k] else [])
    ensures forall j :: j in st.queue && j != k ==> j in r.queue
    ensures forall j :: Live(r, j) <==> Live(st, j)
  {
    if k in st.queue then
      var ran := RunReaction(st, k, rule);
      RunReactionRan(st, k, rule);
      RunReactionFrame(st, k, rule);
      ran.(queue := Without(ran.queue, k))
    else st
  }

  /** `tick`'s loop over the snapshot of pending reactions. */
  function TickOver(st: Store, keys: seq<Reaction>, rule: CellRule): (r: Store)
    ensures NoDup(st.queue) ==> NoDup(r.queue)
    decreases |keys|
  {
    if keys == [] then st else TickOver(TickStep(st, keys[0], rule), keys[1..], rule)
  }

  /** The live reactions among `keys`, in order. */
  function LiveIn(st: Store, keys: seq<Reaction>): (r: seq<Reaction>)
    ensures forall q :: q in r <==> q in keys && Live(st, q)
    decreases |keys|
  {
    if keys == [] then [] else (if Live(st, keys[0]) then [keys[0]] else []) + LiveIn(st, keys[1..])
  }

  /** Filtering by liveness looks only at which reactions are live. */
  lemma {:induction false} LiveInSame(a: Store, b: Store, keys: seq<Reaction>)
    requires forall q :: Live(a, q) <==> Live(b, q)
    ensures LiveIn(a, keys) == LiveIn(b, keys)
    decreases |keys|
  {
    if keys != [] {
      LiveInSame(a, b, keys[1..]);
    }
  }

  /** A duplicate-free list filtered stays duplicate-free. */
  lemma {:induction false} LiveInNoDup(st: Store, keys: seq<Reaction>)
    requires NoDup(keys)
    ensures NoDup(LiveIn(st, keys))
    decreases |keys|
  {
    if keys != [] {
      assert keys == [keys[0]] + keys[1..];
      NoDupCons(keys[0], keys[1..]);
      LiveInNoDup(st, keys[1..]);
      if Live(st, keys[0]) {
        NoDupCons(keys[0], LiveIn(st, keys[1..]));
      } else {
        assert LiveIn(st, keys) == LiveIn(st, keys[1..]);
      }
    }
  }

  /** Ticking over distinct pending ids runs the getter of every live one,
      in the given order, and nothing else: no closure removes another
      pending reaction, so each is still pending when its turn comes. */
  lemma {:induction false} TickOverRan(st: Store, keys: seq<Reaction>, rule: CellRule)
    requires NoDup(keys) && forall k :: k in keys ==> k in st.queue
    ensures |TickOver(st, keys, rule).log| >= |st.log| && TickOver(st, keys, rule).log[..|st.log|] == st.log
    ensures Ran(TickOver(st, keys, rule).log[|st.log|..]) == LiveIn(st, keys)
    decreases |keys|
  {
    if keys != [] {
      var st1 := TickStep(st, keys[0], rule);
      TickOverTail(st, keys, rule);
      TickOverRan(st1, keys[1..], rule);
      var r := TickOver(st1, keys[1..], rule);
      assert r == TickOver(st, keys, rule);
      SliceChain(st.log, st1.log, r.log);
      RanAppend(st1.log[|st.log|..], r.log[|st1.log|..]);
    } else {
      assert st.log[|st.log|..] == [];
    }
  }

  /** After the first step of `tick`'s loop, the remaining ids are still
      distinct and pending, and the live ones among them are the same. */
  lemma TickOverTail(st: Store, keys: seq<Reaction>, rule: CellRule)
    requires keys != [] && NoDup(keys) && forall k :: k in keys ==> k in st.queue
    ensures var st1 := TickStep(st, keys[0], rule);
            && NoDup(keys[1..]) && (forall k :: k in keys[1..] ==> k in st1.queue)
            && |st1.log| >= |st.log| && st1.log[..|st.log|] == st.log
            && LiveIn(st, keys) == Ran(st1.log[|st.log|..]) + LiveIn(st1, keys[1..])
  {
    var st1 := TickStep(st, keys[0], rule);
    assert keys == [keys[0]] + keys[1..];
    NoDupCons(keys[0], keys[1..]);
    assert forall k :: k in keys[1..] ==> k in st.queue && k != keys[0];
    LiveInSame(st1, st, keys[1..]);
  }

  /** Extending a log twice extends it once, by both additions in turn. */
  lemma SliceChain(x: seq<Event>, y: seq<Event>, z: seq<Event>)
    requires |x| <= |y| && y[..|x|] == x
    requires |y| <= |z| && z[..|y|] == y
    ensures |x| <= |z| && z[..|x|] == x
    ensures z[|x|..] == y[|x|..] + z[|y|..]
  {
    assert z[..|y|][..|x|] == z[..|x|];
  }

  /** `tick()`: flush the reactions pending when it starts, in insertion
      order. The getters that run are exactly those of the live pending
      reactions, each once, in that order; reactions scheduled during the
      tick wait for their own microtask. */
  function Tick(st: Store, rule: CellRule): (r: Store)
    requires NoDup(st.queue)
    ensures |r.log| >= |st.log| && r.log[..|st.log|] == st.log
    ensures Ran(r.log[|st.log|..]) == LiveIn(st, st.queue)
    ensures NoDup(Ran(r.log[|st.log|..]))
    ensures forall q :: q in Ran(r.log[|st.log|..]) <==> q in st.queue && Live(st, q)
    ensures NoDup(r.queue)
  {
    var r := TickOver(st, st.queue, rule);
    TickOverRan(st, st.queue, rule);
    LiveInNoDup(st, st.queue);
    r
  }
}

=== FILE: values.dfy ===
/** JavaScript values as the rendering engine sees them: props records,
    `String(value)`, truthiness, ASCII case mapping and decimal text. */
module Values {

  /** A JavaScript value. Functions, symbols and objects carry an identity so
      that `===` compares them by reference; floating point is not modelled. */
  datatype Value =
    | Undefined
    | Null
    | Bool(b: bool)
    | Num(n: int)
    | Str(s: string)
    | Fn(fid: nat)
    | Sym(sid: nat)
    | Obj(oid: nat, fields: seq<(string, Value)>)

  /** A props record: own enumerable keys in insertion order with their values. */
  type Props = seq<(string, Value)>

  function Keys(p: Props): (ks: seq<string>)
    ensures |ks| == |p|
    ensures forall i :: 0 <= i < |p| ==> ks[i] == p[i].0
  {
    if p == [] then [] else [p[0].0] + Keys(p[1..])
  }

  /** `key in props`. */
  predicate Has(p: Props, key: string) {
    key in Keys(p)
  }

  /** `props[key]`: the first entry with that key, `undefined` when absent. */
  function Get(p: Props, key: string): (v: Value)
    ensures !Has(p, key) ==> v == Undefined
    ensures Has(p, key) ==> (key, v) in p
  {
    if p == [] then Undefined
    else if p[0].0 == key then p[0].1
    else Get(p[1..], key)
  }

  /** `delete props[key]`. */
  function Remove(p: Props, key: string): (r: Props)
    ensures !Has(r, key)
    ensures forall k :: k != key ==> (Has(r, k) <==> Has(p, k)) && Get(r, k) == Get(p, k)
  {
    if p == [] then []
    else if p[0].0 == key then Remove(p[1..], key)
    else
      var rest := Remove(p[1..], key);
      var r := [p[0]] + rest;
      assert r[0] == p[0] && r[1..] == rest;
      assert Keys(r) == [p[0].0] + Keys(rest);
      assert Keys(p) == [p[0].0] + Keys(p[1..]);
      assert forall k :: k != key ==> Get(r, k) == Get(p, k);
      assert forall k :: k != key ==> (Has(r, k) <==> k == p[0].0 || Has(rest, k));
      assert forall k :: k != key ==> (Has(p, k) <==> k == p[0].0 || Has(p[1..], k));
      r
  }

  predicate DistinctKeys(p: Props) {
    forall i, j :: 0 <= i < j < |p| ==> p[i].0 != p[j].0
  }

  /** JavaScript falsiness (`!value`), without NaN. */
  predicate IsFalsy(v: Value) {
    v == Undefined || v == Null || v == Bool(false) || v == Num(0) || v == Str("")
  }

  predicate IsFunction(v: Value) {
    v.Fn?
  }

  /** `typeof value`. */
  function TypeOf(v: Value): string {
    match v
    case Undefined => "undefined"
    case Null => "object"
    case Bool(_) => "boolean"
    case Num(_) => "number"
    case Str(_) => "string"
    case Fn(_) => "function"
    case Sym(_) => "symbol"
    case Obj(_, _) => "object"
  }

  /** `String(value)`. A function's source text and a symbol's description
      are not modelled and render as fixed placeholders. */
  function ToStr(v: Value): string {
    match v
    case Undefined => "undefined"
    case Null => "null"
    case Bool(b) => if b then "true" else "false"
    case Num(n) => IntToDecimal(n)
    case Str(s) => s
    case Fn(_) => "function"
    case Sym(_) => "Symbol()"
    case Obj(_, _) => "[object Object]"
  }

  // ---------------------------------------------------------------------
  // ASCII case mapping (`toLowerCase` restricted to A-Z)

  predicate IsUpper(c: char) {
    'A' <= c <= 'Z'
  }

  function LowerChar(c: char): (d: char)
    ensures !IsUpper(d)
    ensures !IsUpper(c) ==> d == c
  {
    if IsUpper(c) then (c as int - 'A' as int + 'a' as int) as char else c
  }

  function UpperChar(c: char): char {
    if 'a' <= c <= 'z' then (c as int - 'a' as int + 'A' as int) as char else c
  }

  function Lower(s: string): (r: string)
    ensures |r| == |s|
    ensures forall i :: 0 <= i < |s| ==> r[i] == LowerChar(s[i])
  {
    if s == [] then [] else [LowerChar(s[0])] + Lower(s[1..])
  }

  predicate StartsWith(s: string, prefix: string) {
    |prefix| <= |s| && s[..|prefix|] == prefix
  }

  /** `key.toLowerCase().substring(2)`: the event type named by an `on*`
      prop key (`substring` past the end gives the empty string). */
  function EventType(key: string): (e: string)
    ensures |e| == if |key| >= 2 then |key| - 2 else 0
  {
    if |key| >= 2 then Lower(key)[2..] else ""
  }

  // ---------------------------------------------------------------------
  // Decimal text of integers (`String(n)` for an integral number)

  function DigitChar(d: nat): char
    requires d < 10
  {
    ('0' as int + d) as char
  }

  function DigitValue(c: char): int {
    c as int - '0' as int
  }

  predicate IsDigit(c: char) {
    '0' <= c <= '9'
  }

  function NatToDecimal(n: nat): (s: string)
    ensures |s| > 0
    ensures forall i :: 0 <= i < |s| ==> IsDigit(s[i])
    ensures s[0] == '0' ==> n == 0
  {
    if n < 10 then [DigitChar(n)] else NatToDecimal(n / 10) + [DigitChar(n % 10)]
  }

  function IntToDecimal(n: int): string {
    if n < 0 then "-" + NatToDecimal(-n) else NatToDecimal(n)
  }

  /** Reads back a string of decimal digits. */
  function ParseDecimal(s: string): int {
    if s == [] then 0 else ParseDecimal(s[..|s| - 1]) * 10 + DigitValue(s[|s| - 1])
  }

  /** Decimal text is an exact encoding: parsing it gives the number back. */
  lemma {:induction false} DecimalRoundTrip(n: nat)
    ensures ParseDecimal(NatToDecimal(n)) == n
  {
    if n >= 10 {
      DecimalRoundTrip(n / 10);
      var s := NatToDecimal(n);
      assert s[..|s| - 1] == NatToDecimal(n / 10);
    }
  }

  /** Different numbers have different decimal text. */
  lemma DecimalInjective(m: int, n: int)
    requires IntToDecimal(m) == IntToDecimal(n)
    ensures m == n
  {
    if m < 0 && n < 0 {
      assert NatToDecimal(-m) == IntToDecimal(m)[1..];
      DecimalRoundTrip(-m);
      DecimalRoundTrip(-n);
    } else if m >= 0 && n >= 0 {
      DecimalRoundTrip(m);
      DecimalRoundTrip(n);
    }
  }
}

=== FILE: wrappers.dfy ===
/** Failure-compatible wrappers used across the model: an optional value and
    a success-or-error result standing for a JavaScript `throw`. */
module Wrappers {

  datatype Option<+T> = None | Some(value: T) {

    /** The wrapped value, or `default` when absent (JavaScript's `??`). */
    function GetOr(default: T): T {
      match this
      case Some(v) => v
      case None => default
    }
  }

  datatype Result<+T, +E> = Ok(value: T) | Err(error: E) {

    predicate IsFailure() {
      Err?
    }

    function PropagateFailure<U>(): Result<U, E>
      requires Err?
    {
      Err(error)
    }

    function Extract(): T
      requires Ok?
    {
      value
    }
  }
}
